=== FILE: README.md ===
# Stock-Charts: a Dafny model of the market-data and indicator core

Stock-Charts is a stock charting application. It has two servers. The
Flask server (`server/`) serves daily history and technical indicators,
and resolves Indian and US tickers. The FastAPI server (`backend/`)
serves Yahoo chart data, pandas indicators and a websocket feed of live
trades. It also has two browser clients. The React/JSX client (`client/`)
caches indicator series for five minutes and draws them on a chart. The
React/TSX client (`frontend/`) folds websocket messages into its state and
draws candles, volume bars and indicator lines.

This project models, in Dafny, the data handling of those parts:

- the Python indicator library (SMA, EMA, RSI, MACD), with Python's
  errors as values;
- the Flask server's local SMA, gap filling, five-minute history cache,
  interval table and `/api/indicators` validation;
- ticker normalisation, the NSE → BSE → bare-symbol fallback, the
  exchange and currency labels, and the volume and market-cap tiers;
- the FastAPI server's timeframe tables, the cleaning of Yahoo quotes, the
  integrity-checked history cache, indicator payloads, the two REST
  endpoints, and the websocket registry (`ConnectionManager`);
- trade-point sanitising (`backend/utils.py`);
- the JSX client's indicator cache with its TTL and prefix clearing, the
  realtime candle formatter, chart rows, volume rows and their sort,
  indicator-id parsing, toggle state, `start_index` alignment, series
  configuration and the dropdown's selection list;
- the TSX client's message fold with its 100-trade buffer, indicator
  toggling, chart rows, indicator lines and the live bar.

Everything is pure functions over immutable datatypes. Outside inputs are
parameters of the functions that use them:

- the fetch outcome;
- the clock (`now`, `doneAt`);
- yfinance's "has history" answer;
- the pandas calculators;
- a float parser;
- the random volume fallback.

Some of the modelled code is not reached from the app's own entry points:

- `loadIndicators` (client/src/StockChart.jsx:313) is never called, so
  `ClientChart.Placements`, `AlignExact`, `AlignInRange`,
  `SignalAlignExact` and `SignalLagsMacd` describe dead code. The Flask `/api/indicators` reply carries no `values` or
  `start_index` for it to read anyway.
- server/app.py's own `calculate_sma` and `fill_missing_data` are never
  called.
- None of the client files imports the three exports of
  `client/src/dataFormatter.js`.

They are modelled as written.

Times are whole numbers: seconds, milliseconds or day numbers, as each
source uses them. Prices are `real`.

Modules: `Wrappers` (Option/Result), `Seqs` (filter-map, removal,
suffixes) and `Text` (substrings, digits, ASCII upper-casing, Python
`strip`, Python `int()` and JavaScript `parseInt`) are shared helpers.
There is one module per source file: `Indicators`, `FlaskServer`,
`StockInfo`, `BackendMain`, `Connections`, `BackendUtils`, `ApiService`,
`DataFormatter`, `ClientChart`, `IndicatorDropdown`, `FrontendTypes`,
`FrontendApp`, `FrontendChart` and `TechnicalIndicators`.

Some behaviour of the code that the model keeps:

- The client indicator cache key is `symbol_indicator_period`. It has no
  timeframe component, and a symbol or indicator holding "_" can share a
  key with another request.
- Clearing a symbol removes every key that starts with the symbol's text.
  So clearing "AAPL" also clears "AAPLX…".
- The realtime formatter buckets by UTC calendar day and carries no
  volume.
- A trade from an earlier day starts a fresh candle. It is not dropped.
- No session token guards against stale asynchronous results.

## Model

| member | source | states |
|---|---|---|
| `Indicators.Sma` | server/indicators.py:8-17 | Empty list when there are fewer prices than the period. ZeroDivisionError for period 0. Otherwise one value per full window, each the window's mean and between the window's minimum and maximum. |
| `Indicators.MeanBetween` | server/indicators.py:15 | A mean of values in [lo, hi] lies in [lo, hi]. |
| `Indicators.MeanBounds` | server/indicators.py:15 | A window mean lies between the window's smallest and largest price. |
| `Indicators.Multiplier` | server/indicators.py:25 | The EMA weight 2/(period+1) is positive and at most 1 for period ≥ 1. |
| `Indicators.EmaFrom` | server/indicators.py:27-29 | Each value is the EMA step from the previous value, one value per remaining price. |
| `Indicators.EmaValues` | server/indicators.py:24-31 | Full length, seeded with the first price, each later value the recurrence of the one before. |
| `Indicators.Ema` | server/indicators.py:19-31 | Empty list when there are fewer prices than the period. IndexError on an empty list with period 0. Otherwise the full-length EMA list (`EmaValues`): it starts at the first price and each later value is the recurrence step from the one before. |
| `Indicators.EmaWithinRange` | server/indicators.py:24-29 | For period ≥ 1, every EMA value lies between the minimum and maximum of the prices seen so far. |
| `Indicators.Gains` | server/indicators.py:42-44 | One non-negative gain per price step. |
| `Indicators.Losses` | server/indicators.py:42-45 | One non-negative loss per price step. |
| `Indicators.GainLossSplit` | server/indicators.py:43-45 | A step's gain and loss are non-negative, at most one is non-zero, and gain minus loss is the price change. |
| `Indicators.RsiValue` | server/indicators.py:51-59 | Exactly 100 when the window has no loss, otherwise in [0, 100). |
| `Indicators.Rsi` | server/indicators.py:33-61 | Empty unless there are more than `period` prices. ZeroDivisionError for period 0. Otherwise len − period values, each in [0, 100] and equal to 100 exactly when its window's loss sum is 0. |
| `Indicators.PyIndex` | server/indicators.py:77 | Python list indexing: index k in [0, len) reads element k, k in [−len, 0) reads element len + k, and any other index raises IndexError. |
| `Indicators.DiffFrom` | server/indicators.py:76-78 | The difference loop succeeds exactly when every read `a[j + offset]` succeeds; it then yields one value per remaining index, value j being `a[j + offset] − b[j]`, and otherwise raises IndexError. |
| `Indicators.DiffFromFails` | server/indicators.py:76-77 | If any index the loop reaches is past the end of the first list, the loop raises IndexError. |
| `Indicators.MacdAsWritten` | server/indicators.py:63-95 | As written: no lines below `slow` prices. Otherwise the MACD loop reads `ema_fast[i + start_index]`. |
| `Indicators.MacdAsWrittenNeverProducesLines` | server/indicators.py:65-77 | With the default periods: empty lines below 26 prices, and IndexError for every list of 26 or more. |
| `Indicators.MacdAsWrittenCounterexample` | server/indicators.py:74-77 | 26 equal prices already raise IndexError. |
| `Indicators.MacdCorrected` | server/indicators.py:63-95 | Same-index MACD line of full length. The signal is empty when the MACD line is shorter than the signal period, and otherwise the EMA of the MACD line with the signal period. The histogram is MACD minus signal, index by index. |
| `Indicators.MacdCorrectedDefaults` | server/indicators.py:63-95 | With the defaults and at least 26 prices, all three lines have one value per price. |
| `FlaskServer.CalculateSma` | server/app.py:30-37 | The server's unrounded local SMA: empty below the period, ZeroDivisionError for period 0 on any list, otherwise the window means. |
| `FlaskServer.GapCount` | server/app.py:52-53 | Consecutive days d apart need d − 1 placeholders, and none when d ≤ 1. |
| `FlaskServer.Gaps` | server/app.py:54-63 | The placeholders are the days after the current one, in order. |
| `FlaskServer.FillMissingData` | server/app.py:39-64 | Fewer than two rows come back unchanged; otherwise the output is at least as long. |
| `FlaskServer.FillLength` | server/app.py:43-63 | Output length is the input length plus the sum of the gap counts. |
| `FlaskServer.FillMissingLength` | server/app.py:39-64 | The same length law for the whole function, short inputs included. |
| `FlaskServer.PositionStep` | server/app.py:44-56 | Input row i+1 lands exactly 1 + gap(i) places after row i. |
| `FlaskServer.FillFromShape` | server/app.py:44-63 | Every input row appears at its position, followed by exactly its gap's placeholders. |
| `FlaskServer.FillMissingShape` | server/app.py:39-64 | Every input row appears in order, and between rows i and i+1 lie exactly the missing days. |
| `FlaskServer.CachedBody` | server/app.py:126-129 | A cached body is served exactly when the key is present and less than 300 s old. |
| `FlaskServer.YfInterval` | server/app.py:142-147 | D/1d → 1d, 1wk/1W → 1wk, 1mo/1M → 1mo, anything else → 1d. |
| `FlaskServer.YfPeriod` | server/app.py:150-155 | 1mo → 10y, 1wk → 5y, otherwise 1y. |
| `FlaskServer.GetHistoricalData` | server/app.py:113-189 | A missing symbol gives a 400 with the cache untouched. A fresh entry under `symbol_interval` is served as is. Otherwise the fetched data, or else the mock data, is served and stored with the current time. |
| `FlaskServer.HistoricalServedFromCache` | server/app.py:122-129 | A repeat of a request within 300 s returns the first reply without fetching. |
| `FlaskServer.ValidateIndicatorParams` | server/app.py:199-223 | The checks run in source order (symbol, type, known type, integer period, 1..200), each error if and only if all earlier checks passed. A success carries the parsed period. |
| `FlaskServer.ParsePeriodIsPyInt` | server/app.py:202-219 | The period is Python `int()` of the argument, or of the default text "20" when there is none. |
| `FlaskServer.ParseTwenty` | server/app.py:202 | The default period text "20" parses to 20. |
| `Text.Upper` | server/stock_info.py:9 | `upper()` keeps the length and upper-cases each character in place; the result is an upper-case form. |
| `Text.UpperOfUpperForm` | server/stock_info.py:9 | `upper()` leaves an upper-case form unchanged. |
| `Text.Strip` | server/stock_info.py:9 | `strip()` yields a string no longer than the input, with no whitespace at either end. |
| `Text.StripIsSlice` | server/stock_info.py:9 | `strip()` yields a slice of the input with only whitespace outside it on both sides, so with the previous row it removes the maximal whitespace runs at both ends. |
| `Text.StripNoop` | server/stock_info.py:9 | `strip()` leaves a string without whitespace at either end unchanged. |
| `Text.ParsePyInt` | server/app.py:219 | Python's `int()` of text: a success means the stripped text is non-empty and every character is whitespace, a sign, a digit or an underscore, so "2.5" and "abc" raise. A negative result comes from a leading '-'. Its values are pinned down by `ParseDigits`, `ParseIntToString`, `ParseGrouped` and `ParseRejectsDoubleUnderscore`. |
| `Text.ParseDigits` | server/app.py:219 | `int()` of a bare run of ASCII digits is its decimal value. |
| `Text.ParseIntToString` | server/app.py:219 | `int()` of the decimal rendering of any integer, negative ones included, gives the integer back. |
| `Text.ParseGrouped` | server/app.py:219 | `int()` accepts a single underscore between digit groups and ignores it: "1_0" is 10. |
| `Text.ParseRejectsDoubleUnderscore` | server/app.py:219-222 | Two underscores in a row make `int()` raise ValueError. |
| `StockInfo.Normalise` | server/stock_info.py:9 | `upper().strip()` yields an upper-case form without surrounding whitespace. |
| `StockInfo.NormaliseSlice` | server/stock_info.py:9 | The normal form is the upper-casing of a slice of the symbol, with only whitespace before and after that slice. |
| `StockInfo.FormatSymbol` | server/stock_info.py:7-26 | Keeps the normalised symbol when it contains .NS or .BO or is a listed US ticker. Otherwise appends .NS, and appends .NS only in that case. |
| `StockInfo.FormatSymbolIdempotent` | server/stock_info.py:7-26 | Formatting a formatted symbol changes nothing. |
| `StockInfo.ResolveListing` | server/stock_info.py:32-52 | The ticker used always has history. The formatted ticker wins when it has history. After a failed .NS ticker: the raw symbol upper-cased + .BO if it has history, else the bare upper-cased symbol if it has history, else None. After any other failed ticker: the bare upper-cased symbol when the ticker contains a dot and the bare one has history, else None. |
| `StockInfo.UsWithoutHistory` | server/stock_info.py:37-52 | A listed US ticker without history resolves to nothing. |
| `StockInfo.BseRetry` | server/stock_info.py:37-42 | A failed .NS ticker followed by a BSE ticker with history resolves to the BSE ticker. |
| `StockInfo.PlainTickerToNse` | server/stock_info.py:22-26 | A plain upper-case ticker outside the US list is sent to the NSE. |
| `StockInfo.PlainTickerFallsBackToBse` | server/stock_info.py:32-42 | Such a ticker, missing on NSE and present on BSE, resolves to its .BO form. |
| `StockInfo.Exchange` | server/stock_info.py:61 | NSE for .NS, else BSE for .BO, else the reported exchange, NASDAQ by default. |
| `StockInfo.Currency` | server/stock_info.py:64 | The rupee sign (U+20B9) exactly for NSE/BSE, the dollar sign otherwise. |
| `StockInfo.CurrencyAsWritten` | server/stock_info.py:64 | As written: the three characters U+00E2 U+201A U+00B9 exactly for NSE/BSE, the dollar sign otherwise. |
| `StockInfo.RupeeMisencoded` | server/stock_info.py:64 | The written sign is the rupee sign's UTF-8 bytes E2 82 B9 decoded as Windows-1252, and differs from the rupee sign. |
| `StockInfo.IndianListingInRupees` | server/stock_info.py:32-64 | When the symbol's normal form is not a US ticker and the listing resolves to the formatted ticker or the .BO retry, the exchange label of the resolved ticker is NSE or BSE, so the price is in rupees whatever yfinance reports. |
| `StockInfo.BareFallbackInDollars` | server/stock_info.py:32-64 | A plain non-US ticker with no .NS or .BO history but history of its own resolves to the bare ticker and, unless yfinance reports NSE or BSE, is priced in dollars. |
| `StockInfo.PriceChange` | server/stock_info.py:54-57 | Last close minus the previous one, and 0 for a single row. |
| `StockInfo.FormatVolume` | server/stock_info.py:100-109 | B/M/K tiers at 1e9/1e6/1e3, each exactly on its range, with a mantissa ≥ 1 (and < 1000 below B). |
| `StockInfo.FormatMarketCap` | server/stock_info.py:89-98 | T/B/M tiers at 1e12/1e9/1e6, with the same mantissa bounds. |
| `StockInfo.ScaledRoundTrip` | server/stock_info.py:89-109 | Mantissa times the suffix's unit gives back the number, for both formatters. |
| `BackendMain.TimeframeParams` | backend/main.py:35-45 | 1D → (1d, 5m), 1W → (1mo, 1d), 1M → (3mo, 1d), 1Y → (1y, 1wk), anything else → (3mo, 1d). |
| `BackendMain.RestParamsAgree` | backend/main.py:121-128 | The REST fetch's range table, with its 1M default, agrees with `get_timeframe_params` on every timeframe. |
| `BackendMain.RowAt` | backend/main.py:178-187 | Row i is kept exactly when none of its five values is null, and keeps its timestamp and close. |
| `BackendMain.Rows` | backend/main.py:178 | One candidate row per timestamp. |
| `BackendMain.Columns` | backend/main.py:193-205 | The six arrays have one entry per bar, each read from that bar. |
| `BackendMain.CleanQuote` | backend/main.py:164-205 | None for no timestamps, short columns or no complete row. Otherwise a consistent, non-empty payload of the complete rows. |
| `BackendMain.CleanKeepsCompleteRows` | backend/main.py:177-187 | A bar is in the cleaned data exactly when some row of the quote is complete and equals it. |
| `BackendMain.CleanCompleteQuote` | backend/main.py:177-205 | When every row is complete, nothing is dropped and the timestamps are unchanged. |
| `BackendMain.CleanAllIncomplete` | backend/main.py:189-191 | A quote whose only row has a null volume yields no payload. |
| `BackendMain.GetHistoricalData` | backend/main.py:84-109 | A cache hit returns without fetching. Otherwise only a fetched payload that passes the integrity check is stored and returned, and everything else is a 503. |
| `BackendMain.CleanedPayloadAccepted` | backend/main.py:91-102 | On a miss, the cleaner's output is accepted exactly when the cleaner produced a payload. |
| `BackendMain.CacheHoldsOnlyChecked` | backend/main.py:88-102 | If every cached payload passes the integrity check, it still holds after any request. |
| `BackendMain.IndicatorValues` | backend/main.py:215-252 | A list of None of the price count when prices are short (rsi needs period + 1). Otherwise an exception when pandas rejects the window (ema and rsi with period ≤ 0, sma with period < 0), and the calculator's outcome for every other series. |
| `BackendMain.NonPositivePeriodRaises` | backend/main.py:226-247 | A period ≤ 0 makes ema raise on every series and rsi on every non-empty one. |
| `BackendMain.CalculateIndicator` | backend/main.py:254-285 | A history failure propagates. An unknown type is a 400. Otherwise the result succeeds exactly when the values are computed without an exception, and is a 500 when not. A success pairs the history's timestamps with the values for the closes. |
| `BackendMain.IndicatorAligned` | backend/main.py:263-285 | When the calculator keeps the price count, a success has one value per timestamp, and a too short history always succeeds. |
| `BackendMain.HistoricalEndpoint` | backend/main.py:343-357 | A missing `symbol` is a 422. The timeframe defaults to 1M and must be valid (else 400). The symbol is upper-cased before the cache lookup. |
| `BackendMain.IndicatorsEndpoint` | backend/main.py:359-375 | A missing `symbol`, `indicator_type` or `period`, or a `period` that is not integer text, is a 422 before the handler runs. An unknown type is a 400 before anything is fetched. Otherwise a failed history is a 503. After a successful history the request succeeds exactly when the values are computed without an exception, is a 500 otherwise, and a success carries the history's timestamps. |
| `BackendMain.NonIntegerPeriodRejected` | backend/main.py:361-363 | With Python's `int()` as the coercion, `period=2.5` and `period=abc` are 422s whatever the other parameters. |
| `Connections.Connect` | backend/main.py:51-55 | The socket joins the symbol's set, created if absent, and nothing else changes. |
| `Connections.Disconnect` | backend/main.py:57-61 | The socket leaves the set, the entry goes once empty, and an unknown symbol is untouched. |
| `Connections.Broadcast` | backend/main.py:63-73 | Failed sockets are discarded, and the entry stays even when emptied. |
| `Connections.ConnectKeepsNoEmpty` | backend/main.py:51-55 | Connecting keeps "no empty entry". |
| `Connections.DisconnectKeepsNoEmpty` | backend/main.py:57-61 | Disconnecting keeps "no empty entry". |
| `Connections.BroadcastCanLeaveEmptyEntry` | backend/main.py:72-73 | A broadcast whose only socket fails leaves an empty entry. |
| `Connections.DisconnectDropsEmptiedEntry` | backend/main.py:57-73 | A later disconnect removes such an emptied entry. |
| `Connections.ConnectThenDisconnect` | backend/main.py:51-61 | Connecting a new socket and disconnecting it restores the registry. |
| `BackendUtils.Truncate` | backend/utils.py:16 | `int()` of a float truncates toward zero. |
| `BackendUtils.ToFloat` | backend/utils.py:11-15 | `float()` keeps floats and ints and fails on None. |
| `BackendUtils.ToInt` | backend/utils.py:16 | `int()` keeps ints, truncates floats and fails on None. |
| `BackendUtils.FirstMissing` | backend/utils.py:5-7 | Index of the first required key missing from the point, in key order. |
| `BackendUtils.FirstMissingNone` | backend/utils.py:3-7 | The scan finds nothing missing exactly when all six keys are present. |
| `BackendUtils.Sanitize` | backend/utils.py:1-21 | The first missing key in c,o,h,l,v,t order is reported. With all keys present, the result succeeds exactly when all six conversions succeed, and is InvalidData exactly when one fails. A success holds exactly the six keys with the converted values. |
| `BackendUtils.MissingReportedInOrder` | backend/utils.py:5-7 | A point lacking both c and t reports c. |
| `BackendUtils.SanitizeIdempotent` | backend/utils.py:9-21 | A sanitised point sanitises to itself. |
| `BackendUtils.SanitizeTwice` | backend/utils.py:1-21 | Sanitising a successful result again changes nothing. |
| `ApiService.CacheKey` | client/src/apiService.js:14-16 | The key starts with `symbol_` and is longer than symbol and indicator together. |
| `ApiService.SplitCacheKey` | client/src/apiService.js:14-16 | When neither symbol nor indicator holds "_", cutting the key at its first two "_" gives back the symbol, the indicator and the period. |
| `ApiService.CacheKeyInjective` | client/src/apiService.js:14-16 | Under that condition, two requests share a key only when symbol, indicator and period all agree. |
| `ApiService.CacheKeyCollision` | client/src/apiService.js:14-16 | Without it, symbol "A_B" with indicator "C" and symbol "A" with indicator "B_C" share a key. |
| `ApiService.ErrorMessage` | client/src/apiService.js:43-46 | The body's `error` when present and non-empty, else "HTTP <status>". |
| `ApiService.FetchIndicatorData` | client/src/apiService.js:21-62 | A fresh entry is returned with no request. Otherwise a request is made: success stores (data, arrival time) under the key, and failure throws and leaves no entry. No other key changes. |
| `ApiService.FetchThenHit` | client/src/apiService.js:25-54 | Within five minutes of a successful fetch, the same call is a hit returning the same data. |
| `ApiService.ExpiredEntryRefetched` | client/src/apiService.js:29-35 | An entry five minutes old or older causes a new request. |
| `ApiService.ClearCache` | client/src/apiService.js:89-101 | No symbol clears everything. A symbol removes exactly the keys starting with it. Surviving entries are unchanged. |
| `ApiService.ClearRemovesSymbolKeys` | client/src/apiService.js:89-96 | Clearing a symbol removes all its indicator entries. |
| `ApiService.ClearIsPrefixBased` | client/src/apiService.js:93 | Clearing "AAPL" also removes entries of "AAPLX". |
| `DataFormatter.UtcDay` | client/src/dataFormatter.js:15 | The UTC day of a millisecond timestamp brackets it. |
| `DataFormatter.FormatRealtime` | client/src/dataFormatter.js:13-34 | On the candle's day, the open is kept, high and low are widened and the close is set. Otherwise a flat candle is started. The trade price always lies within [low, high], and well-formedness is kept. |
| `DataFormatter.SameDayTrades` | client/src/dataFormatter.js:17-24 | A run of same-day trades keeps the open, takes the running max/min and closes at the last price. |
| `DataFormatter.TradesKeepWellFormed` | client/src/dataFormatter.js:13-34 | Any run of trades keeps low ≤ open, close ≤ high. |
| `DataFormatter.FormatCandlestickData` | client/src/dataFormatter.js:3-11 | One candle per item, in order, with the item's prices. |
| `DataFormatter.CandlestickDataAppend` | client/src/dataFormatter.js:3-11 | Formatting distributes over concatenation. |
| `DataFormatter.FormatLineData` | client/src/dataFormatter.js:36-41 | One point per value, with the matching timestamp or undefined past the end. |
| `DataFormatter.LineDataAppend` | client/src/dataFormatter.js:36-41 | Formatting a concatenation formats the second part against the timestamps after the first part (none when the timestamps run out). |
| `ClientChart.GetTimeframeParams` | client/src/StockChart.jsx:26-32 | 1W → (1y, 1wk), 1M → (2y, 1mo), otherwise (1y, 1d). |
| `ClientChart.ClientIntervalsUnderstood` | client/src/StockChart.jsx:217-222 | The interval sent for any timeframe is one the Flask server's interval table maps to itself. |
| `ClientChart.FormatDataForChart` | client/src/StockChart.jsx:238-264 | One row per item with its time. Line and area charts get the close, every other type gets OHLC. |
| `ClientChart.VolumeValue` | client/src/StockChart.jsx:280 | The parsed volume unless it is NaN or 0, otherwise a random value in [0, 1000000). |
| `ClientChart.VolumeRowsUnsorted` | client/src/StockChart.jsx:272-283 | One row per item, up exactly when close ≥ open. |
| `ClientChart.ChartAndVolumeInSync` | client/src/StockChart.jsx:238-283 | Price row i and volume row i have the same time, and for candle types the volume bar is up exactly when candle i closes at or above its open. |
| `ClientChart.InsertProperties` | client/src/StockChart.jsx:286 | Inserting into a sorted list keeps it sorted and adds exactly that row. |
| `ClientChart.SortByTime` | client/src/StockChart.jsx:286 | The sort yields a time-ordered permutation of its input. |
| `ClientChart.VolumeData` | client/src/StockChart.jsx:272-287 | The volume series is a time-ordered permutation of the per-item rows. |
| `ClientChart.SortedUnchanged` | client/src/StockChart.jsx:286 | Already ordered rows keep their order, so the sort is stable there. |
| `ClientChart.FirstDigit` | client/src/StockChart.jsx:545 | The first digit's index, with no digit before it. |
| `ClientChart.IndicatorType` | client/src/StockChart.jsx:545 | `replace(/\d+/, '')` leaves an id without digits unchanged and never lengthens it. |
| `ClientChart.IndicatorPeriod` | client/src/StockChart.jsx:543-544 | 20 if the id contains "20", else 50 if it contains "50", else 14. |
| `ClientChart.TypeOfNameAndNumber` | client/src/StockChart.jsx:545 | A digit-free name followed by digits loses exactly the digits. |
| `ClientChart.PlainName` | client/src/StockChart.jsx:543-545 | A digit-free id keeps its name and gets period 14. |
| `ClientChart.ToggleAgreesWithLoadTable` | client/src/StockChart.jsx:347-352 | For sma20, sma50, ema20 and rsi, the toggle derives the same (type, period) as the loader's table. |
| `ClientChart.BeginEnable` | client/src/StockChart.jsx:540 | The id is marked loading. |
| `ClientChart.FinishEnable` | client/src/StockChart.jsx:547-586 | The id always leaves loading. On success it becomes active and its series holds the data. On failure active and series are unchanged. |
| `ClientChart.EnableIndicator` | client/src/StockChart.jsx:537-586 | Enabling runs the cached fetch with the derived type and period between the two steps. |
| `ClientChart.FailedEnableLeavesInactive` | client/src/StockChart.jsx:578-586 | A failed request on a cache miss leaves the id inactive, not loading, and its series untouched. |
| `ClientChart.DisableIndicator` | client/src/StockChart.jsx:587-600 | The id leaves active and its series is deleted. Nothing else changes. |
| `ClientChart.EnableThenDisable` | client/src/StockChart.jsx:537-600 | Enable then disable restores active, loading and series. |
| `ClientChart.TimeAt` | client/src/StockChart.jsx:329 | `priceData[k]?.time` is defined exactly for k in range. |
| `ClientChart.Placements` | client/src/StockChart.jsx:362-364 | Value j is paired with the time of price j + start_index. |
| `ClientChart.AlignExact` | client/src/StockChart.jsx:362-365 | A point is drawn exactly when its shifted index is in range with a non-zero time. |
| `ClientChart.SignalAlignExact` | client/src/StockChart.jsx:337-340 | Signal value j is drawn exactly when price start + 8 + j exists with a non-zero time, and at that time. |
| `ClientChart.SignalLagsMacd` | client/src/StockChart.jsx:328-340 | When both lines fit in the price data, signal value j shares its time with MACD value j + 8. |
| `ClientChart.AlignInRange` | client/src/StockChart.jsx:328-340 | When every shifted index is in range with a non-zero time, nothing is dropped and value j sits at price j + start. |
| `ClientChart.GetIndicatorConfig` | client/src/StockChart.jsx:606-615 | The configured entry for a known id, the SMA 20 entry for any other. |
| `IndicatorDropdown.ListToggle` | client/src/IndicatorDropdown.jsx:14-19 | Membership flips. An unselected id is appended. Removing one shortens the list. The other ids keep their order. |
| `IndicatorDropdown.ToggleTwice` | client/src/IndicatorDropdown.jsx:14-19 | Toggling an unselected id twice restores the list. |
| `IndicatorDropdown.ToggleMembership` | client/src/IndicatorDropdown.jsx:14-19 | Other ids' membership is unaffected. |
| `FrontendApp.Initial` | frontend/src/App.tsx:11-16 | Loading, with no data, no trades and no indicators. |
| `FrontendApp.OnMessage` | frontend/src/App.tsx:20-36 | Historical messages end loading and replace the data only when timestamps are non-empty. Trades append to the last 99 trades. Other messages change nothing. |
| `FrontendApp.FoldTrades` | frontend/src/App.tsx:32-34 | A run of trade messages only touches the trade buffer. |
| `FrontendApp.PushTradesIsSuffix` | frontend/src/App.tsx:33 | Pushing a run of trades leaves the last 100 of buffer + run. |
| `FrontendApp.TradeBufferIsSuffix` | frontend/src/App.tsx:20-36 | After any run of trades, the buffer is the last 100 trades seen, newest last, and the chart data is untouched. |
| `FrontendApp.LastShift` | frontend/src/App.tsx:33 | Trimming to 100 before appending does not change the final last 100. |
| `FrontendApp.ChangeSelection` | frontend/src/App.tsx:38-42 | A new symbol or timeframe shows the loader and drops data and trades. Indicators stay. The same selection changes nothing. |
| `FrontendApp.ReloadThenHistorical` | frontend/src/App.tsx:20-42 | After a new selection, a historical message ends loading, shows its data when it has timestamps (none otherwise), and no earlier trade survives. |
| `FrontendApp.HandleIndicatorToggle` | frontend/src/App.tsx:48-61 | Enabling appends the id (without a duplicate check) and stores the values when both data and values exist. Disabling removes every copy. |
| `FrontendApp.EnableTwiceDisableOnce` | frontend/src/App.tsx:48-61 | Enabling twice lists the id twice. One disable removes both. |
| `FrontendChart.At` | frontend/src/components/StockChart.tsx:149 | An array read past the end is undefined. |
| `FrontendChart.CandleRows` | frontend/src/components/StockChart.tsx:147-153 | One candle per timestamp, reading each column at that index. |
| `FrontendChart.UpBar` | frontend/src/components/StockChart.tsx:158 | Up exactly when both values exist and close ≥ open. |
| `FrontendChart.VolumeRows` | frontend/src/components/StockChart.tsx:155-159 | One bar per timestamp with that index's volume, up exactly when close ≥ open. |
| `FrontendChart.CandleVolumeInSync` | frontend/src/components/StockChart.tsx:147-159 | Volume bar i has candle i's time and is up exactly when candle i is up. |
| `FrontendChart.CellAt` | frontend/src/components/StockChart.tsx:181 | Undefined past the end, null exactly for a null entry, otherwise the number. |
| `FrontendChart.Paired` | frontend/src/components/StockChart.tsx:179-181 | Timestamp i paired with indicator value i. |
| `FrontendChart.IndicatorPointsExact` | frontend/src/components/StockChart.tsx:179-182 | A point is drawn exactly when some timestamp's value is not null. |
| `FrontendChart.NoNullPoints` | frontend/src/components/StockChart.tsx:182 | No null value is ever drawn. |
| `FrontendChart.RebuildSeries` | frontend/src/components/StockChart.tsx:144-218 | Without data nothing changes. With data, exactly the known lines that are active and present are drawn, each from its column. |
| `FrontendChart.RebuildForgetsPrevious` | frontend/src/components/StockChart.tsx:167-173 | Old series never survive a rebuild. |
| `FrontendChart.LiveBar` | frontend/src/components/StockChart.tsx:220-231 | No update without trades. Otherwise a flat bar at the last trade's price, timed at its second. |
| `FrontendChart.LiveBarUsesLastTrade` | frontend/src/components/StockChart.tsx:223 | Earlier trades do not affect the bar. |
| `TechnicalIndicators.Flip` | frontend/src/components/TechnicalIndicators.tsx:20-21 | Exactly the chosen flag flips. |
| `TechnicalIndicators.FlipTwice` | frontend/src/components/TechnicalIndicators.tsx:20-21 | Flipping twice restores the flags. |
| `TechnicalIndicators.SplitFirst` | frontend/src/components/TechnicalIndicators.tsx:25 | `split('_')`'s first two parts, neither containing "_". |
| `TechnicalIndicators.ParseId` | frontend/src/components/TechnicalIndicators.tsx:25-31 | The type is the first part. The period is `parseInt` of the second part, or when that is NaN: 14 for rsi, 12 for ema, 20 otherwise. |
| `Text.JsParseInt` | frontend/src/components/TechnicalIndicators.tsx:26 | JavaScript's `parseInt`: NaN unless the text holds a digit, and never NaN when it starts with one. Its values are pinned down by `JsParseIntPrefix`. |
| `Text.JsParseIntPrefix` | client/src/StockChart.jsx:280 | `parseInt` of a number's digits followed by anything that is not a digit is that number: "20px" is 20 and "2.5" is 2. |
| `TechnicalIndicators.TwoDigitRequest` | frontend/src/components/TechnicalIndicators.tsx:25-26 | "type_NN" requests that type and the two-digit number. |
| `TechnicalIndicators.ButtonRequests` | frontend/src/components/TechnicalIndicators.tsx:45-75 | The four buttons request (sma, 20), (sma, 50), (ema, 12) and (rsi, 14). |
| `TechnicalIndicators.HandleToggle` | frontend/src/components/TechnicalIndicators.tsx:19-38 | The flag flips. A fetch with the parsed request happens exactly when enabling. Disabling reports no data. |

## Left out

- I/O of every kind is left out: HTTP, yfinance, Finnhub, the websocket
  transport, `console`/`print` and React rendering and chart calls. Their
  results are parameters.
- Python's `round(x, n)` (server/indicators.py:16, 29, 59, 78, 89 and the
  pandas rounding) is not modelled. The SMA, EMA, RSI and MACD values are
  exact rationals, because decimal rounding of binary floats is outside
  Dafny's `real`.
- Floating point in general is left out: values are `real`, so NaN,
  infinities and overflow do not arise. pandas' NaN → None conversion is
  part of the calculator parameter.
- The pandas calculators (`rolling().mean()`, `ewm`, the pandas RSI) are a
  parameter of `BackendMain.IndicatorValues`. It may also raise. Only the
  short-input guards and pandas' rejection of a window below 1 (`ewm`) or
  below 0 (`rolling`) are modelled.
- `time.mktime`/`strptime`/`strftime` in `fill_missing_data` are left
  out. Dates are day numbers, so DST and local-time effects are not
  modelled.
- `TTLCache(maxsize=100, ttl=86400)` expiry and eviction are left out.
  `BackendMain.GetHistoricalData` treats a present key as a hit.
- ClientChart.VolumeValue: `Math.random()` is a parameter. Python
  `float()` of a string is a parameter of `BackendUtils.ToFloat`.
- Text.Upper: maps ASCII only. Python's and JavaScript's full Unicode
  case mapping is not modelled.
- BackendMain.IndicatorsEndpoint: FastAPI's coercion of the `period`
  text to `int` is a parameter. Its lax rules depend on the pydantic
  version: version 1 calls `int()`, and version 2 also accepts e.g. "2.0".
  `BackendMain.NonIntegerPeriodRejected` fixes it to `Text.ParsePyInt`.
  The 422 error body is not modelled.
- Text.JsParseInt: reads decimal digits with an optional sign after
  whitespace. The hexadecimal `0x` prefix is not modelled.
- ClientChart.SortByTime: compares whole-number times. The source
  compares `new Date(time)` values, and a date string's parsing is not
  modelled.
- ClientChart.GetIndicatorConfig: ids naming inherited `Object`
  properties (e.g. "toString") are not modelled.
- ClientChart.Placements: a response without `start_index` (undefined,
  which makes every index NaN) is not modelled. `start_index` is a whole
  number.
- The React effects' asynchronous interleaving is not modelled: a fetch
  that resolves after a later toggle, and stale websocket data. Each
  handler is one atomic step.
- The websocket endpoint's loop and the Finnhub feed (`start_real_time_feed`,
  `_listen_to_feed`, `stop_real_time_feed`) are left out. Only the
  registry they use (`Connections`) is modelled.
- Mock data generation (`generate_mock_data`) is left out. The mock body
  is a parameter of `FlaskServer.GetHistoricalData`.
- `get_stock_info`'s fields taken from `info` (names, sector, ratios) are
  left out. So is the percent change, which divides floats.
- Negative periods are left out: periods are `nat` in `Indicators`.
- Text.ParsePyInt: accepts ASCII digits only. Python's `int()` also
  accepts other Unicode decimal digits (e.g. Arabic-Indic ones), which are
  not modelled. `FlaskServer.ParsePeriodIsPyInt`,
  `FlaskServer.ValidateIndicatorParams` and `BackendUtils.ToInt` inherit
  this.
- Connections.Broadcast: one atomic step. In the source, `broadcast`
  awaits each send while iterating over the symbol's set
  (backend/main.py:63-73). A `connect` or `disconnect` for the same symbol
  during such an await makes the iteration raise "Set changed size during
  iteration". A `disconnect` that deletes the entry makes the `discard` at
  line 73 raise KeyError. Neither interleaving is modelled.
- ApiService.FetchIndicatorData: a network error and a non-JSON body
  both appear as the `Thrown` response. Their messages are not
  distinguished.

## Findings

| source | as written | input that shows it | evidently intended | confidence | as-written member | corrected member |
|---|---|---|---|---|---|---|
| server/indicators.py:74-77 | The MACD loop runs over all `len(ema_slow)` indices and reads `ema_fast[i + (slow − fast)]`. `calculate_ema` returns full-length lists, so the read passes the end of `ema_fast` for the last 14 indices. | Any 26 prices with the default periods (12, 26, 9), e.g. 26 equal prices: IndexError at i = len − 14. | Both EMAs are full length and aligned, so the MACD line is `ema_fast[i] − ema_slow[i]` for every i. | not executed | `Indicators.MacdAsWrittenNeverProducesLines` | `Indicators.MacdCorrected` |
| server/stock_info.py:64 | The Indian currency literal is 'â‚¹': the characters U+00E2 U+201A U+00B9. | Any NSE or BSE listing, e.g. the ticker "RELIANCE" resolved to "RELIANCE.NS": the currency field is those three characters. | The rupee sign ₹ (U+20B9), whose UTF-8 bytes E2 82 B9 were read as Windows-1252 when the file was saved. | not executed | `StockInfo.RupeeMisencoded` | `StockInfo.Currency` |

=== FILE: api_service.dfy ===
/** The client's in-memory indicator cache (client/src/apiService.js): a map
    from "symbol_indicator_period" to the fetched data and the time it was
    stored, read with a five-minute time-to-live, filled after a successful
    request and cleared by symbol prefix.  The network request is not run:
    its outcome is a parameter, and so are the two clock readings (before
    the lookup and when the response arrives). */
module ApiService {
  import opened Wrappers
  import Text

  /** Five minutes, in milliseconds. */
  const TtlMs: int := 5 * 60 * 1000

  datatype Entry<D> = Entry(data: D, timestamp: int)

  type Cache<D> = map<string, Entry<D>>

  /** What the request produced: a parsed ok body, a non-ok status with the
      body's optional `error` field, or an exception (network failure,
      unparsable body). */
  datatype Response<D> =
    | Ok(body: D)
    | NotOk(status: nat, error: Option<string>)
    | Thrown(message: string)

  /** The outcome of one call: the value returned or the message thrown, the
      cache afterwards, and whether a request was issued. */
  datatype FetchStep<D> = FetchStep(result: Result<D, string>, cache: Cache<D>, requested: bool)

  /** The key has the symbol, then "_", at its head; the timeframe plays no
      part in it. */
  function CacheKey(symbol: string, indicator: string, period: nat): (key: string)
    ensures Text.StartsWith(key, symbol + "_")
    ensures |key| > |symbol| + |indicator| + 2
  {
    symbol + "_" + indicator + "_" + Text.NatToString(period)
  }

  /** Position of the first `c` in `s`, `|s|` when there is none. */
  function IndexOf(s: string, c: char): (n: nat)
    ensures n <= |s|
    ensures forall j :: 0 <= j < n ==> s[j] != c
    ensures n < |s| ==> s[n] == c
  {
    if |s| == 0 || s[0] == c then 0 else 1 + IndexOf(s[1..], c)
  }

  /** Reading a key back: the text up to the first "_", the text up to the
      next "_", and the decimal number after it. */
  function SplitKey(key: string): (r: Option<(string, string, nat)>)
  {
    var a := IndexOf(key, '_');
    if a == |key| then None
    else
      var rest := key[a + 1..];
      var b := IndexOf(rest, '_');
      if b == |rest| then None
      else
        var digits := rest[b + 1..];
        if |digits| > 0 && forall i :: 0 <= i < |digits| ==> Text.IsDigit(digits[i])
        then Some((key[..a], rest[..b], Text.DigitsValue(digits)))
        else None
  }

  predicate NoUnderscore(s: string) {
    forall i :: 0 <= i < |s| ==> s[i] != '_'
  }

  /** The first "_" of `a + "_" + b` is the one after `a` when `a` has none. */
  lemma {:induction false} IndexAfter(a: string, b: string)
    requires NoUnderscore(a)
    ensures IndexOf(a + "_" + b, '_') == |a|
    decreases |a|
  {
    if |a| > 0 {
      assert (a + "_" + b)[1..] == a[1..] + "_" + b;
      IndexAfter(a[1..], b);
    }
  }

  /** Cutting `a + "_" + b` at its first "_" gives back `a` and `b`. */
  lemma SplitAfter(a: string, b: string)
    requires NoUnderscore(a)
    ensures var s := a + "_" + b; var n := IndexOf(s, '_');
            n < |s| && s[..n] == a && s[n + 1..] == b
  {
    IndexAfter(a, b);
    var s := a + "_" + b;
    assert s[..|a|] == a && s[|a| + 1..] == b;
  }

  /** Keys round-trip when neither the symbol nor the indicator holds "_". */
  lemma SplitCacheKey(symbol: string, indicator: string, period: nat)
    requires NoUnderscore(symbol) && NoUnderscore(indicator)
    ensures SplitKey(CacheKey(symbol, indicator, period)) == Some((symbol, indicator, period))
  {
    var d := Text.NatToString(period);
    var rest := indicator + "_" + d;
    var key := CacheKey(symbol, indicator, period);
    assert key == symbol + "_" + rest;
    SplitAfter(symbol, rest);
    var a := IndexOf(key, '_');
    assert a < |key| && key[..a] == symbol && key[a + 1..] == rest;
    SplitAfter(indicator, d);
    var b := IndexOf(rest, '_');
    assert b < |rest| && rest[..b] == indicator && rest[b + 1..] == d;
    assert |d| > 0 && forall i :: 0 <= i < |d| ==> Text.IsDigit(d[i]);
  }

  /** Under the same condition distinct requests never share an entry. */
  lemma CacheKeyInjective(s1: string, i1: string, p1: nat, s2: string, i2: string, p2: nat)
    requires NoUnderscore(s1) && NoUnderscore(i1) && NoUnderscore(s2) && NoUnderscore(i2)
    requires CacheKey(s1, i1, p1) == CacheKey(s2, i2, p2)
    ensures s1 == s2 && i1 == i2 && p1 == p2
  {
    SplitCacheKey(s1, i1, p1);
    SplitCacheKey(s2, i2, p2);
  }

  /** Without it two requests can share one entry: symbol "A_B" with
      indicator "C" and symbol "A" with indicator "B_C". */
  lemma CacheKeyCollision(period: nat)
    ensures CacheKey("A_B", "C", period) == CacheKey("A", "B_C", period)
  {
    assert "A_B" + "_" + "C" == "A" + "_" + "B_C";
  }

  /** An entry is served while less than the time-to-live has passed. */
  predicate Fresh<D>(e: Entry<D>, now: int) {
    now - e.timestamp < TtlMs
  }

  /** The message thrown for a non-ok response: the body's `error` when it
      is a non-empty string, otherwise "HTTP <status>". */
  function ErrorMessage(status: nat, error: Option<string>): (m: string)
    ensures |m| > 0
    ensures error.Some? && error.value != "" ==> m == error.value
    ensures (error.None? || error.value == "") ==> Text.StartsWith(m, "HTTP ")
  {
    if error.Some? && error.value != "" then error.value
    else "HTTP " + Text.NatToString(status)
  }

  /** `fetchIndicatorData(symbol, indicator, period)` called at time `now`,
      with `response` the request's outcome and `doneAt` the time it
      arrived. */
  function FetchIndicatorData<D>(cache: Cache<D>, symbol: string, indicator: string, period: nat,
                                 now: int, response: Response<D>, doneAt: int): (step: FetchStep<D>)
    // a fresh entry is returned as is, with no request and no change
    ensures var key := CacheKey(symbol, indicator, period);
            key in cache && Fresh(cache[key], now) ==>
              step == FetchStep(Success(cache[key].data), cache, false)
    // otherwise a request is made (a stale entry is dropped first)
    ensures var key := CacheKey(symbol, indicator, period);
            !(key in cache && Fresh(cache[key], now)) ==> step.requested
    // success stores (data, arrival time) under the key
    ensures step.requested && response.Ok? ==>
              step.result == Success(response.body)
              && CacheKey(symbol, indicator, period) in step.cache
              && step.cache[CacheKey(symbol, indicator, period)] == Entry(response.body, doneAt)
    // a failed request throws and leaves no entry for the key
    ensures step.requested && !response.Ok? ==>
              step.result.Failure? && CacheKey(symbol, indicator, period) !in step.cache
    ensures step.requested && response.NotOk? ==>
              step.result == Failure(ErrorMessage(response.status, response.error))
    // no other key changes
    ensures forall k :: k != CacheKey(symbol, indicator, period) ==>
              (k in step.cache <==> k in cache) && (k in cache ==> step.cache[k] == cache[k])
  {
    var key := CacheKey(symbol, indicator, period);
    if key in cache && Fresh(cache[key], now) then
      FetchStep(Success(cache[key].data), cache, false)
    else
      var pruned := cache - {key};
      match response
      case Ok(body) => FetchStep(Success(body), pruned[key := Entry(body, doneAt)], true)
      case NotOk(status, error) => FetchStep(Failure(ErrorMessage(status, error)), pruned, true)
      case Thrown(message) => FetchStep(Failure(message), pruned, true)
  }

  /** `clearCache(symbol)`: a truthy symbol removes exactly the keys that
      start with it (so "AAPL" also clears "AAPLX_..."); no symbol, or an
      empty one, clears everything. */
  function ClearCache<D>(cache: Cache<D>, symbol: Option<string>): (r: Cache<D>)
    ensures symbol.None? || symbol.value == "" ==> r == map[]
    ensures symbol.Some? && symbol.value != "" ==>
              (forall k :: k in r <==> k in cache && !Text.StartsWith(k, symbol.value))
    ensures forall k :: k in r ==> k in cache && r[k] == cache[k]
  {
    if symbol.Some? && symbol.value != "" then
      map k | k in cache && !Text.StartsWith(k, symbol.value) :: cache[k]
    else
      map[]
  }

  /** Round trip: within five minutes of a successful fetch, the same call
      is answered from the cache with the same data and issues no request. */
  lemma FetchThenHit<D>(cache: Cache<D>, symbol: string, indicator: string, period: nat,
                        now: int, body: D, doneAt: int,
                        later: int, response: Response<D>, laterDone: int)
    requires FetchIndicatorData(cache, symbol, indicator, period, now, Ok(body), doneAt).requested
    requires later - doneAt < TtlMs
    ensures var first := FetchIndicatorData(cache, symbol, indicator, period, now, Ok(body), doneAt);
            FetchIndicatorData(first.cache, symbol, indicator, period, later, response, laterDone)
              == FetchStep(Success(body), first.cache, false)
  {
  }

  /** Once five minutes have passed, the entry no longer answers and a new
      request is issued. */
  lemma ExpiredEntryRefetched<D>(cache: Cache<D>, symbol: string, indicator: string, period: nat,
                                 now: int, response: Response<D>, doneAt: int)
    requires CacheKey(symbol, indicator, period) in cache
    requires now - cache[CacheKey(symbol, indicator, period)].timestamp >= TtlMs
    ensures FetchIndicatorData(cache, symbol, indicator, period, now, response, doneAt).requested
  {
  }

  /** Clearing a symbol removes every entry fetched for it, whatever the
      indicator and period. */
  lemma ClearRemovesSymbolKeys<D>(cache: Cache<D>, symbol: string, indicator: string, period: nat)
    requires symbol != ""
    ensures CacheKey(symbol, indicator, period) !in ClearCache(cache, Some(symbol))
  {
    var key := CacheKey(symbol, indicator, period);
    assert key[..|symbol|] == (symbol + "_")[..|symbol|];
  }

  /** The prefix test is textual: clearing "AAPL" also drops the entries of
      "AAPLX". */
  lemma ClearIsPrefixBased<D>(cache: Cache<D>, indicator: string, period: nat)
    ensures CacheKey("AAPLX", indicator, period) !in ClearCache(cache, Some("AAPL"))
  {
    var key := CacheKey("AAPLX", indicator, period);
    assert key[..4] == "AAPL";
  }
}

=== FILE: backend_main.dfy ===
/** The FastAPI backend (backend/main.py): the timeframe tables, the
    row-cleaning of Yahoo chart quotes, the cache-or-503 rule of
    `get_historical_data`, the dispatch of `calculate_indicator` and the
    parameter checks of both endpoints.  The HTTP request, the pandas
    calculators and the TTL cache's expiry and eviction are outside the
    model: the quote and the calculator are parameters, and the calculator
    may raise (None), as pandas does for the windows it rejects. */
module BackendMain {
  import opened Wrappers
  import Seqs
  import Text

  datatype YfParams = YfParams(period: string, interval: string)

  /** `get_timeframe_params`: 1D → (1d, 5m), 1W → (1mo, 1d), 1M → (3mo, 1d),
      1Y → (1y, 1wk), and (3mo, 1d) for any other string. */
  function TimeframeParams(timeframe: string): (r: YfParams)
    ensures timeframe == "1D" ==> r == YfParams("1d", "5m")
    ensures timeframe == "1W" ==> r == YfParams("1mo", "1d")
    ensures timeframe == "1M" ==> r == YfParams("3mo", "1d")
    ensures timeframe == "1Y" ==> r == YfParams("1y", "1wk")
    ensures timeframe !in ValidTimeframes ==> r == YfParams("3mo", "1d")
  {
    if timeframe == "1D" then YfParams("1d", "5m")
    else if timeframe == "1W" then YfParams("1mo", "1d")
    else if timeframe == "1M" then YfParams("3mo", "1d")
    else if timeframe == "1Y" then YfParams("1y", "1wk")
    else YfParams("3mo", "1d")
  }

  /** The range/interval table of the REST fetch, with 1M as the default. */
  const RestTable: map<string, YfParams> := map[
    "1D" := YfParams("1d", "5m"),
    "1W" := YfParams("1mo", "1d"),
    "1M" := YfParams("3mo", "1d"),
    "1Y" := YfParams("1y", "1wk")
  ]

  function RestParams(timeframe: string): YfParams {
    if timeframe in RestTable then RestTable[timeframe] else RestTable["1M"]
  }

  /** The two tables agree on every timeframe, defaults included. */
  lemma RestParamsAgree(timeframe: string)
    ensures RestParams(timeframe) == TimeframeParams(timeframe)
  {
  }

  const ValidTimeframes: seq<string> := ["1D", "1W", "1M", "1Y"]

  /** The quote columns of a chart result; JSON nulls are None. */
  datatype Quote = Quote(timestamps: seq<int>, open: seq<Option<real>>, high: seq<Option<real>>,
                         low: seq<Option<real>>, close: seq<Option<real>>, volume: seq<Option<real>>)

  datatype Bar = Bar(timestamp: int, open: real, high: real, low: real, close: real, volume: real)

  /** The historical payload's six parallel arrays. */
  datatype Payload = Payload(timestamps: seq<int>, open: seq<real>, high: seq<real>,
                             low: seq<real>, close: seq<real>, volume: seq<real>)

  /** Every value column has an entry for each timestamp, so reading row i
      raises no IndexError. */
  predicate Indexable(q: Quote) {
    var n := |q.timestamps|;
    |q.open| >= n && |q.high| >= n && |q.low| >= n && |q.close| >= n && |q.volume| >= n
  }

  /** Row i as a bar when none of its five values is null. */
  function RowAt(q: Quote, i: nat): (r: Option<Bar>)
    requires Indexable(q) && i < |q.timestamps|
    ensures r.Some? <==>
              q.open[i].Some? && q.high[i].Some? && q.low[i].Some? && q.close[i].Some? && q.volume[i].Some?
    ensures r.Some? ==> r.value.timestamp == q.timestamps[i] && r.value.close == q.close[i].value
  {
    if q.open[i].Some? && q.high[i].Some? && q.low[i].Some? && q.close[i].Some? && q.volume[i].Some? then
      Some(Bar(q.timestamps[i], q.open[i].value, q.high[i].value, q.low[i].value,
               q.close[i].value, q.volume[i].value))
    else None
  }

  function Rows(q: Quote): (r: seq<Option<Bar>>)
    requires Indexable(q)
    ensures |r| == |q.timestamps|
    ensures forall i :: 0 <= i < |r| ==> r[i] == RowAt(q, i)
  {
    seq(|q.timestamps|, i requires 0 <= i < |q.timestamps| => RowAt(q, i))
  }

  function Identity<T>(x: T): T { x }

  /** The complete rows, in order. */
  function CleanRows(q: Quote): seq<Bar>
    requires Indexable(q)
  {
    Seqs.Choose(Rows(q), Identity)
  }

  /** The six arrays of a list of bars. */
  function Columns(bars: seq<Bar>): (p: Payload)
    ensures |p.timestamps| == |bars| && |p.open| == |bars| && |p.high| == |bars|
    ensures |p.low| == |bars| && |p.close| == |bars| && |p.volume| == |bars|
    ensures forall i :: 0 <= i < |bars| ==>
              p.timestamps[i] == bars[i].timestamp && p.open[i] == bars[i].open
              && p.high[i] == bars[i].high && p.low[i] == bars[i].low
              && p.close[i] == bars[i].close && p.volume[i] == bars[i].volume
  {
    Payload(seq(|bars|, i requires 0 <= i < |bars| => bars[i].timestamp),
            seq(|bars|, i requires 0 <= i < |bars| => bars[i].open),
            seq(|bars|, i requires 0 <= i < |bars| => bars[i].high),
            seq(|bars|, i requires 0 <= i < |bars| => bars[i].low),
            seq(|bars|, i requires 0 <= i < |bars| => bars[i].close),
            seq(|bars|, i requires 0 <= i < |bars| => bars[i].volume))
  }

  /** All six arrays have the length of the timestamps. */
  predicate Consistent(p: Payload) {
    var n := |p.timestamps|;
    |p.open| == n && |p.high| == n && |p.low| == n && |p.close| == n && |p.volume| == n
  }

  /** The parsing part of `_fetch_yfinance_data`: None for no timestamps,
      for a column too short to index (the IndexError is caught), and when
      no row survives cleaning. */
  function CleanQuote(q: Quote): (r: Option<Payload>)
    ensures r.Some? ==> Consistent(r.value) && |r.value.timestamps| > 0
    ensures r.Some? <==> |q.timestamps| > 0 && Indexable(q) && |CleanRows(q)| > 0
    ensures r.Some? ==> r.value == Columns(CleanRows(q))
  {
    if |q.timestamps| == 0 || !Indexable(q) then None
    else
      var bars := CleanRows(q);
      if |bars| == 0 then None else Some(Columns(bars))
  }

  /** A bar is kept exactly when some row of the quote is complete and
      yields it. */
  lemma CleanKeepsCompleteRows(q: Quote, b: Bar)
    requires Indexable(q)
    ensures b in CleanRows(q) <==> exists i :: 0 <= i < |q.timestamps| && RowAt(q, i) == Some(b)
  {
    Seqs.ChooseMembership(Rows(q), Identity, b);
  }

  /** When every row is complete, nothing is dropped: the payload's
      timestamps are the quote's. */
  lemma CleanCompleteQuote(q: Quote)
    requires Indexable(q) && |q.timestamps| > 0
    requires forall i :: 0 <= i < |q.timestamps| ==> RowAt(q, i).Some?
    ensures CleanQuote(q).Some? && CleanQuote(q).value.timestamps == q.timestamps
  {
    Seqs.ChooseAll(Rows(q), Identity);
    assert forall i :: 0 <= i < |q.timestamps| ==> CleanRows(q)[i].timestamp == q.timestamps[i];
  }

  /** A quote whose only row has a null volume yields nothing. */
  lemma CleanAllIncomplete()
    ensures CleanQuote(Quote([1], [Some(1.0)], [Some(1.0)], [Some(1.0)], [Some(1.0)], [None])).None?
  {
    var q := Quote([1], [Some(1.0)], [Some(1.0)], [Some(1.0)], [Some(1.0)], [None]);
    assert Rows(q) == [None];
  }

  // ---------------------------------------------------------------------
  // StockDataProvider.get_historical_data

  /** The server cache, reduced to what is stored under each key. */
  type DataCache = map<string, Payload>

  function HistoryKey(symbol: string, timeframe: string): string {
    symbol + "_" + timeframe
  }

  /** Non-empty, with all five value arrays as long as the timestamps. */
  predicate PassesIntegrity(p: Payload) {
    |p.timestamps| > 0 && Consistent(p)
  }

  /** A cache hit returns without fetching; otherwise only a fetched
      payload that passes the integrity check is cached and returned, and
      anything else is a 503. */
  function GetHistoricalData(cache: DataCache, symbol: string, timeframe: string,
                             fetched: Option<Payload>): (r: (Result<Payload, nat>, DataCache))
    ensures HistoryKey(symbol, timeframe) in cache ==>
              r == (Success(cache[HistoryKey(symbol, timeframe)]), cache)
    ensures HistoryKey(symbol, timeframe) !in cache ==>
              if fetched.Some? && PassesIntegrity(fetched.value) then
                r == (Success(fetched.value), cache[HistoryKey(symbol, timeframe) := fetched.value])
              else
                r == (Failure(503), cache)
  {
    var key := HistoryKey(symbol, timeframe);
    if key in cache then (Success(cache[key]), cache)
    else if fetched.Some? && PassesIntegrity(fetched.value) then
      (Success(fetched.value), cache[key := fetched.value])
    else (Failure(503), cache)
  }

  /** Every payload the cleaner produces passes the integrity check, so on
      a miss the request fails exactly when cleaning gave nothing. */
  lemma CleanedPayloadAccepted(cache: DataCache, symbol: string, timeframe: string, q: Quote)
    requires HistoryKey(symbol, timeframe) !in cache
    ensures GetHistoricalData(cache, symbol, timeframe, CleanQuote(q)).0.Success?
            <==> CleanQuote(q).Some?
  {
  }

  /** Only payloads that pass the check are ever stored. */
  lemma CacheHoldsOnlyChecked(cache: DataCache, symbol: string, timeframe: string, fetched: Option<Payload>)
    requires forall k :: k in cache ==> PassesIntegrity(cache[k])
    ensures var c := GetHistoricalData(cache, symbol, timeframe, fetched).1;
            forall k :: k in c ==> PassesIntegrity(c[k])
  {
  }

  // ---------------------------------------------------------------------
  // calculate_indicator and the endpoints

  datatype IndicatorPayload = IndicatorPayload(symbol: string, indicatorType: string, period: int,
                                               timeframe: string, timestamps: seq<int>,
                                               values: seq<Option<real>>)

  /** The pandas calculator on a series that passed the short-input guard;
      None stands for an exception it raises. */
  type Calculator = (string, seq<real>, int) -> Option<seq<Option<real>>>

  /** pandas rejects the window before computing anything: `ewm(span=p)`
      needs p >= 1 (ema, and rsi's averages), `rolling(window=p)` needs
      p >= 0 (sma). */
  predicate PandasRejects(indicatorType: string, period: int) {
    if indicatorType == "sma" then period < 0 else period <= 0
  }

  /** The short-input guard: fewer than `period` prices for sma/ema, fewer
      than `period + 1` for rsi. */
  predicate TooShort(indicatorType: string, prices: seq<real>, period: int) {
    |prices| < (if indicatorType == "rsi" then period + 1 else period)
  }

  /** `_calculate_sma`/`_calculate_ema`/`_calculate_rsi`.  A too short
      series gives one None per price; otherwise a window pandas rejects
      raises (None here), and any other series gets what the calculator
      gives. */
  function IndicatorValues(indicatorType: string, prices: seq<real>, period: int,
                           pandas: Calculator): (r: Option<seq<Option<real>>>)
    requires indicatorType in ["sma", "ema", "rsi"]
    ensures TooShort(indicatorType, prices, period) ==>
              r.Some? && |r.value| == |prices| && forall i :: 0 <= i < |r.value| ==> r.value[i].None?
    ensures !TooShort(indicatorType, prices, period) && PandasRejects(indicatorType, period) ==> r.None?
    ensures !TooShort(indicatorType, prices, period) && !PandasRejects(indicatorType, period) ==>
              r == pandas(indicatorType, prices, period)
  {
    if TooShort(indicatorType, prices, period) then Some(seq(|prices|, _ => None))
    else if PandasRejects(indicatorType, period) then None
    else pandas(indicatorType, prices, period)
  }

  /** With a non-positive period the guard passes for ema on every series
      and for rsi on every non-empty one, and the request fails. */
  lemma NonPositivePeriodRaises(indicatorType: string, prices: seq<real>, period: int, pandas: Calculator)
    requires indicatorType in ["ema", "rsi"] && period <= 0
    requires indicatorType == "rsi" ==> |prices| > 0
    ensures IndicatorValues(indicatorType, prices, period, pandas).None?
  {
  }

  /** HTTP 500: an exception escaped the handler. */
  const InternalError: nat := 500

  /** `calculate_indicator`: the history is fetched first (its 503 passes
      through), then any type other than sma/ema/rsi is a 400 and an
      exception of the calculator a 500; the history's timestamps are
      returned unchanged next to the values. */
  function CalculateIndicator(history: Result<Payload, nat>, symbol: string, indicatorType: string,
                              period: int, timeframe: string, pandas: Calculator): (r: Result<IndicatorPayload, nat>)
    ensures history.Failure? ==> r == Failure(history.error)
    ensures history.Success? && indicatorType !in ["sma", "ema", "rsi"] ==> r == Failure(400)
    ensures history.Success? && indicatorType in ["sma", "ema", "rsi"] ==>
              (r.Success? <==> IndicatorValues(indicatorType, history.value.close, period, pandas).Some?)
              && (r.Failure? ==> r.error == InternalError)
    ensures r.Success? ==>
              history.Success? && indicatorType in ["sma", "ema", "rsi"]
              && r.value.timestamps == history.value.timestamps
              && Some(r.value.values) == IndicatorValues(indicatorType, history.value.close, period, pandas)
              && r.value.symbol == symbol && r.value.period == period
  {
    match history
    case Failure(status) => Failure(status)
    case Success(data) =>
      if indicatorType !in ["sma", "ema", "rsi"] then Failure(400)
      else
        match IndicatorValues(indicatorType, data.close, period, pandas)
        case None => Failure(InternalError)
        case Some(values) =>
          Success(IndicatorPayload(symbol, indicatorType, period, timeframe, data.timestamps, values))
  }

  /** When the calculator keeps the price count, a successful result has
      one value per timestamp of a consistent history; a too short history
      always succeeds. */
  lemma IndicatorAligned(history: Payload, symbol: string, indicatorType: string, period: int,
                         timeframe: string, pandas: Calculator)
    requires Consistent(history) && indicatorType in ["sma", "ema", "rsi"]
    requires forall t, p, n :: pandas(t, p, n).Some? ==> |pandas(t, p, n).value| == |p|
    ensures var r := CalculateIndicator(Success(history), symbol, indicatorType, period, timeframe, pandas);
            (r.Success? ==> |r.value.values| == |r.value.timestamps|)
            && (TooShort(indicatorType, history.close, period) ==> r.Success?)
  {
  }

  /** HTTP 422: FastAPI rejected the query string before the handler ran. */
  const Unprocessable: nat := 422

  /** FastAPI's coercion of query text to `int` (pydantic's integer
      validation); None when the text is not an integer. */
  type IntQuery = string -> Option<int>

  /** `/api/historical_data`: `symbol` is a required query parameter (a
      missing one is a 422); the timeframe (default 1M) must be one of
      1D, 1W, 1M, 1Y; the symbol is upper-cased before the lookup. */
  function HistoricalEndpoint(cache: DataCache, symbol: Option<string>, timeframe: Option<string>,
                              fetched: Option<Payload>): (r: (Result<Payload, nat>, DataCache))
    ensures symbol.None? ==> r == (Failure(Unprocessable), cache)
    ensures symbol.Some? && timeframe.GetOr("1M") !in ValidTimeframes ==> r == (Failure(400), cache)
    ensures symbol.Some? && timeframe.GetOr("1M") in ValidTimeframes ==>
              r == GetHistoricalData(cache, Text.Upper(symbol.value), timeframe.GetOr("1M"), fetched)
  {
    match symbol
    case None => (Failure(Unprocessable), cache)
    case Some(sym) =>
      var tf := timeframe.GetOr("1M");
      if tf !in ValidTimeframes then (Failure(400), cache)
      else GetHistoricalData(cache, Text.Upper(sym), tf, fetched)
  }

  /** FastAPI accepts the query of `/api/indicators` when `symbol`,
      `indicator_type` and `period` are all present and `period` is
      integer text. */
  predicate QueryAccepted(symbol: Option<string>, indicatorType: Option<string>, period: Option<string>,
                          toInt: IntQuery) {
    symbol.Some? && indicatorType.Some? && period.Some? && toInt(period.value).Some?
  }

  /** `/api/indicators`: the query is validated first (422), then the type
      is checked before anything is fetched (400). */
  function IndicatorsEndpoint(cache: DataCache, symbol: Option<string>, indicatorType: Option<string>,
                              period: Option<string>, timeframe: Option<string>, fetched: Option<Payload>,
                              pandas: Calculator, toInt: IntQuery)
    : (r: (Result<IndicatorPayload, nat>, DataCache))
    ensures !QueryAccepted(symbol, indicatorType, period, toInt) ==> r == (Failure(Unprocessable), cache)
    ensures QueryAccepted(symbol, indicatorType, period, toInt) && indicatorType.value !in ["sma", "ema", "rsi"] ==>
              r == (Failure(400), cache)
    ensures QueryAccepted(symbol, indicatorType, period, toInt) && indicatorType.value in ["sma", "ema", "rsi"] ==>
              var n := toInt(period.value).value;
              var (history, cache1) := GetHistoricalData(cache, Text.Upper(symbol.value), timeframe.GetOr("1M"), fetched);
              r.1 == cache1
              && (history.Failure? ==> r.0 == Failure(503))
              && (history.Success? ==>
                    (r.0.Success? <==> IndicatorValues(indicatorType.value, history.value.close, n, pandas).Some?)
                    && (r.0.Success? ==> r.0.value.timestamps == history.value.timestamps && r.0.value.period == n)
                    && (r.0.Failure? ==> r.0 == Failure(InternalError)))
  {
    if !QueryAccepted(symbol, indicatorType, period, toInt) then (Failure(Unprocessable), cache)
    else if indicatorType.value !in ["sma", "ema", "rsi"] then (Failure(400), cache)
    else
      var tf := timeframe.GetOr("1M");
      var sym := Text.Upper(symbol.value);
      var (history, cache1) := GetHistoricalData(cache, sym, tf, fetched);
      (CalculateIndicator(history, sym, indicatorType.value, toInt(period.value).value, tf, pandas), cache1)
  }

  /** With Python's `int()` as the coercion, `period=2.5` and `period=abc`
      are rejected with a 422 before the type is looked at. */
  lemma NonIntegerPeriodRejected(cache: DataCache, symbol: string, indicatorType: string,
                                 timeframe: Option<string>, fetched: Option<Payload>, pandas: Calculator)
    ensures IndicatorsEndpoint(cache, Some(symbol), Some(indicatorType), Some("2.5"), timeframe, fetched,
                               pandas, Text.ParsePyInt) == (Failure(Unprocessable), cache)
    ensures IndicatorsEndpoint(cache, Some(symbol), Some(indicatorType), Some("abc"), timeframe, fetched,
                               pandas, Text.ParsePyInt) == (Failure(Unprocessable), cache)
  {
    assert !Text.IsPyIntChar("2.5"[1]);
    assert !Text.IsPyIntChar("abc"[0]);
  }
}

=== FILE: backend_utils.dfy ===
/** `validate_and_sanitize_stock_data` of backend/utils.py: a trade point
    (a dict of Python values) is checked for the keys c, o, h, l, v, t in
    that order and rebuilt with five floats and an integer time.  Parsing a
    float from a string is a parameter (`parseFloat`), since Python's float
    syntax is not modelled; `int()` of a string is Python's integer syntax. */
module BackendUtils {
  import opened Wrappers
  import Text

  datatype PyValue =
    | PyNone
    | PyBool(b: bool)
    | PyInt(i: int)
    | PyFloat(x: real)
    | PyStr(s: string)

  type Point = map<string, PyValue>

  datatype SanitizeError = MissingKey(key: string) | InvalidData

  const RequiredKeys: seq<string> := ["c", "o", "h", "l", "v", "t"]

  /** Python's `int()` of a float truncates toward zero. */
  function Truncate(x: real): (n: int)
    ensures x >= 0.0 ==> n as real <= x < n as real + 1.0
    ensures x < 0.0 ==> n as real - 1.0 < x <= n as real
  {
    if x >= 0.0 then x.Floor else -((-x).Floor)
  }

  /** `float(v)`; None stands for the ValueError/TypeError it raises. */
  function ToFloat(v: PyValue, parseFloat: string -> Option<real>): (r: Option<real>)
    ensures v.PyFloat? ==> r == Some(v.x)
    ensures v.PyInt? ==> r == Some(v.i as real)
    ensures v.PyNone? ==> r.None?
  {
    match v
    case PyNone => None
    case PyBool(b) => Some(if b then 1.0 else 0.0)
    case PyInt(i) => Some(i as real)
    case PyFloat(x) => Some(x)
    case PyStr(s) => parseFloat(s)
  }

  /** `int(v)`; None stands for the ValueError/TypeError it raises. */
  function ToInt(v: PyValue): (r: Option<int>)
    ensures v.PyInt? ==> r == Some(v.i)
    ensures v.PyFloat? ==> r == Some(Truncate(v.x))
    ensures v.PyNone? ==> r.None?
  {
    match v
    case PyNone => None
    case PyBool(b) => Some(if b then 1 else 0)
    case PyInt(i) => Some(i)
    case PyFloat(x) => Some(Truncate(x))
    case PyStr(s) => Text.ParsePyInt(s)
  }

  /** The index of the first key the point lacks; `|keys|` when it has
      them all. */
  function FirstMissing(p: Point, keys: seq<string>): (r: nat)
    ensures r <= |keys|
    ensures forall j :: 0 <= j < r ==> keys[j] in p
    ensures r < |keys| ==> keys[r] !in p
  {
    if |keys| == 0 then 0
    else if keys[0] !in p then 0
    else 1 + FirstMissing(p, keys[1..])
  }

  predicate HasRequiredKeys(p: Point) {
    "c" in p && "o" in p && "h" in p && "l" in p && "v" in p && "t" in p
  }

  /** The scan finds no missing key exactly when all six are present. */
  lemma FirstMissingNone(p: Point)
    ensures FirstMissing(p, RequiredKeys) == |RequiredKeys| <==> HasRequiredKeys(p)
  {
    if HasRequiredKeys(p) {
      AllPresent(p, RequiredKeys);
    }
    assert FirstMissing(p, RequiredKeys) == |RequiredKeys| ==>
             RequiredKeys[0] in p && RequiredKeys[1] in p && RequiredKeys[2] in p
             && RequiredKeys[3] in p && RequiredKeys[4] in p && RequiredKeys[5] in p;
  }

  lemma {:induction false} AllPresent(p: Point, keys: seq<string>)
    requires forall j :: 0 <= j < |keys| ==> keys[j] in p
    ensures FirstMissing(p, keys) == |keys|
    decreases |keys|
  {
    if |keys| > 0 {
      AllPresent(p, keys[1..]);
    }
  }

  /** The shape of a sanitised point: exactly the six keys, a float for each
      price and the volume, an integer time. */
  predicate Sanitized(p: Point) {
    p.Keys == {"c", "o", "h", "l", "v", "t"}
    && p["c"].PyFloat? && p["o"].PyFloat? && p["h"].PyFloat? && p["l"].PyFloat? && p["v"].PyFloat?
    && p["t"].PyInt?
  }

  /** `validate_and_sanitize_stock_data(point)`. */
  function Sanitize(p: Point, parseFloat: string -> Option<real>): (r: Result<Point, SanitizeError>)
    ensures FirstMissing(p, RequiredKeys) < |RequiredKeys| ==>
              r == Failure(MissingKey(RequiredKeys[FirstMissing(p, RequiredKeys)]))
    ensures r.Success? ==> Sanitized(r.value) && HasRequiredKeys(p)
    ensures r.Success? ==>
              Some(r.value["c"].x) == ToFloat(p["c"], parseFloat)
              && Some(r.value["o"].x) == ToFloat(p["o"], parseFloat)
              && Some(r.value["h"].x) == ToFloat(p["h"], parseFloat)
              && Some(r.value["l"].x) == ToFloat(p["l"], parseFloat)
              && Some(r.value["v"].x) == ToFloat(p["v"], parseFloat)
              && Some(r.value["t"].i) == ToInt(p["t"])
    ensures HasRequiredKeys(p) ==>
              (r == Failure(InvalidData) <==>
                 ToFloat(p["c"], parseFloat).None? || ToFloat(p["o"], parseFloat).None?
                 || ToFloat(p["h"], parseFloat).None? || ToFloat(p["l"], parseFloat).None?
                 || ToFloat(p["v"], parseFloat).None? || ToInt(p["t"]).None?)
    ensures HasRequiredKeys(p) ==>
              (r.Success? <==>
                 ToFloat(p["c"], parseFloat).Some? && ToFloat(p["o"], parseFloat).Some?
                 && ToFloat(p["h"], parseFloat).Some? && ToFloat(p["l"], parseFloat).Some?
                 && ToFloat(p["v"], parseFloat).Some? && ToInt(p["t"]).Some?)
  {
    var missing := FirstMissing(p, RequiredKeys);
    FirstMissingNone(p);
    if missing < |RequiredKeys| then Failure(MissingKey(RequiredKeys[missing]))
    else
      var c := ToFloat(p["c"], parseFloat);
      var o := ToFloat(p["o"], parseFloat);
      var h := ToFloat(p["h"], parseFloat);
      var l := ToFloat(p["l"], parseFloat);
      var v := ToFloat(p["v"], parseFloat);
      var t := ToInt(p["t"]);
      if c.None? || o.None? || h.None? || l.None? || v.None? || t.None? then Failure(InvalidData)
      else
        Success(map["c" := PyFloat(c.value), "o" := PyFloat(o.value), "h" := PyFloat(h.value),
                    "l" := PyFloat(l.value), "v" := PyFloat(v.value), "t" := PyInt(t.value)])
  }

  /** Keys are checked in order: a point with neither c nor t reports c. */
  lemma MissingReportedInOrder(p: Point, parseFloat: string -> Option<real>)
    requires "c" !in p && "t" !in p
    ensures Sanitize(p, parseFloat) == Failure(MissingKey("c"))
  {
  }

  /** Sanitising an already sanitised point gives it back unchanged. */
  lemma SanitizeIdempotent(p: Point, parseFloat: string -> Option<real>)
    requires Sanitized(p)
    ensures Sanitize(p, parseFloat) == Success(p)
  {
    FirstMissingNone(p);
    var r := Sanitize(p, parseFloat);
    assert ToFloat(p["c"], parseFloat) == Some(p["c"].x) && ToFloat(p["o"], parseFloat) == Some(p["o"].x);
    assert ToFloat(p["h"], parseFloat) == Some(p["h"].x) && ToFloat(p["l"], parseFloat) == Some(p["l"].x);
    assert ToFloat(p["v"], parseFloat) == Some(p["v"].x) && ToInt(p["t"]) == Some(p["t"].i);
    assert r.Success?;
    assert r.value.Keys == p.Keys;
    assert forall k :: k in p ==> r.value[k] == p[k];
    assert r.value == p;
  }

  /** Whatever the input, a successful result is a fixed point. */
  lemma SanitizeTwice(p: Point, parseFloat: string -> Option<real>)
    requires Sanitize(p, parseFloat).Success?
    ensures Sanitize(Sanitize(p, parseFloat).value, parseFloat) == Sanitize(p, parseFloat)
  {
    SanitizeIdempotent(Sanitize(p, parseFloat).value, parseFloat);
  }
}

=== FILE: client_chart.dfy ===
/** The data handling of client/src/StockChart.jsx: the timeframe table,
    the rows handed to the main and volume series, the indicator id
    parsing, the toggle state kept next to the chart, the placement of
    server-side indicator values on the price times, and the series
    configuration lookup.  Chart calls are not modelled; the random volume
    fallback is a parameter.  Times are whole numbers (0 is JavaScript's
    falsy time). */
module ClientChart {
  import opened Wrappers
  import Seqs
  import Text
  import ApiService
  import FlaskServer

  // ---------------------------------------------------------------------
  // getTimeframeParams

  datatype TimeframeParams = TimeframeParams(period: string, interval: string)

  function GetTimeframeParams(timeframe: string): (r: TimeframeParams)
    ensures timeframe == "1W" ==> r == TimeframeParams("1y", "1wk")
    ensures timeframe == "1M" ==> r == TimeframeParams("2y", "1mo")
    ensures timeframe != "1W" && timeframe != "1M" ==> r == TimeframeParams("1y", "1d")
  {
    if timeframe == "1W" then TimeframeParams("1y", "1wk")
    else if timeframe == "1M" then TimeframeParams("2y", "1mo")
    else TimeframeParams("1y", "1d")
  }

  /** Only the interval is sent to the server (StockChart.jsx:220-222), and
      the server's interval table maps each interval the client sends to
      itself, so every timeframe is served at the interval it asked for. */
  lemma ClientIntervalsUnderstood(timeframe: string)
    ensures var interval := GetTimeframeParams(timeframe).interval;
            FlaskServer.YfInterval(interval) == interval
  {
  }

  // ---------------------------------------------------------------------
  // formatDataForChart and the volume rows

  /** A historical item; the volume is kept as the text `parseInt` reads. */
  datatype Item = Item(time: int, open: real, high: real, low: real, close: real, volume: string)

  datatype ChartRow =
    | Ohlc(time: int, open: real, high: real, low: real, close: real)
    | ValueRow(time: int, value: real)

  predicate IsLineType(chartType: string) {
    chartType == "line" || chartType == "area"
  }

  /** One row per item, in order: the close alone for line and area
      charts, the four prices for every other type. */
  function FormatDataForChart(items: seq<Item>, chartType: string): (r: seq<ChartRow>)
    ensures |r| == |items|
    ensures forall i :: 0 <= i < |r| ==> r[i].time == items[i].time
    ensures IsLineType(chartType) ==>
              forall i :: 0 <= i < |r| ==> r[i] == ValueRow(items[i].time, items[i].close)
    ensures !IsLineType(chartType) ==>
              forall i :: 0 <= i < |r| ==>
                r[i] == Ohlc(items[i].time, items[i].open, items[i].high, items[i].low, items[i].close)
  {
    seq(|items|, i requires 0 <= i < |items| =>
      if IsLineType(chartType) then ValueRow(items[i].time, items[i].close)
      else Ohlc(items[i].time, items[i].open, items[i].high, items[i].low, items[i].close))
  }

  datatype VolumeRow = VolumeRow(time: int, value: int, up: bool)

  /** Random volumes lie in [0, 1000000). */
  const RandomBound: int := 1_000_000

  /** `parseInt(item.volume) || Math.floor(Math.random() * 1000000)`: the
      parsed volume unless it is NaN or 0; `random` stands for the random
      draw at index i. */
  function VolumeValue(volume: string, random: nat): (v: int)
    ensures Text.JsParseInt(volume).Some? && Text.JsParseInt(volume).value != 0 ==>
              v == Text.JsParseInt(volume).value
    ensures Text.JsParseInt(volume).None? || Text.JsParseInt(volume).value == 0 ==>
              0 <= v < RandomBound
  {
    match Text.JsParseInt(volume)
    case Some(n) => if n != 0 then n else random % RandomBound
    case None => random % RandomBound
  }

  function VolumeRowsUnsorted(items: seq<Item>, random: nat -> nat): (r: seq<VolumeRow>)
    ensures |r| == |items|
    ensures forall i :: 0 <= i < |r| ==>
              r[i] == VolumeRow(items[i].time, VolumeValue(items[i].volume, random(i)),
                                items[i].close >= items[i].open)
  {
    seq(|items|, i requires 0 <= i < |items| =>
      VolumeRow(items[i].time, VolumeValue(items[i].volume, random(i)), items[i].close >= items[i].open))
  }

  /** The price rows and the volume rows agree index by index: the same
      time, and for candle types the volume bar is up exactly when the
      candle closes at or above its open. */
  lemma ChartAndVolumeInSync(items: seq<Item>, chartType: string, random: nat -> nat)
    ensures |FormatDataForChart(items, chartType)| == |VolumeRowsUnsorted(items, random)|
    ensures forall i :: 0 <= i < |items| ==>
              FormatDataForChart(items, chartType)[i].time == VolumeRowsUnsorted(items, random)[i].time
    ensures !IsLineType(chartType) ==>
              forall i :: 0 <= i < |items| ==>
                var row := FormatDataForChart(items, chartType)[i];
                row.Ohlc? && (VolumeRowsUnsorted(items, random)[i].up <==> row.close >= row.open)
  {
  }

  predicate SortedByTime(s: seq<VolumeRow>) {
    forall i, j :: 0 <= i < j < |s| ==> s[i].time <= s[j].time
  }

  /** Inserts after every row with an equal or earlier time, which keeps
      the sort stable like `Array.prototype.sort`. */
  function Insert(x: VolumeRow, s: seq<VolumeRow>): (r: seq<VolumeRow>)
    ensures |r| == |s| + 1
    decreases |s|
  {
    if |s| == 0 then [x]
    else if x.time < s[0].time then [x] + s
    else [s[0]] + Insert(x, s[1..])
  }

  lemma {:induction false} InsertMultiset(x: VolumeRow, s: seq<VolumeRow>)
    ensures multiset(Insert(x, s)) == multiset(s) + multiset{x}
    decreases |s|
  {
    if |s| > 0 && x.time >= s[0].time {
      InsertMultiset(x, s[1..]);
      assert s == [s[0]] + s[1..];
    }
  }

  /** Every time in the result is at least `t` when x's and s's are. */
  lemma {:induction false} InsertLowerBound(x: VolumeRow, s: seq<VolumeRow>, t: int)
    requires x.time >= t && forall i :: 0 <= i < |s| ==> s[i].time >= t
    ensures forall i :: 0 <= i < |Insert(x, s)| ==> Insert(x, s)[i].time >= t
    decreases |s|
  {
    if |s| > 0 && x.time >= s[0].time {
      InsertLowerBound(x, s[1..], t);
    }
  }

  lemma ConsSorted(h: VolumeRow, rest: seq<VolumeRow>)
    requires SortedByTime(rest) && forall i :: 0 <= i < |rest| ==> h.time <= rest[i].time
    ensures SortedByTime([h] + rest)
  {
    var r := [h] + rest;
    forall i, j | 0 <= i < j < |r|
      ensures r[i].time <= r[j].time
    {
      assert r[j] == rest[j - 1];
      if i > 0 {
        assert r[i] == rest[i - 1];
      }
    }
  }

  lemma {:induction false} InsertProperties(x: VolumeRow, s: seq<VolumeRow>)
    requires SortedByTime(s)
    ensures SortedByTime(Insert(x, s))
    ensures multiset(Insert(x, s)) == multiset(s) + multiset{x}
    decreases |s|
  {
    InsertMultiset(x, s);
    if |s| == 0 {
    } else if x.time < s[0].time {
      ConsSorted(x, s);
    } else {
      InsertProperties(x, s[1..]);
      InsertLowerBound(x, s[1..], s[0].time);
      ConsSorted(s[0], Insert(x, s[1..]));
    }
  }

  /** `volumeData.sort((a, b) => a.time - b.time)`. */
  function SortByTime(s: seq<VolumeRow>): (r: seq<VolumeRow>)
    ensures SortedByTime(r)
    ensures multiset(r) == multiset(s)
    ensures |r| == |s|
    decreases |s|
  {
    if |s| == 0 then []
    else
      var init, x := s[..|s| - 1], s[|s| - 1];
      var prefix := SortByTime(init);
      InsertProperties(x, prefix);
      assert multiset(s) == multiset(init) + multiset{x} by {
        assert s == init + [x];
      }
      Insert(x, prefix)
  }

  /** The volume series data: one row per item, sorted by time. */
  function VolumeData(items: seq<Item>, random: nat -> nat): (r: seq<VolumeRow>)
    ensures SortedByTime(r)
    ensures multiset(r) == multiset(VolumeRowsUnsorted(items, random))
  {
    SortByTime(VolumeRowsUnsorted(items, random))
  }

  /** Already ordered items keep their order. */
  lemma {:induction false} SortedUnchanged(s: seq<VolumeRow>)
    requires SortedByTime(s)
    ensures SortByTime(s) == s
    decreases |s|
  {
    if |s| > 0 {
      var init := s[..|s| - 1];
      assert SortedByTime(init);
      SortedUnchanged(init);
      InsertAtEnd(s[|s| - 1], init);
      assert init + [s[|s| - 1]] == s;
    }
  }

  lemma {:induction false} InsertAtEnd(x: VolumeRow, s: seq<VolumeRow>)
    requires forall i :: 0 <= i < |s| ==> s[i].time <= x.time
    ensures Insert(x, s) == s + [x]
    decreases |s|
  {
    if |s| > 0 {
      InsertAtEnd(x, s[1..]);
      assert s == [s[0]] + s[1..];
    }
  }

  // ---------------------------------------------------------------------
  // Indicator ids

  /** Index of the first digit, `|s|` when there is none. */
  function FirstDigit(s: string): (k: nat)
    ensures k <= |s|
    ensures forall i :: 0 <= i < k ==> !Text.IsDigit(s[i])
    ensures k < |s| ==> Text.IsDigit(s[k])
  {
    if |s| == 0 || Text.IsDigit(s[0]) then 0 else 1 + FirstDigit(s[1..])
  }

  /** `id.replace(/\d+/, '')`: the first run of digits removed. */
  function IndicatorType(id: string): (r: string)
    ensures FirstDigit(id) == |id| ==> r == id
    ensures |r| <= |id|
  {
    var k := FirstDigit(id);
    var run := Text.DigitRunLength(id[k..]);
    id[..k] + id[k + run..]
  }

  /** The period asked for: 20 if the id contains "20", else 50 if it
      contains "50", else 14. */
  function IndicatorPeriod(id: string): (p: nat)
    ensures Text.Contains(id, "20") ==> p == 20
    ensures !Text.Contains(id, "20") && Text.Contains(id, "50") ==> p == 50
    ensures !Text.Contains(id, "20") && !Text.Contains(id, "50") ==> p == 14
  {
    if Text.Contains(id, "20") then 20 else if Text.Contains(id, "50") then 50 else 14
  }

  /** A type name followed by a number: the number goes, the name stays. */
  lemma TypeOfNameAndNumber(name: string, digits: string)
    requires forall i :: 0 <= i < |name| ==> !Text.IsDigit(name[i])
    requires |digits| > 0 && forall i :: 0 <= i < |digits| ==> Text.IsDigit(digits[i])
    ensures IndicatorType(name + digits) == name
  {
    var id := name + digits;
    FirstDigitOfPrefix(name, digits);
    assert id[|name|..] == digits;
    RunOfDigits(digits);
    assert id[..|name|] == name;
  }

  lemma {:induction false} FirstDigitOfPrefix(name: string, digits: string)
    requires forall i :: 0 <= i < |name| ==> !Text.IsDigit(name[i])
    requires |digits| > 0 && Text.IsDigit(digits[0])
    ensures FirstDigit(name + digits) == |name|
    decreases |name|
  {
    if |name| == 0 {
      assert name + digits == digits;
    } else {
      assert (name + digits)[1..] == name[1..] + digits;
      FirstDigitOfPrefix(name[1..], digits);
    }
  }

  lemma {:induction false} RunOfDigits(digits: string)
    requires forall i :: 0 <= i < |digits| ==> Text.IsDigit(digits[i])
    ensures Text.DigitRunLength(digits) == |digits|
    decreases |digits|
  {
    if |digits| > 0 {
      RunOfDigits(digits[1..]);
    }
  }

  /** A name without digits keeps its type and gets period 14. */
  lemma PlainName(name: string)
    requires forall i :: 0 <= i < |name| ==> !Text.IsDigit(name[i])
    ensures IndicatorType(name) == name && IndicatorPeriod(name) == 14
  {
    assert name[..|name|] == name;
    assert name[|name|..] == [];
    Text.NotContainsChar(name, "20");
    Text.NotContainsChar(name, "50");
  }

  /** The (type, period) table the indicator loader uses for the ids it
      knows. */
  const LoadTable: map<string, (string, nat)> := map[
    "sma20" := ("sma", 20),
    "sma50" := ("sma", 50),
    "ema20" := ("ema", 20),
    "rsi" := ("rsi", 14)
  ]

  /** The two period-20 averages: the name, then "20". */
  lemma TwentyId(name: string, id: string)
    requires name == "sma" || name == "ema"
    requires id == name + "20"
    ensures id in LoadTable && (IndicatorType(id), IndicatorPeriod(id)) == LoadTable[id]
  {
    TypeOfNameAndNumber(name, "20");
    Text.ContainsSuffix(name, "20");
    assert id == (if name == "sma" then "sma20" else "ema20");
  }

  lemma Sma50Id(id: string)
    requires id == "sma50"
    ensures id in LoadTable && (IndicatorType(id), IndicatorPeriod(id)) == LoadTable[id]
  {
    assert "sma50" == "sma" + "50";
    TypeOfNameAndNumber("sma", "50");
    Text.ContainsSuffix("sma", "50");
    NoTwenty();
  }

  lemma RsiId(id: string)
    requires id == "rsi"
    ensures id in LoadTable && (IndicatorType(id), IndicatorPeriod(id)) == LoadTable[id]
  {
    var rsi := "rsi";
    assert forall i :: 0 <= i < |rsi| ==> !Text.IsDigit(rsi[i]);
    PlainName(rsi);
  }

  lemma NoTwenty()
    ensures !Text.Contains("sma50", "20")
  {
    var s := "sma50";
    assert forall i :: 0 <= i < |s| ==> s[i] != '2';
    Text.NotContainsChar(s, "20");
  }

  /** For every id of the loader's table, the toggle derives the same type
      and period from the id's text. */
  lemma ToggleAgreesWithLoadTable(id: string)
    requires id in LoadTable
    ensures (IndicatorType(id), IndicatorPeriod(id)) == LoadTable[id]
  {
    if id == "sma20" {
      TwentyId("sma", id);
    } else if id == "sma50" {
      Sma50Id(id);
    } else if id == "ema20" {
      TwentyId("ema", id);
    } else {
      assert id == "rsi";
      RsiId(id);
    }
  }

  // ---------------------------------------------------------------------
  // handleIndicatorToggle

  /** The component state the toggle touches: the active and loading id
      sets, the data each indicator series shows, and the module-level
      indicator cache. */
  datatype ToggleState<D> = ToggleState(active: set<string>, loading: set<string>,
                                        series: map<string, D>, cache: ApiService.Cache<D>)

  /** Before the fetch: the id is marked loading. */
  function BeginEnable<D>(s: ToggleState<D>, id: string): (r: ToggleState<D>)
    ensures r == s.(loading := s.loading + {id})
  {
    s.(loading := s.loading + {id})
  }

  /** After the fetch: on success the series shows the data and the id
      becomes active; the id leaves the loading set either way. */
  function FinishEnable<D>(s: ToggleState<D>, id: string, step: ApiService.FetchStep<D>): (r: ToggleState<D>)
    ensures id !in r.loading && r.loading == s.loading - {id}
    ensures r.cache == step.cache
    ensures step.result.Success? ==>
              r.active == s.active + {id} && id in r.series && r.series[id] == step.result.value
    ensures step.result.Failure? ==> r.active == s.active && r.series == s.series
  {
    match step.result
    case Success(data) =>
      s.(active := s.active + {id}, series := s.series[id := data], loading := s.loading - {id}, cache := step.cache)
    case Failure(_) =>
      s.(loading := s.loading - {id}, cache := step.cache)
  }

  /** Enabling `id` for `symbol` at time `now`, the request (if one is
      made) answering with `response` at `doneAt`. */
  function EnableIndicator<D>(s: ToggleState<D>, id: string, symbol: string, now: int,
                              response: ApiService.Response<D>, doneAt: int): (r: ToggleState<D>)
    ensures var step := ApiService.FetchIndicatorData(s.cache, symbol, IndicatorType(id), IndicatorPeriod(id),
                                                      now, response, doneAt);
            r == FinishEnable(BeginEnable(s, id), id, step)
  {
    var step := ApiService.FetchIndicatorData(s.cache, symbol, IndicatorType(id), IndicatorPeriod(id),
                                              now, response, doneAt);
    FinishEnable(BeginEnable(s, id), id, step)
  }

  /** A failed request leaves the id inactive and no longer loading. */
  lemma FailedEnableLeavesInactive<D>(s: ToggleState<D>, id: string, symbol: string, now: int,
                                      response: ApiService.Response<D>, doneAt: int)
    requires id !in s.active && id !in s.loading
    requires !response.Ok?
    requires var key := ApiService.CacheKey(symbol, IndicatorType(id), IndicatorPeriod(id));
             !(key in s.cache && ApiService.Fresh(s.cache[key], now))
    ensures var r := EnableIndicator(s, id, symbol, now, response, doneAt);
            id !in r.active && id !in r.loading && r.series == s.series
  {
  }

  /** Disabling drops the id from the active set and its series; nothing
      else changes. */
  function DisableIndicator<D>(s: ToggleState<D>, id: string): (r: ToggleState<D>)
    ensures r.active == s.active - {id}
    ensures id !in r.series
    ensures forall k :: k != id ==> (k in r.series <==> k in s.series) && (k in s.series ==> r.series[k] == s.series[k])
    ensures r.loading == s.loading && r.cache == s.cache
  {
    s.(active := s.active - {id}, series := s.series - {id})
  }

  /** Enabling and then disabling an inactive id without a series restores
      the state, except for the cache entry the fetch may have stored. */
  lemma EnableThenDisable<D>(s: ToggleState<D>, id: string, symbol: string, now: int,
                             response: ApiService.Response<D>, doneAt: int)
    requires id !in s.active && id !in s.loading && id !in s.series
    ensures var r := DisableIndicator(EnableIndicator(s, id, symbol, now, response, doneAt), id);
            r.active == s.active && r.loading == s.loading && r.series == s.series
  {
    var step := ApiService.FetchIndicatorData(s.cache, symbol, IndicatorType(id), IndicatorPeriod(id),
                                              now, response, doneAt);
    var r := DisableIndicator(EnableIndicator(s, id, symbol, now, response, doneAt), id);
    assert r.series.Keys == s.series.Keys;
  }

  // ---------------------------------------------------------------------
  // start_index alignment in loadIndicators

  /** `priceData[k]?.time`: None when k is outside the price data. */
  function TimeAt(priceTimes: seq<int>, k: int): (r: Option<int>)
    ensures 0 <= k < |priceTimes| <==> r.Some?
    ensures r.Some? ==> r.value == priceTimes[k]
  {
    if 0 <= k < |priceTimes| then Some(priceTimes[k]) else None
  }

  datatype Placed = Placed(time: Option<int>, value: real)

  datatype LinePoint = LinePoint(time: int, value: real)

  /** `.filter(item => item.time)`: a missing time is dropped.  Times are
      modelled as integers, so the falsy value 0 is dropped too; the server
      sends 'YYYY-MM-DD' strings (server/app.py:163), which are never
      falsy, so with its data only the missing time is removed. */
  function HasTime(p: Placed): Option<LinePoint> {
    if p.time.Some? && p.time.value != 0 then Some(LinePoint(p.time.value, p.value)) else None
  }

  function Placements(values: seq<real>, priceTimes: seq<int>, start: int): (r: seq<Placed>)
    ensures |r| == |values|
    ensures forall j :: 0 <= j < |r| ==> r[j] == Placed(TimeAt(priceTimes, j + start), values[j])
  {
    seq(|values|, j requires 0 <= j < |values| => Placed(TimeAt(priceTimes, j + start), values[j]))
  }

  /** Value j placed at the time of price `j + start`, out-of-range ones
      dropped. */
  function Align(values: seq<real>, priceTimes: seq<int>, start: int): seq<LinePoint> {
    Seqs.Choose(Placements(values, priceTimes, start), HasTime)
  }

  /** A point is drawn exactly when value j's shifted index falls inside
      the price data at a non-zero time. */
  lemma AlignExact(values: seq<real>, priceTimes: seq<int>, start: int, p: LinePoint)
    ensures p in Align(values, priceTimes, start) <==>
              exists j :: 0 <= j < |values| && 0 <= j + start < |priceTimes|
                          && priceTimes[j + start] != 0
                          && p == LinePoint(priceTimes[j + start], values[j])
  {
    var placed := Placements(values, priceTimes, start);
    Seqs.ChooseMembership(placed, HasTime, p);
    if p in Align(values, priceTimes, start) {
      var j :| 0 <= j < |placed| && HasTime(placed[j]) == Some(p);
      assert 0 <= j + start < |priceTimes|;
    }
  }

  /** When every shifted index is inside the price data at a non-zero
      time, nothing is dropped and value j sits at price j + start. */
  lemma AlignInRange(values: seq<real>, priceTimes: seq<int>, start: int)
    requires 0 <= start && start + |values| <= |priceTimes|
    requires forall k :: 0 <= k < |priceTimes| ==> priceTimes[k] != 0
    ensures |Align(values, priceTimes, start)| == |values|
    ensures forall j :: 0 <= j < |values| ==>
              Align(values, priceTimes, start)[j] == LinePoint(priceTimes[j + start], values[j])
  {
    Seqs.ChooseAll(Placements(values, priceTimes, start), HasTime);
  }

  /** The MACD signal line is placed 8 prices after the MACD line. */
  function AlignSignal(signal: seq<real>, priceTimes: seq<int>, start: int): seq<LinePoint> {
    Align(signal, priceTimes, start + 8)
  }

  /** Signal value j is drawn exactly when price `start + 8 + j` exists
      with a non-zero time, and then at that price's time. */
  lemma SignalAlignExact(signal: seq<real>, priceTimes: seq<int>, start: int, p: LinePoint)
    ensures p in AlignSignal(signal, priceTimes, start) <==>
              exists j :: 0 <= j < |signal| && 0 <= start + 8 + j < |priceTimes|
                          && priceTimes[start + 8 + j] != 0
                          && p == LinePoint(priceTimes[start + 8 + j], signal[j])
  {
    AlignExact(signal, priceTimes, start + 8, p);
  }

  /** When both lines fit inside the price data, signal value j shares its
      time with MACD value j + 8. */
  lemma SignalLagsMacd(macd: seq<real>, signal: seq<real>, priceTimes: seq<int>, start: int)
    requires 0 <= start && start + |macd| <= |priceTimes|
    requires |signal| + 8 <= |macd|
    requires forall k :: 0 <= k < |priceTimes| ==> priceTimes[k] != 0
    ensures |AlignSignal(signal, priceTimes, start)| == |signal|
    ensures |Align(macd, priceTimes, start)| == |macd|
    ensures forall j :: 0 <= j < |signal| ==>
              AlignSignal(signal, priceTimes, start)[j].time == Align(macd, priceTimes, start)[j + 8].time
  {
    AlignInRange(macd, priceTimes, start);
    AlignInRange(signal, priceTimes, start + 8);
  }

  // ---------------------------------------------------------------------
  // getIndicatorConfig

  datatype Placement = Overlay | Oscillator

  datatype SeriesConfig = SeriesConfig(color: string, title: string, lineWidth: nat,
                                       priceScaleId: Option<string>, placement: Placement)

  const Configs: map<string, SeriesConfig> := map[
    "sma20" := SeriesConfig("#2962ff", "SMA 20", 2, None, Overlay),
    "sma50" := SeriesConfig("#ff6d00", "SMA 50", 2, None, Overlay),
    "ema20" := SeriesConfig("#e91e63", "EMA 20", 2, None, Overlay),
    "rsi" := SeriesConfig("#9c27b0", "RSI", 1, Some("rsi"), Oscillator),
    "macd" := SeriesConfig("#00bcd4", "MACD", 1, Some("macd"), Oscillator)
  ]

  /** The configuration for an id; any unknown id is drawn as SMA 20. */
  function GetIndicatorConfig(id: string): (c: SeriesConfig)
    ensures id in Configs ==> c == Configs[id]
    ensures id !in Configs ==> c == Configs["sma20"]
  {
    if id in Configs then Configs[id] else Configs["sma20"]
  }
}

=== FILE: connections.dfy ===
/** The websocket registry of backend/main.py (`ConnectionManager`): for
    each symbol, the set of sockets subscribed to it.  Sockets are opaque
    numbers; which sends fail during a broadcast is a parameter. */
module Connections {

  type Socket = nat

  type Registry = map<string, set<Socket>>

  /** No symbol is kept with an empty set, which is what `connect` and
      `disconnect` maintain. */
  predicate NoEmptyEntries(reg: Registry) {
    forall s :: s in reg ==> reg[s] != {}
  }

  /** The symbols other than `symbol` have the same entries in both. */
  ghost predicate SameElsewhere(a: Registry, b: Registry, symbol: string) {
    forall s :: s != symbol ==> (s in a <==> s in b) && (s in a ==> a[s] == b[s])
  }

  /** `connect`: the socket joins the symbol's set, created if absent. */
  function Connect(reg: Registry, ws: Socket, symbol: string): (r: Registry)
    ensures symbol in r && ws in r[symbol]
    ensures symbol in reg ==> r[symbol] == reg[symbol] + {ws}
    ensures symbol !in reg ==> r[symbol] == {ws}
    ensures SameElsewhere(r, reg, symbol)
  {
    var current := if symbol in reg then reg[symbol] else {};
    reg[symbol := current + {ws}]
  }

  /** `disconnect`: the socket leaves the symbol's set and the entry goes
      once empty; an unknown symbol is left alone. */
  function Disconnect(reg: Registry, ws: Socket, symbol: string): (r: Registry)
    ensures symbol !in reg ==> r == reg
    ensures symbol in reg && reg[symbol] - {ws} == {} ==> symbol !in r
    ensures symbol in reg && reg[symbol] - {ws} != {} ==> symbol in r && r[symbol] == reg[symbol] - {ws}
    ensures symbol in r ==> ws !in r[symbol]
    ensures SameElsewhere(r, reg, symbol)
  {
    if symbol !in reg then reg
    else
      var rest := reg[symbol] - {ws};
      if rest == {} then reg - {symbol} else reg[symbol := rest]
  }

  /** `broadcast`: the sockets whose send raised are discarded; the entry is
      kept even when that empties it. */
  function Broadcast(reg: Registry, symbol: string, failed: set<Socket>): (r: Registry)
    ensures symbol !in reg ==> r == reg
    ensures symbol in reg ==> symbol in r && r[symbol] == reg[symbol] - failed
    ensures SameElsewhere(r, reg, symbol)
  {
    if symbol in reg then reg[symbol := reg[symbol] - failed] else reg
  }

  lemma ConnectKeepsNoEmpty(reg: Registry, ws: Socket, symbol: string)
    requires NoEmptyEntries(reg)
    ensures NoEmptyEntries(Connect(reg, ws, symbol))
  {
  }

  lemma DisconnectKeepsNoEmpty(reg: Registry, ws: Socket, symbol: string)
    requires NoEmptyEntries(reg)
    ensures NoEmptyEntries(Disconnect(reg, ws, symbol))
  {
  }

  /** Broadcasting can break the invariant: a symbol whose only socket
      fails stays registered with an empty set. */
  lemma BroadcastCanLeaveEmptyEntry()
    ensures NoEmptyEntries(map["AAPL" := {1}])
    ensures !NoEmptyEntries(Broadcast(map["AAPL" := {1}], "AAPL", {1}))
  {
    var r := Broadcast(map["AAPL" := {1}], "AAPL", {1});
    assert "AAPL" in r && r["AAPL"] == {};
  }

  /** After such a broadcast, a disconnect of any socket drops the empty
      entry again. */
  lemma DisconnectDropsEmptiedEntry(reg: Registry, symbol: string, failed: set<Socket>, ws: Socket)
    requires symbol in reg && reg[symbol] <= failed
    ensures symbol !in Disconnect(Broadcast(reg, symbol, failed), ws, symbol)
  {
  }

  /** Round trip: connecting a new socket and disconnecting it again
      restores the registry. */
  lemma ConnectThenDisconnect(reg: Registry, ws: Socket, symbol: string)
    requires NoEmptyEntries(reg)
    requires symbol in reg ==> ws !in reg[symbol]
    ensures Disconnect(Connect(reg, ws, symbol), ws, symbol) == reg
  {
    var r := Disconnect(Connect(reg, ws, symbol), ws, symbol);
    if symbol in reg {
      assert reg[symbol] + {ws} - {ws} == reg[symbol];
      assert r[symbol] == reg[symbol];
    }
    assert r.Keys == reg.Keys;
  }
}

=== FILE: data_formatter.dfy ===
/** Chart-data shaping in client/src/dataFormatter.js: raw items to candles,
    a live trade merged into the day's candle, and value/time pairs for line
    series.  Dates are day numbers since the Unix epoch (UTC), which is what
    the "YYYY-MM-DD" strings of the source denote; `parseFloat` is taken to
    have produced the reals already. */
module DataFormatter {
  import opened Wrappers

  const MsPerDay: int := 86_400_000

  /** A bar without volume: the live path never carries one. */
  datatype Candle = Candle(time: int, open: real, high: real, low: real, close: real)

  datatype Trade = Trade(price: real, timestamp: int)

  /** A raw historical item; its volume is not part of a candle. */
  datatype RawItem = RawItem(time: int, open: real, high: real, low: real, close: real, volume: real)

  datatype LinePoint = LinePoint(time: Option<int>, value: real)

  predicate WellFormed(c: Candle) {
    c.low <= c.open <= c.high && c.low <= c.close <= c.high
  }

  function Max(a: real, b: real): real { if a >= b then a else b }
  function Min(a: real, b: real): real { if a <= b then a else b }

  /** The UTC calendar day of a millisecond timestamp (`toISOString()`
      truncated at "T"). */
  function UtcDay(ms: int): (day: int)
    ensures day * MsPerDay <= ms < (day + 1) * MsPerDay
  {
    ms / MsPerDay
  }

  /** `formatRealtimeData(trade, currentCandle)`: a trade on the candle's day
      extends it; any other trade (no candle, a later day, or an earlier
      one) opens a flat candle on its own day. */
  function FormatRealtime(trade: Trade, current: Option<Candle>): (r: Candle)
    ensures r.time * MsPerDay <= trade.timestamp < (r.time + 1) * MsPerDay
    ensures r.close == trade.price
    ensures r.low <= trade.price <= r.high
    ensures current.Some? && current.value.time == r.time ==>
              r.open == current.value.open
              && r.high == Max(current.value.high, trade.price)
              && r.low == Min(current.value.low, trade.price)
    ensures (current.None? || current.value.time != r.time) ==>
              r == Candle(r.time, trade.price, trade.price, trade.price, trade.price)
    ensures current.None? || WellFormed(current.value) ==> WellFormed(r)
  {
    var price := trade.price;
    var day := UtcDay(trade.timestamp);
    if current.Some? && current.value.time == day then
      Candle(day, current.value.open, Max(current.value.high, price), Min(current.value.low, price), price)
    else
      Candle(day, price, price, price, price)
  }

  /** Feeds trades one after another through `FormatRealtime`. */
  function ApplyTrades(current: Option<Candle>, trades: seq<Trade>): Option<Candle>
    decreases |trades|
  {
    if |trades| == 0 then current
    else ApplyTrades(Some(FormatRealtime(trades[0], current)), trades[1..])
  }

  function MaxPrice(first: real, trades: seq<Trade>): real
    decreases |trades|
  {
    if |trades| == 0 then first else MaxPrice(Max(first, trades[0].price), trades[1..])
  }

  function MinPrice(first: real, trades: seq<Trade>): real
    decreases |trades|
  {
    if |trades| == 0 then first else MinPrice(Min(first, trades[0].price), trades[1..])
  }

  /** Trades within one day accumulate: the open stays, the high and low
      are the extremes of the candle and every trade, the close is the
      last price. */
  lemma {:induction false} SameDayTrades(c: Candle, trades: seq<Trade>)
    requires |trades| > 0
    requires forall i :: 0 <= i < |trades| ==> UtcDay(trades[i].timestamp) == c.time
    ensures ApplyTrades(Some(c), trades)
            == Some(Candle(c.time, c.open, MaxPrice(c.high, trades), MinPrice(c.low, trades),
                           trades[|trades| - 1].price))
    decreases |trades|
  {
    var next := FormatRealtime(trades[0], Some(c));
    assert next == Candle(c.time, c.open, Max(c.high, trades[0].price), Min(c.low, trades[0].price), trades[0].price);
    if |trades| > 1 {
      SameDayTrades(next, trades[1..]);
    }
  }

  /** Any run of trades keeps a well-formed candle well formed. */
  lemma {:induction false} TradesKeepWellFormed(current: Option<Candle>, trades: seq<Trade>)
    requires current.None? || WellFormed(current.value)
    ensures var r := ApplyTrades(current, trades); r.None? || WellFormed(r.value)
    decreases |trades|
  {
    if |trades| > 0 {
      TradesKeepWellFormed(Some(FormatRealtime(trades[0], current)), trades[1..]);
    }
  }

  /** `formatCandlestickData`: one candle per item, in order, volume dropped. */
  function FormatCandlestickData(raw: seq<RawItem>): (r: seq<Candle>)
    ensures |r| == |raw|
    ensures forall i :: 0 <= i < |raw| ==>
              r[i] == Candle(raw[i].time, raw[i].open, raw[i].high, raw[i].low, raw[i].close)
  {
    seq(|raw|, i requires 0 <= i < |raw| =>
      Candle(raw[i].time, raw[i].open, raw[i].high, raw[i].low, raw[i].close))
  }

  /** Each candle depends on its own item only, so formatting commutes with
      concatenation. */
  lemma CandlestickDataAppend(a: seq<RawItem>, b: seq<RawItem>)
    ensures FormatCandlestickData(a + b) == FormatCandlestickData(a) + FormatCandlestickData(b)
  {
  }

  /** `formatLineData(values, timestamps)`: one point per value; its time is
      the timestamp at the same index, undefined (None) past the end. */
  function FormatLineData(values: seq<real>, timestamps: seq<int>): (r: seq<LinePoint>)
    ensures |r| == |values|
    ensures forall i :: 0 <= i < |values| ==> r[i].value == values[i]
    ensures forall i :: 0 <= i < |values| && i < |timestamps| ==> r[i].time == Some(timestamps[i])
    ensures forall i :: |timestamps| <= i < |values| ==> r[i].time.None?
  {
    seq(|values|, i requires 0 <= i < |values| =>
      LinePoint(if i < |timestamps| then Some(timestamps[i]) else None, values[i]))
  }

  /** Each point depends on its own index only: formatting a concatenation
      formats the second part against the timestamps after the first. */
  lemma LineDataAppend(a: seq<real>, b: seq<real>, timestamps: seq<int>)
    ensures FormatLineData(a + b, timestamps)
            == FormatLineData(a, timestamps)
               + FormatLineData(b, if |a| <= |timestamps| then timestamps[|a|..] else [])
  {
  }
}

=== FILE: flask_server.dfy ===
/** The pure parts of the Flask server (server/app.py): its own unrounded
    SMA, gap filling of daily rows, the five-minute historical cache, the
    interval table and the parameter checks of the indicator endpoint.
    Dates are whole day numbers; the yfinance lookup and the mock generator
    are parameters. */
module FlaskServer {
  import opened Wrappers
  import Text
  import Indicators

  /** The local `calculate_sma`: the same windows as the library version,
      without rounding. */
  method CalculateSma(prices: seq<real>, period: nat) returns (r: Result<seq<real>, Indicators.PyError>)
    ensures |prices| < period ==> r == Success([])
    ensures period == 0 ==> r == Failure(Indicators.ZeroDivisionError)
    ensures 1 <= period <= |prices| ==>
              r.Success? && |r.value| == |prices| - period + 1
              && forall j :: 0 <= j < |r.value| ==> r.value[j] == Indicators.Mean(prices[j..j + period])
  {
    r := Indicators.Sma(prices, period);
  }

  // ---------------------------------------------------------------------
  // fill_missing_data

  /** A daily row: a priced bar, or a placeholder for a day without data
      (open/high/low/close None and no volume key). */
  datatype Row =
    | Priced(day: int, open: real, high: real, low: real, close: real, volume: int)
    | Placeholder(day: int)

  /** Placeholders needed between two consecutive days: d - 1 for a gap of
      d > 1 days, none for the same day, the next day or an earlier day. */
  function GapCount(day: int, next: int): (n: nat)
    ensures next - day > 1 ==> n == next - day - 1
    ensures next - day <= 1 ==> n == 0
  {
    if next - day > 1 then next - day - 1 else 0
  }

  function Gaps(day: int, count: nat): (g: seq<Row>)
    ensures |g| == count
    ensures forall k :: 0 <= k < count ==> g[k] == Placeholder(day + 1 + k)
  {
    seq(count, k requires 0 <= k < count => Placeholder(day + 1 + k))
  }

  function FillFrom(data: seq<Row>): seq<Row>
    requires |data| > 0
    decreases |data|
  {
    if |data| == 1 then [data[0]]
    else [data[0]] + Gaps(data[0].day, GapCount(data[0].day, data[1].day)) + FillFrom(data[1..])
  }

  /** `fill_missing_data(data)`: fewer than two rows come back unchanged. */
  function FillMissingData(data: seq<Row>): (r: seq<Row>)
    ensures |data| < 2 ==> r == data
    ensures |data| >= 2 ==> |r| >= |data|
  {
    if |data| < 2 then data
    else
      FillLength(data);
      FillFrom(data)
  }

  /** Σ GapCount over consecutive pairs. */
  function GapTotal(data: seq<Row>): nat
    decreases |data|
  {
    if |data| < 2 then 0 else GapCount(data[0].day, data[1].day) + GapTotal(data[1..])
  }

  /** Where input row i lands in the output. */
  function Position(data: seq<Row>, i: nat): nat
    requires i < |data|
    decreases i
  {
    if i == 0 then 0
    else 1 + GapCount(data[0].day, data[1].day) + Position(data[1..], i - 1)
  }

  lemma {:induction false} FillLength(data: seq<Row>)
    requires |data| > 0
    ensures |FillFrom(data)| == |data| + GapTotal(data)
    decreases |data|
  {
    if |data| > 1 {
      FillLength(data[1..]);
    }
  }

  /** Output length = input length + Σ max(0, dᵢ - 1). */
  lemma FillMissingLength(data: seq<Row>)
    ensures |FillMissingData(data)| == |data| + GapTotal(data)
  {
    if |data| >= 2 {
      FillLength(data);
    }
  }

  /** Consecutive input rows are separated by exactly their placeholders. */
  lemma {:induction false} PositionStep(data: seq<Row>, i: nat)
    requires i + 1 < |data|
    ensures Position(data, i + 1) == Position(data, i) + 1 + GapCount(data[i].day, data[i + 1].day)
    decreases i
  {
    if i > 0 {
      PositionStep(data[1..], i - 1);
    }
  }

  /** Slices of `head + tail` past the head are slices of the tail. */
  lemma ShiftSlice(head: seq<Row>, tail: seq<Row>, a: nat, b: nat)
    requires a <= b <= |tail|
    ensures (head + tail)[|head| + a..|head| + b] == tail[a..b]
  {
  }

  lemma {:induction false} FillFromShape(data: seq<Row>, i: nat)
    requires i < |data|
    ensures Position(data, i) < |FillFrom(data)| && FillFrom(data)[Position(data, i)] == data[i]
    ensures i + 1 < |data| ==>
              var p := Position(data, i);
              var g := GapCount(data[i].day, data[i + 1].day);
              p + 1 + g <= |FillFrom(data)| && FillFrom(data)[p + 1..p + 1 + g] == Gaps(data[i].day, g)
    decreases i
  {
    if |data| == 1 {
      assert FillFrom(data) == [data[0]];
    } else {
      var rest := data[1..];
      var head := [data[0]] + Gaps(data[0].day, GapCount(data[0].day, data[1].day));
      assert FillFrom(data) == head + FillFrom(rest);
      if i == 0 {
        assert (head + FillFrom(rest))[1..|head|] == head[1..];
      } else {
        FillFromShape(rest, i - 1);
        var q := Position(rest, i - 1);
        assert Position(data, i) == |head| + q;
        assert data[i] == rest[i - 1];
        if i + 1 < |data| {
          assert data[i + 1] == rest[i];
          var g := GapCount(data[i].day, data[i + 1].day);
          ShiftSlice(head, FillFrom(rest), q + 1, q + 1 + g);
        }
      }
    }
  }

  /** Every input row appears in the output, in order, and between rows i
      and i + 1 sit exactly the placeholders for the intermediate days. */
  lemma FillMissingShape(data: seq<Row>, i: nat)
    requires |data| >= 2 && i < |data|
    ensures var r := FillMissingData(data);
            Position(data, i) < |r| && r[Position(data, i)] == data[i]
    ensures var r := FillMissingData(data);
            i + 1 < |data| ==>
              var p := Position(data, i);
              var g := GapCount(data[i].day, data[i + 1].day);
              Position(data, i + 1) == p + 1 + g
              && p + 1 + g <= |r|
              && r[p + 1..p + 1 + g] == Gaps(data[i].day, g)
  {
    FillFromShape(data, i);
    if i + 1 < |data| {
      PositionStep(data, i);
    }
  }

  // ---------------------------------------------------------------------
  // /api/historical

  /** Cache lifetime in seconds. */
  const CacheDuration: real := 300.0

  type HistoryCache<D> = map<string, (D, real)>

  datatype Reply<D> = Json(body: D) | ErrorReply(status: nat, message: string)

  /** The cached body for `key`, served only while less than
      `CacheDuration` seconds old. */
  function CachedBody<D>(cache: HistoryCache<D>, key: string, now: real): (r: Option<D>)
    ensures r.Some? <==> key in cache && now - cache[key].1 < CacheDuration
    ensures r.Some? ==> r.value == cache[key].0
  {
    if key in cache && now - cache[key].1 < CacheDuration then Some(cache[key].0) else None
  }

  /** The yfinance interval for the client's interval parameter. */
  function YfInterval(interval: string): (r: string)
    ensures interval == "D" || interval == "1d" ==> r == "1d"
    ensures interval == "1wk" || interval == "1W" ==> r == "1wk"
    ensures interval == "1mo" || interval == "1M" ==> r == "1mo"
    ensures interval !in {"D", "1d", "1wk", "1W", "1mo", "1M"} ==> r == "1d"
  {
    if interval == "D" || interval == "1d" then "1d"
    else if interval == "1wk" || interval == "1W" then "1wk"
    else if interval == "1mo" || interval == "1M" then "1mo"
    else "1d"
  }

  /** The history span requested for a yfinance interval. */
  function YfPeriod(yfInterval: string): (r: string)
    ensures yfInterval == "1mo" ==> r == "10y"
    ensures yfInterval == "1wk" ==> r == "5y"
    ensures yfInterval != "1mo" && yfInterval != "1wk" ==> r == "1y"
  {
    if yfInterval == "1mo" then "10y" else if yfInterval == "1wk" then "5y" else "1y"
  }

  /** `get_historical_data` at time `now`: `fetched` is what the yfinance
      path produced (None when it found nothing or raised) and `mock` the
      generated fallback. */
  function GetHistoricalData<D>(cache: HistoryCache<D>, symbol: Option<string>, interval: Option<string>,
                                now: real, fetched: Option<D>, mock: D): (r: (Reply<D>, HistoryCache<D>))
    ensures symbol.None? || symbol.value == "" ==> r == (ErrorReply(400, "Symbol parameter required"), cache)
    ensures symbol.Some? && symbol.value != "" ==>
              var key := symbol.value + "_" + interval.GetOr("D");
              r.0.Json?
              && (CachedBody(cache, key, now).Some? ==> r == (Json(cache[key].0), cache))
              && (CachedBody(cache, key, now).None? ==>
                    r.1 == cache[key := (r.0.body, now)]
                    && r.0.body == fetched.GetOr(mock))
  {
    if symbol.None? || symbol.value == "" then (ErrorReply(400, "Symbol parameter required"), cache)
    else
      var key := symbol.value + "_" + interval.GetOr("D");
      match CachedBody(cache, key, now)
      case Some(body) => (Json(body), cache)
      case None =>
        var body := fetched.GetOr(mock);
        (Json(body), cache[key := (body, now)])
  }

  /** A repeated request within five minutes is answered from the cache
      with the body of the first, whatever yfinance would now return. */
  lemma HistoricalServedFromCache<D>(cache: HistoryCache<D>, symbol: string, interval: Option<string>,
                                     now: real, fetched: Option<D>, mock: D,
                                     later: real, fetched2: Option<D>, mock2: D)
    requires symbol != "" && now <= later < now + CacheDuration
    requires CachedBody(cache, symbol + "_" + interval.GetOr("D"), now).None?
    ensures var (first, cache1) := GetHistoricalData(cache, Some(symbol), interval, now, fetched, mock);
            GetHistoricalData(cache1, Some(symbol), interval, later, fetched2, mock2) == (first, cache1)
  {
  }

  // ---------------------------------------------------------------------
  // /api/indicators parameter validation

  datatype ParamError =
    | MissingSymbol
    | MissingType
    | InvalidType
    | PeriodOutOfRange
    | PeriodNotInteger

  datatype IndicatorRequest = IndicatorRequest(symbol: string, indicatorType: string, period: int)

  const ValidIndicators: seq<string> := ["sma", "ema", "rsi", "macd"]

  /** The period text used when the request has none. */
  const DefaultPeriod: string := "20"

  /** Python's truthiness of an optional query argument. */
  predicate Present(arg: Option<string>) {
    arg.Some? && arg.value != ""
  }

  /** The 400 message of each failed check. */
  function ParamErrorMessage(e: ParamError): string {
    match e
    case MissingSymbol => "Missing required parameter: symbol"
    case MissingType => "Missing required parameter: type"
    case InvalidType => "Invalid indicator type. Must be one of: sma, ema, rsi, macd"
    case PeriodOutOfRange => "Period must be between 1 and 200"
    case PeriodNotInteger => "Period must be a valid integer"
  }

  /** The period of `get_indicators`: Python's `int()` of the argument, or
      of the default text when there is none. */
  function ParsePeriod(periodArg: Option<string>): (r: Option<int>)
    ensures periodArg.Some? ==> r == Text.ParsePyInt(periodArg.value)
  {
    match periodArg
    case None => Some(20)
    case Some(t) => Text.ParsePyInt(t)
  }

  /** `ParsePeriod` is `int()` of the argument with "20" as its default. */
  lemma ParsePeriodIsPyInt(periodArg: Option<string>)
    ensures ParsePeriod(periodArg) == Text.ParsePyInt(periodArg.GetOr(DefaultPeriod))
  {
    if periodArg.None? {
      ParseTwenty();
    }
  }

  /** The checks of `get_indicators`, in order; the first that fails gives
      the 400. */
  function ValidateIndicatorParams(symbol: Option<string>, indicatorType: Option<string>,
                                   periodArg: Option<string>): (r: Result<IndicatorRequest, ParamError>)
    ensures !Present(symbol) <==> r == Failure(MissingSymbol)
    ensures r == Failure(MissingType) <==> Present(symbol) && !Present(indicatorType)
    ensures r == Failure(InvalidType) <==>
              Present(symbol) && Present(indicatorType) && indicatorType.value !in ValidIndicators
    ensures r == Failure(PeriodNotInteger) <==>
              Present(symbol) && Present(indicatorType) && indicatorType.value in ValidIndicators
              && ParsePeriod(periodArg).None?
    ensures r.Success? <==>
              Present(symbol) && Present(indicatorType) && indicatorType.value in ValidIndicators
              && ParsePeriod(periodArg).Some? && 1 <= ParsePeriod(periodArg).value <= 200
    ensures r.Success? ==>
              r.value == IndicatorRequest(symbol.value, indicatorType.value, ParsePeriod(periodArg).value)
  {
    if !Present(symbol) then Failure(MissingSymbol)
    else if !Present(indicatorType) then Failure(MissingType)
    else if indicatorType.value !in ValidIndicators then Failure(InvalidType)
    else
      match ParsePeriod(periodArg)
      case None => Failure(PeriodNotInteger)
      case Some(period) =>
        if period <= 0 || period > 200 then Failure(PeriodOutOfRange)
        else Success(IndicatorRequest(symbol.value, indicatorType.value, period))
  }

  /** The default period text parses to 20. */
  lemma ParseTwenty()
    ensures Text.ParsePyInt(DefaultPeriod) == Some(20)
  {
    var t := "20";
    assert Text.IsDigit(t[0]) && Text.IsDigit(t[1]);
    Text.ParseDigits(t);
    assert t[..1] == "2" && "2"[..0] == "";
    assert Text.DigitsValue("2") == 2;
    assert Text.DigitsValue(t) == 20;
  }

}

=== FILE: frontend_app.dfy ===
/** The state handlers of frontend/src/App.tsx, each one atomic transition
    of the component's state: the websocket message reducer with its
    100-trade buffer, the reset on a symbol or timeframe change, and the
    indicator toggle. */
module FrontendApp {
  import opened Wrappers
  import Seqs
  import opened FrontendTypes

  /** Trades kept: the last 99 plus the new one. */
  const TradeBufferSize: nat := 100

  datatype AppState = AppState(symbol: string, timeframe: string, stockData: Option<StockData>,
                               trades: seq<TradeData>, isLoading: bool, activeIndicators: seq<string>)

  function Initial(): (s: AppState)
    ensures s.isLoading && s.stockData.None? && s.trades == [] && s.activeIndicators == []
  {
    AppState("AAPL", "1D", None, [], true, [])
  }

  /** A historical message is accepted only with non-empty timestamps. */
  predicate Acceptable(data: Option<StockData>) {
    data.Some? && |data.value.timestamps| > 0
  }

  /** The message effect; None is a falsy `data` and changes nothing. */
  function OnMessage(s: AppState, msg: Option<WsMessage>): (r: AppState)
    ensures msg.None? ==> r == s
    ensures msg.Some? && msg.value.Historical? ==>
              !r.isLoading && r.trades == s.trades && r.activeIndicators == s.activeIndicators
              && (Acceptable(msg.value.data) ==> r.stockData == msg.value.data)
              && (!Acceptable(msg.value.data) ==> r.stockData == s.stockData)
    ensures msg.Some? && (msg.value.Trade? || msg.value.Realtime?) ==>
              r.stockData == s.stockData && r.isLoading == s.isLoading
              && r.activeIndicators == s.activeIndicators
              && |r.trades| <= TradeBufferSize && |r.trades| > 0
              && r.trades[|r.trades| - 1] == msg.value.trade
              && r.trades[..|r.trades| - 1] == Seqs.Last(TradeBufferSize - 1, s.trades)
    ensures msg.Some? && msg.value.OtherMessage? ==> r == s
    ensures r.symbol == s.symbol && r.timeframe == s.timeframe
  {
    match msg
    case None => s
    case Some(Historical(_, _, data)) =>
      if Acceptable(data) then s.(stockData := data, isLoading := false)
      else s.(isLoading := false)
    case Some(Trade(t)) => s.(trades := Seqs.Last(TradeBufferSize - 1, s.trades) + [t])
    case Some(Realtime(t)) => s.(trades := Seqs.Last(TradeBufferSize - 1, s.trades) + [t])
    case Some(OtherMessage(_)) => s
  }

  function TradesOf(msgs: seq<TradeData>): seq<Option<WsMessage>> {
    seq(|msgs|, i requires 0 <= i < |msgs| => Some(Trade(msgs[i])))
  }

  function Fold(s: AppState, msgs: seq<Option<WsMessage>>): AppState
    decreases |msgs|
  {
    if |msgs| == 0 then s else Fold(OnMessage(s, msgs[0]), msgs[1..])
  }

  /** The trade buffer after a run of trades. */
  function PushTrades(buffer: seq<TradeData>, msgs: seq<TradeData>): seq<TradeData>
    decreases |msgs|
  {
    if |msgs| == 0 then buffer
    else PushTrades(Seqs.Last(TradeBufferSize - 1, buffer) + [msgs[0]], msgs[1..])
  }

  lemma {:induction false} FoldTrades(s: AppState, msgs: seq<TradeData>)
    ensures Fold(s, TradesOf(msgs)) == s.(trades := PushTrades(s.trades, msgs))
    decreases |msgs|
  {
    if |msgs| > 0 {
      assert TradesOf(msgs)[1..] == TradesOf(msgs[1..]);
      FoldTrades(OnMessage(s, Some(Trade(msgs[0]))), msgs[1..]);
    }
  }

  lemma {:induction false} PushTradesIsSuffix(buffer: seq<TradeData>, msgs: seq<TradeData>)
    requires |buffer| <= TradeBufferSize
    ensures PushTrades(buffer, msgs) == Seqs.Last(TradeBufferSize, buffer + msgs)
    decreases |msgs|
  {
    if |msgs| == 0 {
      assert buffer + msgs == buffer;
    } else {
      var n := TradeBufferSize;
      var next := Seqs.Last(n - 1, buffer) + [msgs[0]];
      assert next == Seqs.Last(n, buffer + [msgs[0]]) by {
        Seqs.LastAppend(n - 1, buffer, msgs[0]);
      }
      calc {
        PushTrades(buffer, msgs);
        PushTrades(next, msgs[1..]);
        { PushTradesIsSuffix(next, msgs[1..]); }
        Seqs.Last(n, next + msgs[1..]);
        { LastShift(buffer + [msgs[0]], msgs[1..]); }
        Seqs.Last(n, buffer + [msgs[0]] + msgs[1..]);
        { assert buffer + [msgs[0]] + msgs[1..] == buffer + msgs; }
        Seqs.Last(n, buffer + msgs);
      }
    }
  }

  /** After any run of trade messages, the buffer holds the last 100 trades
      of everything seen, newest last, and the chart data is untouched. */
  lemma TradeBufferIsSuffix(s: AppState, msgs: seq<TradeData>)
    requires |s.trades| <= TradeBufferSize
    ensures Fold(s, TradesOf(msgs)).trades == Seqs.Last(TradeBufferSize, s.trades + msgs)
    ensures Fold(s, TradesOf(msgs)).stockData == s.stockData
  {
    FoldTrades(s, msgs);
    PushTradesIsSuffix(s.trades, msgs);
  }

  /** Trimming before appending more does not change the final suffix. */
  lemma LastShift(a: seq<TradeData>, b: seq<TradeData>)
    ensures Seqs.Last(TradeBufferSize, Seqs.Last(TradeBufferSize, a) + b) == Seqs.Last(TradeBufferSize, a + b)
  {
    var n := TradeBufferSize;
    var la := Seqs.Last(n, a);
    var lhs := Seqs.Last(n, la + b);
    var rhs := Seqs.Last(n, a + b);
    assert |lhs| == |rhs|;
    forall i | 0 <= i < |lhs|
      ensures lhs[i] == rhs[i]
    {
      var k := |la + b| - |lhs| + i;
      var m := |a + b| - |rhs| + i;
      if k < |la| {
        assert m < |a|;
        assert lhs[i] == la[k] == a[|a| - |la| + k];
      }
    }
  }

  /** The symbol/timeframe effect: a new symbol or timeframe shows the
      loader and drops the data and trades; the indicators stay. */
  function ChangeSelection(s: AppState, symbol: string, timeframe: string): (r: AppState)
    ensures r.symbol == symbol && r.timeframe == timeframe
    ensures r.activeIndicators == s.activeIndicators
    ensures (symbol != s.symbol || timeframe != s.timeframe) ==>
              r.isLoading && r.stockData.None? && r.trades == []
    ensures symbol == s.symbol && timeframe == s.timeframe ==> r == s
  {
    if symbol != s.symbol || timeframe != s.timeframe then
      s.(symbol := symbol, timeframe := timeframe, isLoading := true, stockData := None, trades := [])
    else s
  }

  /** After a new selection, the first historical message ends loading and
      shows its data when it has timestamps; no old data or trade leaks
      through. */
  lemma ReloadThenHistorical(s: AppState, symbol: string, timeframe: string, msg: WsMessage)
    requires symbol != s.symbol || timeframe != s.timeframe
    requires msg.Historical?
    ensures var r := OnMessage(ChangeSelection(s, symbol, timeframe), Some(msg));
            !r.isLoading && r.trades == [] && r.activeIndicators == s.activeIndicators
            && r.symbol == symbol && r.timeframe == timeframe
            && (Acceptable(msg.data) ==> r.stockData == msg.data)
            && (!Acceptable(msg.data) ==> r.stockData.None?)
  {
  }

  /** `handleIndicatorToggle(indicator, enabled, data)`; `values` is the
      fetched `data.values`, None when no data came back. */
  function HandleIndicatorToggle(s: AppState, indicator: string, enabled: bool,
                                 values: Option<seq<Option<real>>>): (r: AppState)
    ensures enabled ==> r.activeIndicators == s.activeIndicators + [indicator]
    ensures !enabled ==> r.activeIndicators == Seqs.Without(s.activeIndicators, indicator)
    ensures enabled && values.Some? && s.stockData.Some? ==>
              r.stockData == Some(s.stockData.value.(indicators := s.stockData.value.indicators[indicator := values.value]))
    ensures !(enabled && values.Some? && s.stockData.Some?) ==> r.stockData == s.stockData
    ensures r.trades == s.trades && r.isLoading == s.isLoading
    ensures r.symbol == s.symbol && r.timeframe == s.timeframe
  {
    if enabled then
      var active := s.activeIndicators + [indicator];
      if values.Some? && s.stockData.Some? then
        s.(activeIndicators := active,
           stockData := Some(s.stockData.value.(indicators := s.stockData.value.indicators[indicator := values.value])))
      else s.(activeIndicators := active)
    else s.(activeIndicators := Seqs.Without(s.activeIndicators, indicator))
  }

  /** Enabling does not check for duplicates: enabling twice lists the
      indicator twice, and one disable removes both. */
  lemma EnableTwiceDisableOnce(s: AppState, indicator: string)
    requires indicator !in s.activeIndicators
    ensures var twice := HandleIndicatorToggle(HandleIndicatorToggle(s, indicator, true, None), indicator, true, None);
            twice.activeIndicators == s.activeIndicators + [indicator, indicator]
            && HandleIndicatorToggle(twice, indicator, false, None).activeIndicators == s.activeIndicators
  {
    var twice := HandleIndicatorToggle(HandleIndicatorToggle(s, indicator, true, None), indicator, true, None);
    assert twice.activeIndicators == s.activeIndicators + [indicator, indicator];
    Seqs.WithoutAppend(s.activeIndicators, [indicator, indicator], indicator);
    Seqs.WithoutAbsent(s.activeIndicators, indicator);
    assert [indicator, indicator][1..] == [indicator];
  }
}

=== FILE: frontend_chart.dfy ===
/** Row construction in frontend/src/components/StockChart.tsx: candle and
    volume rows from the columns, the indicator lines rebuilt from the
    active list, and the bar pushed for the latest trade.  Reading past the
    end of a column gives JavaScript's undefined. */
module FrontendChart {
  import opened Wrappers
  import Seqs
  import opened FrontendTypes

  /** A value read from a number column: None is undefined. */
  function At(column: seq<real>, i: nat): (r: Option<real>)
    ensures i < |column| ==> r == Some(column[i])
    ensures i >= |column| ==> r.None?
  {
    if i < |column| then Some(column[i]) else None
  }

  datatype CandleRow = CandleRow(time: int, open: Option<real>, high: Option<real>,
                                 low: Option<real>, close: Option<real>)

  datatype VolumeRow = VolumeRow(time: int, value: Option<real>, up: bool)

  /** One candle row per timestamp, in order. */
  function CandleRows(d: StockData): (r: seq<CandleRow>)
    ensures |r| == |d.timestamps|
    ensures forall i :: 0 <= i < |r| ==>
              r[i] == CandleRow(d.timestamps[i], At(d.open, i), At(d.high, i), At(d.low, i), At(d.close, i))
  {
    seq(|d.timestamps|, i requires 0 <= i < |d.timestamps| =>
      CandleRow(d.timestamps[i], At(d.open, i), At(d.high, i), At(d.low, i), At(d.close, i)))
  }

  /** `close >= open` in JavaScript: false when either side is undefined. */
  function UpBar(close: Option<real>, open: Option<real>): (up: bool)
    ensures up <==> close.Some? && open.Some? && close.value >= open.value
  {
    match (close, open)
    case (Some(c), Some(o)) => c >= o
    case _ => false
  }

  /** One volume row per timestamp; the up colour exactly when the close
      is at least the open. */
  function VolumeRows(d: StockData): (r: seq<VolumeRow>)
    ensures |r| == |d.timestamps|
    ensures forall i :: 0 <= i < |r| ==> r[i].time == d.timestamps[i] && r[i].value == At(d.volume, i)
    ensures forall i :: 0 <= i < |r| && i < |d.open| && i < |d.close| ==>
              (r[i].up <==> d.close[i] >= d.open[i])
    ensures forall i :: 0 <= i < |r| && (i >= |d.open| || i >= |d.close|) ==> !r[i].up
  {
    seq(|d.timestamps|, i requires 0 <= i < |d.timestamps| =>
      VolumeRow(d.timestamps[i], At(d.volume, i), UpBar(At(d.close, i), At(d.open, i))))
  }

  /** Volume bar i sits at candle i's time and is coloured up exactly when
      candle i is up. */
  lemma CandleVolumeInSync(d: StockData)
    ensures |VolumeRows(d)| == |CandleRows(d)|
    ensures forall i :: 0 <= i < |CandleRows(d)| ==>
              VolumeRows(d)[i].time == CandleRows(d)[i].time
              && VolumeRows(d)[i].up == UpBar(CandleRows(d)[i].close, CandleRows(d)[i].open)
  {
  }

  /** A value read from an indicator column. */
  datatype Cell = Undefined | Null | Num(x: real)

  function CellAt(column: seq<Option<real>>, i: nat): (c: Cell)
    ensures i >= |column| ==> c == Undefined
    ensures i < |column| ==> (c == Null <==> column[i].None?)
    ensures i < |column| && column[i].Some? ==> c == Num(column[i].value)
  {
    if i >= |column| then Undefined
    else match column[i] case None => Null case Some(x) => Num(x)
  }

  datatype Point = Point(time: int, value: Cell)

  /** The `!== null` filter: undefined values survive it. */
  function NotNull(p: Point): Option<Point> {
    if p.value == Null then None else Some(p)
  }

  function Paired(timestamps: seq<int>, column: seq<Option<real>>): (r: seq<Point>)
    ensures |r| == |timestamps|
    ensures forall i :: 0 <= i < |r| ==> r[i] == Point(timestamps[i], CellAt(column, i))
  {
    seq(|timestamps|, i requires 0 <= i < |timestamps| => Point(timestamps[i], CellAt(column, i)))
  }

  /** The points of one indicator line: value i paired with timestamp i,
      nulls dropped, order kept. */
  function IndicatorPoints(timestamps: seq<int>, column: seq<Option<real>>): seq<Point> {
    Seqs.Choose(Paired(timestamps, column), NotNull)
  }

  /** A point is drawn exactly when some timestamp's value is not null. */
  lemma IndicatorPointsExact(timestamps: seq<int>, column: seq<Option<real>>, p: Point)
    ensures p in IndicatorPoints(timestamps, column) <==>
              exists i :: 0 <= i < |timestamps| && p == Point(timestamps[i], CellAt(column, i))
                          && CellAt(column, i) != Null
  {
    Seqs.ChooseMembership(Paired(timestamps, column), NotNull, p);
  }

  /** No null is ever drawn. */
  lemma {:induction false} NoNullPoints(points: seq<Point>)
    ensures forall i :: 0 <= i < |Seqs.Choose(points, NotNull)| ==> Seqs.Choose(points, NotNull)[i].value != Null
    decreases |points|
  {
    if |points| > 0 {
      NoNullPoints(points[1..]);
    }
  }

  /** The lines the chart knows about. */
  const ChartIndicators: seq<string> := ["sma_20", "sma_50", "ema_12", "rsi"]

  type Series = map<string, seq<Point>>

  /** The line series after the data/indicator effect.  With no data the
      effect returns early and the old series stay; otherwise every old
      series is removed and a line is built for each known indicator whose
      column exists and which is active. */
  function RebuildSeries(previous: Series, data: Option<StockData>, active: seq<string>): (r: Series)
    ensures data.None? ==> r == previous
    ensures data.Some? ==>
              forall id :: id in r <==>
                id in ChartIndicators && id in data.value.indicators && id in active
    ensures data.Some? ==>
              forall id :: id in r ==>
                r[id] == IndicatorPoints(data.value.timestamps, data.value.indicators[id])
  {
    match data
    case None => previous
    case Some(d) =>
      map id | id in ChartIndicators && id in d.indicators && id in active ::
        IndicatorPoints(d.timestamps, d.indicators[id])
  }

  /** Nothing from the old series survives a rebuild. */
  lemma RebuildForgetsPrevious(p1: Series, p2: Series, data: StockData, active: seq<string>)
    ensures RebuildSeries(p1, Some(data), active) == RebuildSeries(p2, Some(data), active)
  {
  }

  datatype Bar = Bar(time: int, open: real, high: real, low: real, close: real)

  /** The trades effect: no update for an empty list; otherwise a flat bar
      at the last trade's price, stamped in whole seconds. */
  function LiveBar(trades: seq<TradeData>): (r: Option<Bar>)
    ensures trades == [] <==> r.None?
    ensures r.Some? ==>
              var t := trades[|trades| - 1];
              r.value.time * 1000 <= t.timestamp < r.value.time * 1000 + 1000
              && r.value.open == t.price && r.value.high == t.price
              && r.value.low == t.price && r.value.close == t.price
  {
    if |trades| == 0 then None
    else
      var t := trades[|trades| - 1];
      Some(Bar(t.timestamp / 1000, t.price, t.price, t.price, t.price))
  }

  /** Only the newest trade matters: earlier ones do not change the bar. */
  lemma LiveBarUsesLastTrade(earlier: seq<TradeData>, last: TradeData)
    ensures LiveBar(earlier + [last]) == LiveBar([last])
  {
  }
}

=== FILE: frontend_types.dfy ===
/** The records shared by the TypeScript frontend (frontend/src/types/index.ts):
    the historical columns with their optional indicator columns, and the
    trade and websocket messages.  An indicator column maps an indicator id
    such as "sma_20" to its values, None standing for JSON null. */
module FrontendTypes {
  import opened Wrappers

  datatype StockData = StockData(timestamps: seq<int>, open: seq<real>, high: seq<real>, low: seq<real>,
                                 close: seq<real>, volume: seq<real>,
                                 indicators: map<string, seq<Option<real>>>)

  /** A trade tick; the timestamp is in milliseconds. */
  datatype TradeData = TradeData(symbol: string, price: real, volume: real, timestamp: int)

  /** A websocket message.  A historical message whose `data` (or its
      timestamps) is missing carries None. */
  datatype WsMessage =
    | Historical(symbol: string, timeframe: string, data: Option<StockData>)
    | Trade(trade: TradeData)
    | Realtime(trade: TradeData)
    | OtherMessage(kind: string)
}

=== FILE: indicator_dropdown.dfy ===
/** The selection list of client/src/IndicatorDropdown.jsx: `handleToggle`,
    which removes a selected id (every copy of it) or appends an
    unselected one at the end. */
module IndicatorDropdown {
  import Seqs

  function ListToggle(selected: seq<string>, id: string): (r: seq<string>)
    ensures id in selected <==> id !in r
    ensures id in selected ==> |r| < |selected|
    ensures id !in selected ==> r == selected + [id]
    ensures Seqs.Without(r, id) == Seqs.Without(selected, id)
  {
    if id in selected then
      Seqs.WithoutShrinks(selected, id);
      Seqs.WithoutAbsent(Seqs.Without(selected, id), id);
      Seqs.Without(selected, id)
    else
      Seqs.WithoutAppend(selected, [id], id);
      Seqs.WithoutAbsent(selected, id);
      assert Seqs.Without([id], id) == [];
      selected + [id]
  }

  /** Toggling an unselected id twice gives the list back. */
  lemma ToggleTwice(selected: seq<string>, id: string)
    requires id !in selected
    ensures ListToggle(ListToggle(selected, id), id) == selected
  {
    var once := selected + [id];
    assert id in once;
    Seqs.WithoutAppend(selected, [id], id);
    Seqs.WithoutAbsent(selected, id);
    assert Seqs.Without([id], id) == [];
  }

  /** Toggling one id leaves every other id's membership alone. */
  lemma ToggleMembership(selected: seq<string>, id: string, other: string)
    requires other != id
    ensures other in ListToggle(selected, id) <==> other in selected
  {
  }
}

=== FILE: indicators.dfy ===
/** The list-based indicators of server/indicators.py over exact reals
    (Python's `round` is not modelled).  Python's exceptions are results:
    a zero period divides by zero and an empty price list has no
    `prices[0]`.  Periods are natural numbers. */
module Indicators {
  import opened Wrappers

  datatype PyError = ZeroDivisionError | IndexError

  function Max(a: real, b: real): real { if a >= b then a else b }
  function Min(a: real, b: real): real { if a <= b then a else b }

  /** Python's `sum`, adding from the left. */
  function Sum(s: seq<real>): real
    decreases |s|
  {
    if |s| == 0 then 0.0 else Sum(s[..|s| - 1]) + s[|s| - 1]
  }

  function MinOf(s: seq<real>): real
    requires |s| > 0
    decreases |s|
  {
    if |s| == 1 then s[0] else Min(MinOf(s[..|s| - 1]), s[|s| - 1])
  }

  function MaxOf(s: seq<real>): real
    requires |s| > 0
    decreases |s|
  {
    if |s| == 1 then s[0] else Max(MaxOf(s[..|s| - 1]), s[|s| - 1])
  }

  function Mean(w: seq<real>): real
    requires |w| > 0
  {
    Sum(w) / |w| as real
  }

  lemma MulNonNegative(a: real, b: real)
    requires a >= 0.0 && b >= 0.0
    ensures a * b >= 0.0
  {
  }

  lemma DivNonNegative(a: real, b: real)
    requires a >= 0.0 && b > 0.0
    ensures a / b >= 0.0
  {
  }

  /** x >= c * n and x <= d * n bound x / n by c and d. */
  lemma DivBetween(x: real, c: real, d: real, n: real)
    requires n > 0.0 && c * n <= x <= d * n
    ensures c <= x / n <= d
  {
    assert x / n - c == (x - c * n) / n;
    DivNonNegative(x - c * n, n);
    assert d - x / n == (d * n - x) / n;
    DivNonNegative(d * n - x, n);
  }

  lemma {:induction false} MinOfIsLower(s: seq<real>)
    requires |s| > 0
    ensures forall i :: 0 <= i < |s| ==> MinOf(s) <= s[i] <= MaxOf(s)
    decreases |s|
  {
    if |s| > 1 {
      MinOfIsLower(s[..|s| - 1]);
      assert forall i :: 0 <= i < |s| - 1 ==> s[..|s| - 1][i] == s[i];
    }
  }

  lemma {:induction false} SumBetween(w: seq<real>, c: real, d: real)
    requires forall i :: 0 <= i < |w| ==> c <= w[i] <= d
    ensures c * |w| as real <= Sum(w) <= d * |w| as real
    decreases |w|
  {
    if |w| > 0 {
      var init := w[..|w| - 1];
      assert forall i :: 0 <= i < |init| ==> init[i] == w[i];
      SumBetween(init, c, d);
      assert c * |w| as real == c * |init| as real + c;
      assert d * |w| as real == d * |init| as real + d;
    }
  }

  /** A mean of values within [lo, hi] lies within [lo, hi]. */
  lemma MeanBetween(w: seq<real>, lo: real, hi: real)
    requires |w| > 0
    requires forall i :: 0 <= i < |w| ==> lo <= w[i] <= hi
    ensures lo <= Mean(w) <= hi
  {
    SumBetween(w, lo, hi);
    DivBetween(Sum(w), lo, hi, |w| as real);
  }

  /** A window mean lies between the window's smallest and largest price. */
  lemma MeanBounds(w: seq<real>)
    requires |w| > 0
    ensures MinOf(w) <= Mean(w) <= MaxOf(w)
  {
    MinOfIsLower(w);
    MeanBetween(w, MinOf(w), MaxOf(w));
  }

  lemma {:induction false} SumNonNegative(s: seq<real>)
    requires forall i :: 0 <= i < |s| ==> s[i] >= 0.0
    ensures Sum(s) >= 0.0
    decreases |s|
  {
    if |s| > 0 {
      SumNonNegative(s[..|s| - 1]);
    }
  }

  /** `calculate_sma(prices, period)`: no values for a short list; otherwise
      value j is the mean of prices[j .. j + period - 1]. */
  method Sma(prices: seq<real>, period: nat) returns (r: Result<seq<real>, PyError>)
    ensures |prices| < period ==> r == Success([])
    ensures period == 0 ==> r == Failure(ZeroDivisionError)
    ensures 1 <= period <= |prices| ==>
              r.Success? && |r.value| == |prices| - period + 1
              && (forall j :: 0 <= j < |r.value| ==> r.value[j] == Mean(prices[j..j + period]))
              && (forall j :: 0 <= j < |r.value| ==>
                    MinOf(prices[j..j + period]) <= r.value[j] <= MaxOf(prices[j..j + period]))
  {
    if |prices| < period {
      return Success([]);
    }
    if period == 0 {
      return Failure(ZeroDivisionError);
    }
    var out: seq<real> := [];
    var i := period - 1;
    while i < |prices|
      invariant period - 1 <= i <= |prices|
      invariant |out| == i - (period - 1)
      invariant forall j :: 0 <= j < |out| ==> out[j] == Mean(prices[j..j + period])
      invariant forall j :: 0 <= j < |out| ==>
                  MinOf(prices[j..j + period]) <= out[j] <= MaxOf(prices[j..j + period])
    {
      var window := prices[i - period + 1..i + 1];
      MeanBounds(window);
      out := out + [Sum(window) / period as real];
      i := i + 1;
    }
    return Success(out);
  }

  /** The EMA weight 2 / (period + 1). */
  function Multiplier(period: nat): (m: real)
    ensures 0.0 < m <= 2.0
    ensures period >= 1 ==> m <= 1.0
  {
    2.0 / (period + 1) as real
  }

  /** The recurrence step m * price + (1 - m) * previous. */
  function EmaStep(price: real, previous: real, m: real): real {
    price * m + previous * (1.0 - m)
  }

  /** The values after `previous` for the remaining prices. */
  function EmaFrom(previous: real, rest: seq<real>, m: real): (r: seq<real>)
    ensures |r| == |rest|
    ensures |r| > 0 ==> r[0] == EmaStep(rest[0], previous, m)
    ensures forall i :: 1 <= i < |r| ==> r[i] == EmaStep(rest[i], r[i - 1], m)
    decreases |rest|
  {
    if |rest| == 0 then []
    else
      var v := EmaStep(rest[0], previous, m);
      [v] + EmaFrom(v, rest[1..], m)
  }

  /** The full EMA list of a non-empty price list. */
  function EmaValues(prices: seq<real>, period: nat): (r: seq<real>)
    requires |prices| > 0
    ensures |r| == |prices| && r[0] == prices[0]
    ensures forall i :: 1 <= i < |r| ==> r[i] == EmaStep(prices[i], r[i - 1], Multiplier(period))
  {
    [prices[0]] + EmaFrom(prices[0], prices[1..], Multiplier(period))
  }

  /** `calculate_ema(prices, period)`: no values for a short list; otherwise
      one value per price, starting at prices[0]. */
  function Ema(prices: seq<real>, period: nat): (r: Result<seq<real>, PyError>)
    ensures |prices| < period ==> r == Success([])
    ensures |prices| >= period && |prices| == 0 ==> r == Failure(IndexError)
    ensures |prices| >= period && |prices| > 0 ==>
              r.Success? && |r.value| == |prices| && r.value[0] == prices[0]
    ensures r.Success? && |r.value| > 0 ==>
              forall i :: 1 <= i < |r.value| ==>
                r.value[i] == EmaStep(prices[i], r.value[i - 1], Multiplier(period))
    ensures |prices| >= period && |prices| > 0 ==> r == Success(EmaValues(prices, period))
  {
    if |prices| < period then Success([])
    else if |prices| == 0 then Failure(IndexError)
    else Success(EmaValues(prices, period))
  }

  lemma ConvexBetween(a: real, b: real, m: real, lo: real, hi: real)
    requires lo <= a <= hi && lo <= b <= hi && 0.0 <= m <= 1.0
    ensures lo <= EmaStep(a, b, m) <= hi
  {
    assert EmaStep(a, b, m) - lo == m * (a - lo) + (1.0 - m) * (b - lo);
    assert hi - EmaStep(a, b, m) == m * (hi - a) + (1.0 - m) * (hi - b);
    MulNonNegative(m, a - lo);
    MulNonNegative(1.0 - m, b - lo);
    MulNonNegative(m, hi - a);
    MulNonNegative(1.0 - m, hi - b);
  }

  /** Extending a prefix by one price can only widen its range. */
  lemma PrefixBounds(prices: seq<real>, i: nat)
    requires 0 < i < |prices|
    ensures MinOf(prices[..i + 1]) <= MinOf(prices[..i]) && MinOf(prices[..i + 1]) <= prices[i]
    ensures MaxOf(prices[..i + 1]) >= MaxOf(prices[..i]) && MaxOf(prices[..i + 1]) >= prices[i]
  {
    var pre := prices[..i + 1];
    assert pre[..|pre| - 1] == prices[..i];
  }

  /** Every EMA value lies between the smallest and the largest price seen
      so far (each step is a convex combination when period >= 1). */
  lemma EmaWithinRange(prices: seq<real>, period: nat)
    requires |prices| > 0 && period >= 1
    ensures var r := EmaValues(prices, period);
            forall i :: 0 <= i < |r| ==> MinOf(prices[..i + 1]) <= r[i] <= MaxOf(prices[..i + 1])
  {
    var r := EmaValues(prices, period);
    var m := Multiplier(period);
    var i := 1;
    assert prices[..1] == [prices[0]];
    while i < |r|
      invariant 1 <= i <= |r|
      invariant forall k :: 0 <= k < i ==> MinOf(prices[..k + 1]) <= r[k] <= MaxOf(prices[..k + 1])
    {
      PrefixBounds(prices, i);
      ConvexBetween(prices[i], r[i - 1], m, MinOf(prices[..i + 1]), MaxOf(prices[..i + 1]));
      i := i + 1;
    }
  }

  predicate AllNonNegative(s: seq<real>) {
    forall i :: 0 <= i < |s| ==> s[i] >= 0.0
  }

  /** Per-step gains and losses: the positive and negative parts of each
      price change. */
  function Gains(prices: seq<real>): (g: seq<real>)
    requires |prices| > 0
    ensures |g| == |prices| - 1
    ensures AllNonNegative(g)
  {
    seq(|prices| - 1, k requires 0 <= k < |prices| - 1 => Max(prices[k + 1] - prices[k], 0.0))
  }

  function Losses(prices: seq<real>): (l: seq<real>)
    requires |prices| > 0
    ensures |l| == |prices| - 1
    ensures AllNonNegative(l)
  {
    seq(|prices| - 1, k requires 0 <= k < |prices| - 1 => Max(-(prices[k + 1] - prices[k]), 0.0))
  }

  /** Gain and loss of one step are non-negative, at most one is non-zero,
      and together they recover the change. */
  lemma GainLossSplit(prices: seq<real>, k: nat)
    requires k + 1 < |prices|
    ensures Gains(prices)[k] >= 0.0 && Losses(prices)[k] >= 0.0
    ensures Gains(prices)[k] == 0.0 || Losses(prices)[k] == 0.0
    ensures Gains(prices)[k] - Losses(prices)[k] == prices[k + 1] - prices[k]
  {
  }

  /** 0 < 100 / (1 + rs) <= 100 for rs >= 0. */
  lemma RsiQuotient(rs: real)
    requires rs >= 0.0
    ensures 0.0 < 100.0 / (1.0 + rs) <= 100.0
  {
    var q := 100.0 / (1.0 + rs);
    assert q * (1.0 + rs) == 100.0;
    DivNonNegative(100.0, 1.0 + rs);
    assert q != 0.0;
    MulNonNegative(q, rs);
    assert q == 100.0 - q * rs;
  }

  /** RSI of one window: 100 when there is no loss, else 100 - 100 / (1 + rs).
      Over non-negative gains and losses the value lies in [0, 100], and is
      100 exactly in the no-loss case. */
  function RsiValue(gains: seq<real>, losses: seq<real>, period: nat): (v: real)
    requires period >= 1 && AllNonNegative(gains) && AllNonNegative(losses)
    ensures Sum(losses) == 0.0 ==> v == 100.0
    ensures Sum(losses) != 0.0 ==> 0.0 <= v < 100.0
  {
    var p := period as real;
    var avgGain := Sum(gains) / p;
    var avgLoss := Sum(losses) / p;
    SumNonNegative(gains);
    SumNonNegative(losses);
    DivNonNegative(Sum(gains), p);
    DivNonNegative(Sum(losses), p);
    if avgLoss == 0.0 then
      assert Sum(losses) == avgLoss * p;
      100.0
    else
      DivNonNegative(avgGain, avgLoss);
      RsiQuotient(avgGain / avgLoss);
      100.0 - 100.0 / (1.0 + avgGain / avgLoss)
  }

  lemma SliceNonNegative(s: seq<real>, lo: nat, hi: nat)
    requires AllNonNegative(s) && lo <= hi <= |s|
    ensures AllNonNegative(s[lo..hi])
  {
    assert forall k :: 0 <= k < hi - lo ==> s[lo..hi][k] == s[lo + k];
  }

  /** The RSI of the window of `period` changes starting at change j. */
  function RsiAt(g: seq<real>, l: seq<real>, period: nat, j: nat): real
    requires period >= 1 && AllNonNegative(g) && AllNonNegative(l)
    requires j + period <= |g| && j + period <= |l|
  {
    SliceNonNegative(g, j, j + period);
    SliceNonNegative(l, j, j + period);
    RsiValue(g[j..j + period], l[j..j + period], period)
  }

  /** `calculate_rsi(prices, period)`: no values unless there are more than
      `period` prices; otherwise one value per window of `period` changes. */
  function Rsi(prices: seq<real>, period: nat): (r: Result<seq<real>, PyError>)
    ensures |prices| < period + 1 ==> r == Success([])
    ensures |prices| >= period + 1 && period == 0 ==> r == Failure(ZeroDivisionError)
    ensures |prices| >= period + 1 && period >= 1 ==> r.Success? && |r.value| == |prices| - period
    // value j is 100 exactly when its window has no loss, and lies in [0, 100]
    ensures |prices| >= period + 1 && period >= 1 ==>
              forall j :: 0 <= j < |r.value| ==>
                0.0 <= r.value[j] <= 100.0
                && (r.value[j] == 100.0 <==> Sum(Losses(prices)[j..j + period]) == 0.0)
  {
    if |prices| < period + 1 then Success([])
    else if period == 0 then Failure(ZeroDivisionError)
    else
      var g := Gains(prices);
      var l := Losses(prices);
      Success(seq(|prices| - period, j requires 0 <= j < |prices| - period => RsiAt(g, l, period, j)))
  }

  datatype MacdLines = MacdLines(macd: seq<real>, signal: seq<real>, histogram: seq<real>)

  const NoLines := MacdLines([], [], [])

  /** Python list indexing: negative indices count from the end, anything
      else out of range raises IndexError. */
  function PyIndex(s: seq<real>, k: int): (r: Result<real, PyError>)
    ensures 0 <= k < |s| ==> r == Success(s[k])
    ensures -|s| <= k < 0 ==> r == Success(s[|s| + k])
    ensures (k >= |s| || k < -|s|) ==> r == Failure(IndexError)
  {
    if 0 <= k < |s| then Success(s[k])
    else if -|s| <= k < 0 then Success(s[|s| + k])
    else Failure(IndexError)
  }

  /** The read `a[j + offset]` made at loop index j. */
  function ShiftedRead(a: seq<real>, offset: int, j: int): Result<real, PyError> {
    PyIndex(a, j + offset)
  }

  /** The loop `for i in range(len(b)): a[i + offset] - b[i]` from index i on. */
  function DiffFrom(a: seq<real>, b: seq<real>, offset: int, i: nat): (r: Result<seq<real>, PyError>)
    requires i <= |b|
    ensures r.Success? <==> forall j :: i <= j < |b| ==> ShiftedRead(a, offset, j).Success?
    ensures r.Failure? ==> r.error == IndexError
    ensures r.Success? ==> |r.value| == |b| - i
    ensures r.Success? ==>
              forall j :: i <= j < |b| ==>
                ShiftedRead(a, offset, j).Success? && r.value[j - i] == ShiftedRead(a, offset, j).value - b[j]
    decreases |b| - i
  {
    if i == |b| then Success([])
    else
      match ShiftedRead(a, offset, i)
      case Failure(e) => Failure(e)
      case Success(v) =>
        match DiffFrom(a, b, offset, i + 1)
        case Failure(e) => Failure(e)
        case Success(rest) => Success([v - b[i]] + rest)
  }

  /** If some index the loop will reach is past the end, the loop raises. */
  lemma {:induction false} DiffFromFails(a: seq<real>, b: seq<real>, offset: int, i: nat, bad: nat)
    requires i <= bad < |b| && bad + offset >= |a|
    ensures DiffFrom(a, b, offset, i) == Failure(IndexError)
    decreases |b| - i
  {
    if i < bad {
      DiffFromFails(a, b, offset, i + 1, bad);
    }
  }

  /** `calculate_macd(prices, fast, slow, signal)` as written: the MACD line
      reads `ema_fast[i + (slow - fast)]` for every index of `ema_slow`. */
  function MacdAsWritten(prices: seq<real>, fast: nat, slow: nat, signalPeriod: nat): (r: Result<MacdLines, PyError>)
    ensures |prices| < slow ==> r == Success(NoLines)
  {
    if |prices| < slow then Success(NoLines)
    else
      var emaFast :- Ema(prices, fast);
      var emaSlow :- Ema(prices, slow);
      var macd :- DiffFrom(emaFast, emaSlow, slow - fast, 0);
      var signal :- Ema(macd, signalPeriod);
      var histogram :- DiffFrom(macd, signal, |macd| - |signal|, 0);
      Success(MacdLines(macd, signal, histogram))
  }

  /** With the default periods (12, 26, 9) the routine never yields lines:
      any list long enough to pass the length check makes the loop read
      `ema_fast[len(prices)]`, because `calculate_ema` returns a value for
      every price rather than `len - period + 1` of them. */
  lemma MacdAsWrittenNeverProducesLines(prices: seq<real>)
    ensures |prices| < 26 ==> MacdAsWritten(prices, 12, 26, 9) == Success(NoLines)
    ensures |prices| >= 26 ==> MacdAsWritten(prices, 12, 26, 9) == Failure(IndexError)
  {
    if |prices| >= 26 {
      var emaFast := Ema(prices, 12).value;
      var emaSlow := Ema(prices, 26).value;
      DiffFromFails(emaFast, emaSlow, 14, 0, |prices| - 14);
    }
  }

  /** A concrete witness: 26 equal prices already raise IndexError. */
  lemma MacdAsWrittenCounterexample()
    ensures MacdAsWritten(seq(26, _ => 1.0), 12, 26, 9) == Failure(IndexError)
  {
    MacdAsWrittenNeverProducesLines(seq(26, _ => 1.0));
  }

  /** MACD with both EMAs read at the same index, which is what the offset
      was meant to achieve: `calculate_ema` already returns one value per
      price, so index i of each list belongs to price i. */
  function MacdCorrected(prices: seq<real>, fast: nat, slow: nat, signalPeriod: nat): (r: MacdLines)
    ensures |prices| < slow || |prices| < fast || |prices| == 0 ==> r == NoLines
    ensures |prices| >= slow && |prices| >= fast && |prices| > 0 ==>
              |r.macd| == |prices|
              && (forall i :: 0 <= i < |prices| ==>
                    r.macd[i] == EmaValues(prices, fast)[i] - EmaValues(prices, slow)[i])
    ensures r.macd != [] && |r.macd| < signalPeriod ==> r.signal == []
    ensures r.macd != [] && |r.macd| >= signalPeriod ==> r.signal == EmaValues(r.macd, signalPeriod)
    ensures r.signal == [] || |r.signal| == |r.macd|
    ensures |r.histogram| == |r.signal|
    ensures forall i :: 0 <= i < |r.histogram| ==> r.histogram[i] == r.macd[i] - r.signal[i]
  {
    if |prices| < slow || |prices| < fast || |prices| == 0 then NoLines
    else
      var emaFast := EmaValues(prices, fast);
      var emaSlow := EmaValues(prices, slow);
      var macd := seq(|prices|, i requires 0 <= i < |prices| => emaFast[i] - emaSlow[i]);
      var signal := if |macd| < signalPeriod then [] else EmaValues(macd, signalPeriod);
      var histogram := seq(|signal|, i requires 0 <= i < |signal| => macd[i] - signal[i]);
      MacdLines(macd, signal, histogram)
  }

  /** The corrected routine yields full-length lines for the default periods
      whenever the length check passes. */
  lemma MacdCorrectedDefaults(prices: seq<real>)
    requires |prices| >= 26
    ensures var r := MacdCorrected(prices, 12, 26, 9);
            |r.macd| == |prices| && |r.signal| == |prices| && |r.histogram| == |prices|
  {
  }
}

=== FILE: seqs.dfy ===
/** Sequence helpers shared by the model: order-preserving selection,
    removal of every occurrence of a value, and keeping a bounded suffix. */
module Seqs {
  import opened Wrappers

  /** Keeps, in order, the images of the elements that `f` maps to Some
      (JavaScript's `map(...).filter(...)` and Python's filtering loops). */
  function Choose<T, U>(s: seq<T>, f: T -> Option<U>): (r: seq<U>)
    ensures |r| <= |s|
  {
    if |s| == 0 then []
    else
      (match f(s[0]) case Some(u) => [u] case None => []) + Choose(s[1..], f)
  }

  /** When `f` keeps every element, choosing is a plain map. */
  lemma {:induction false} ChooseAll<T, U>(s: seq<T>, f: T -> Option<U>)
    requires forall i :: 0 <= i < |s| ==> f(s[i]).Some?
    ensures |Choose(s, f)| == |s|
    ensures forall i :: 0 <= i < |s| ==> Choose(s, f)[i] == f(s[i]).value
    decreases |s|
  {
    if |s| > 0 {
      ChooseAll(s[1..], f);
    }
  }

  /** An element is kept exactly when some input element is mapped to it. */
  lemma {:induction false} ChooseMembership<T, U>(s: seq<T>, f: T -> Option<U>, u: U)
    ensures u in Choose(s, f) <==> exists i :: 0 <= i < |s| && f(s[i]) == Some(u)
    decreases |s|
  {
    if |s| > 0 {
      ChooseMembership(s[1..], f, u);
      if u in Choose(s[1..], f) {
        var i :| 0 <= i < |s[1..]| && f(s[1..][i]) == Some(u);
        assert f(s[i + 1]) == Some(u);
      }
      if exists i :: 0 <= i < |s| && f(s[i]) == Some(u) {
        var i :| 0 <= i < |s| && f(s[i]) == Some(u);
        if i > 0 {
          assert f(s[1..][i - 1]) == Some(u);
        }
      }
    }
  }

  /** `s` with every occurrence of `x` removed (`filter(v => v !== x)`). */
  function Without<T(==)>(s: seq<T>, x: T): (r: seq<T>)
    ensures |r| <= |s|
    ensures x !in r
    ensures forall i :: 0 <= i < |r| ==> r[i] in s && r[i] != x
    ensures forall i :: 0 <= i < |s| && s[i] != x ==> s[i] in r
  {
    if |s| == 0 then []
    else if s[0] == x then Without(s[1..], x)
    else [s[0]] + Without(s[1..], x)
  }

  /** Removal is compositional, so the remaining elements keep their order. */
  lemma {:induction false} WithoutAppend<T>(a: seq<T>, b: seq<T>, x: T)
    ensures Without(a + b, x) == Without(a, x) + Without(b, x)
    decreases |a|
  {
    if |a| == 0 {
      assert a + b == b;
    } else {
      assert (a + b)[0] == a[0];
      assert (a + b)[1..] == a[1..] + b;
      WithoutAppend(a[1..], b, x);
    }
  }

  lemma WithoutAbsent<T>(s: seq<T>, x: T)
    requires x !in s
    ensures Without(s, x) == s
    decreases |s|
  {
    if |s| > 0 {
      WithoutAbsent(s[1..], x);
      assert s == [s[0]] + s[1..];
    }
  }

  /** Removing an element that occurs makes the sequence strictly shorter. */
  lemma {:induction false} WithoutShrinks<T>(s: seq<T>, x: T)
    requires x in s
    ensures |Without(s, x)| < |s|
    decreases |s|
  {
    if s[0] != x {
      assert x in s[1..];
      WithoutShrinks(s[1..], x);
    }
  }

  /** The last `n` elements of `s` (all of them when there are fewer),
      i.e. JavaScript's `s.slice(-n)` for n >= 1. */
  function Last<T>(n: nat, s: seq<T>): (r: seq<T>)
    ensures |r| == if |s| < n then |s| else n
    ensures forall i :: 0 <= i < |r| ==> r[i] == s[|s| - |r| + i]
  {
    if |s| <= n then s else s[|s| - n..]
  }

  /** Keeping `n` elements and appending one equals keeping `n + 1` of the
      extended sequence. */
  lemma LastAppend<T>(n: nat, s: seq<T>, x: T)
    ensures Last(n, s) + [x] == Last(n + 1, s + [x])
  {
  }
}

=== FILE: stock_info.dfy ===
/** Symbol and exchange handling of server/stock_info.py: normalising a
    ticker for yfinance, the NSE → BSE → bare-symbol fallback, the exchange
    and currency labels, and the suffix tiers of the volume and market-cap
    formatters.  Whether yfinance has history for a ticker is a parameter;
    upper-casing is ASCII. */
module StockInfo {
  import opened Wrappers
  import Text

  /** Tickers that never get an Indian exchange suffix. */
  const UsSymbols: set<string> := {
    "AAPL", "GOOGL", "GOOG", "MSFT", "AMZN", "TSLA", "META", "NVDA",
    "NFLX", "AMD", "INTC", "ORCL", "CRM", "ADBE", "PYPL", "UBER",
    "LYFT", "SNAP", "TWTR", "SPOT", "ZM", "DOCU", "SQ", "SHOP"
  }

  /** `symbol.upper().strip()`. */
  function Normalise(symbol: string): (r: string)
    ensures Text.IsUpperForm(r)
    ensures |r| > 0 ==> !Text.IsSpace(r[0]) && !Text.IsSpace(r[|r| - 1])
  {
    var u := Text.Upper(symbol);
    Text.StripKeepsUpperForm(u);
    Text.Strip(u)
  }

  /** The normal form is the upper-cased slice of the symbol left once the
      whitespace at both ends is cut off. */
  lemma NormaliseSlice(symbol: string)
    ensures var r := Normalise(symbol);
            exists a :: 0 <= a <= |symbol| - |r| && r == Text.Upper(symbol[a..a + |r|])
                        && Text.AllSpace(symbol[..a]) && Text.AllSpace(symbol[a + |r|..])
  {
    var a := Text.LeadingSpace(Text.Upper(symbol));
    NormaliseCore(symbol);
    NormaliseHead(symbol);
    NormaliseTail(symbol);
    assert Text.AllSpace(symbol[..a]);
  }

  lemma NormaliseCore(symbol: string)
    ensures var a := Text.LeadingSpace(Text.Upper(symbol)); var r := Normalise(symbol);
            a + |r| <= |symbol| && r == Text.Upper(symbol[a..a + |r|])
  {
    Text.StripUpperCore(symbol);
  }

  lemma NormaliseHead(symbol: string)
    ensures var a := Text.LeadingSpace(Text.Upper(symbol));
            a <= |symbol| && Text.AllSpace(symbol[..a])
  {
    var u := Text.Upper(symbol);
    Text.StripSliceAt(u);
    Text.UpperSpaceUpTo(symbol, Text.LeadingSpace(u));
  }

  lemma NormaliseTail(symbol: string)
    ensures var a := Text.LeadingSpace(Text.Upper(symbol)); var r := Normalise(symbol);
            a + |r| <= |symbol| && Text.AllSpace(symbol[a + |r|..])
  {
    var u := Text.Upper(symbol);
    Text.StripSliceAt(u);
    Text.UpperSpaceFrom(symbol, Text.LeadingSpace(u) + |Text.Strip(u)|);
  }

  /** `format_symbol_for_exchange`: an existing ".NS"/".BO" anywhere in the
      text, or a listed US ticker, keeps the normalised symbol; anything
      else is sent to the NSE. */
  function FormatSymbol(symbol: string): (r: string)
    ensures r == Normalise(symbol) || r == Normalise(symbol) + ".NS"
    ensures Text.Contains(Normalise(symbol), ".NS") || Text.Contains(Normalise(symbol), ".BO")
            ==> r == Normalise(symbol)
    ensures Normalise(symbol) in UsSymbols ==> r == Normalise(symbol)
    ensures r == Normalise(symbol) + ".NS" <==>
              !Text.Contains(Normalise(symbol), ".NS") && !Text.Contains(Normalise(symbol), ".BO")
              && Normalise(symbol) !in UsSymbols
  {
    var s := Normalise(symbol);
    if Text.Contains(s, ".NS") || Text.Contains(s, ".BO") then s
    else if s in UsSymbols then s
    else s + ".NS"
  }

  /** A normalised symbol normalises to itself. */
  lemma NormaliseFixed(s: string)
    requires Text.IsUpperForm(s)
    requires |s| > 0 ==> !Text.IsSpace(s[0]) && !Text.IsSpace(s[|s| - 1])
    ensures Normalise(s) == s
  {
    Text.UpperOfUpperForm(s);
    Text.StripNoop(s);
  }

  /** A normalised symbol with the NSE suffix is already in final form. */
  lemma SuffixedIsFixed(s: string)
    requires Text.IsUpperForm(s)
    requires |s| > 0 ==> !Text.IsSpace(s[0]) && !Text.IsSpace(s[|s| - 1])
    ensures Normalise(s + ".NS") == s + ".NS"
  {
    var r := s + ".NS";
    assert Text.IsUpperForm(r) by {
      Text.UpperFormAppend(s, ".NS");
    }
    assert !Text.IsSpace(r[0]) && !Text.IsSpace(r[|r| - 1]) by {
      assert r[0] == (if |s| > 0 then s[0] else '.');
      assert r[|r| - 1] == 'S';
    }
    NormaliseFixed(r);
  }

  /** Formatting a formatted symbol changes nothing. */
  lemma FormatSymbolIdempotent(symbol: string)
    ensures FormatSymbol(FormatSymbol(symbol)) == FormatSymbol(symbol)
  {
    var s := Normalise(symbol);
    if FormatSymbol(symbol) == s {
      NormaliseFixed(s);
    } else {
      SuffixedIsFixed(s);
      Text.ContainsSuffix(s, ".NS");
    }
  }

  /** The BSE ticker contains a dot and the ".BO" suffix. */
  lemma BseTickerFacts(symbol: string)
    ensures Text.Contains(Text.Upper(symbol) + ".BO", ".")
    ensures Text.Contains(Text.Upper(symbol) + ".BO", ".BO")
  {
    var u := Text.Upper(symbol);
    var b := u + ".BO";
    assert b[|u|..|u| + 1] == ".";
    Text.ContainsAt(b, ".", |u|);
    Text.ContainsSuffix(u, ".BO");
  }

  /** The ticker finally used by `get_stock_info`, or None when none of the
      tried tickers has history: the formatted ticker first; when it has no
      history and is an NSE ticker, the upper-cased raw symbol on the BSE;
      when that attempt has no history and contains a dot, the bare
      upper-cased raw symbol.  The retries upper-case the raw symbol without
      stripping it. */
  function ResolveListing(symbol: string, hasHistory: string -> bool): (r: Option<string>)
    ensures r.Some? ==> hasHistory(r.value)
    ensures r.Some? ==>
              r.value == FormatSymbol(symbol) || r.value == Text.Upper(symbol) + ".BO"
              || r.value == Text.Upper(symbol)
    ensures hasHistory(FormatSymbol(symbol)) ==> r == Some(FormatSymbol(symbol))
    ensures !hasHistory(FormatSymbol(symbol)) && Text.Contains(FormatSymbol(symbol), ".NS") ==>
              r == if hasHistory(Text.Upper(symbol) + ".BO") then Some(Text.Upper(symbol) + ".BO")
                   else if hasHistory(Text.Upper(symbol)) then Some(Text.Upper(symbol))
                   else None
    ensures !hasHistory(FormatSymbol(symbol)) && !Text.Contains(FormatSymbol(symbol), ".NS") ==>
              r == if Text.Contains(FormatSymbol(symbol), ".") && hasHistory(Text.Upper(symbol))
                   then Some(Text.Upper(symbol)) else None
  {
    BseTickerFacts(symbol);
    var first := FormatSymbol(symbol);
    var second := if !hasHistory(first) && Text.Contains(first, ".NS") then Text.Upper(symbol) + ".BO" else first;
    var third := if !hasHistory(second) && Text.Contains(second, ".") then Text.Upper(symbol) else second;
    if hasHistory(third) then Some(third) else None
  }

  /** Upper-case letters only, as every ticker of `UsSymbols` is. */
  predicate PlainTicker(s: string) {
    |s| > 0 && forall i :: 0 <= i < |s| ==> 'A' <= s[i] <= 'Z'
  }

  /** A plain ticker is its own normal form and contains no dot. */
  lemma PlainTickerFacts(symbol: string)
    requires PlainTicker(symbol)
    ensures Normalise(symbol) == symbol && Text.Upper(symbol) == symbol
    ensures !Text.Contains(symbol, ".NS") && !Text.Contains(symbol, ".BO") && !Text.Contains(symbol, ".")
  {
    assert Text.IsUpperForm(symbol);
    assert !Text.IsSpace(symbol[0]) && !Text.IsSpace(symbol[|symbol| - 1]);
    NormaliseFixed(symbol);
    Text.UpperOfUpperForm(symbol);
    Text.NotContainsChar(symbol, ".NS");
    Text.NotContainsChar(symbol, ".BO");
    Text.NotContainsChar(symbol, ".");
  }

  /** A plain US ticker with no history resolves to nothing: it carries no
      suffix, so neither retry applies. */
  lemma UsWithoutHistory(symbol: string, hasHistory: string -> bool)
    requires PlainTicker(symbol) && symbol in UsSymbols && !hasHistory(symbol)
    ensures ResolveListing(symbol, hasHistory) == None
  {
    PlainTickerFacts(symbol);
    assert FormatSymbol(symbol) == symbol;
  }

  /** When the NSE ticker has no history and the BSE one has, the BSE one
      is used. */
  lemma BseRetry(symbol: string, hasHistory: string -> bool)
    requires Text.Contains(FormatSymbol(symbol), ".NS") && !hasHistory(FormatSymbol(symbol))
    requires hasHistory(Text.Upper(symbol) + ".BO")
    ensures ResolveListing(symbol, hasHistory) == Some(Text.Upper(symbol) + ".BO")
  {
  }

  /** A plain ticker outside the US list is sent to the NSE. */
  lemma PlainTickerToNse(symbol: string)
    requires PlainTicker(symbol) && symbol !in UsSymbols
    ensures FormatSymbol(symbol) == symbol + ".NS" && Text.Upper(symbol) == symbol
    ensures Text.Contains(FormatSymbol(symbol), ".NS")
  {
    PlainTickerFacts(symbol);
    Text.ContainsSuffix(symbol, ".NS");
  }

  /** Any other plain ticker is tried on the NSE, then on the BSE. */
  lemma PlainTickerFallsBackToBse(symbol: string, hasHistory: string -> bool)
    requires PlainTicker(symbol) && symbol !in UsSymbols
    requires !hasHistory(symbol + ".NS") && hasHistory(symbol + ".BO")
    ensures ResolveListing(symbol, hasHistory) == Some(symbol + ".BO")
  {
    PlainTickerToNse(symbol);
    BseRetry(symbol, hasHistory);
  }

  /** The exchange label: NSE for ".NS", else BSE for ".BO", else the one
      yfinance reports, NASDAQ by default. */
  function Exchange(formatted: string, reported: Option<string>): (r: string)
    ensures Text.Contains(formatted, ".NS") ==> r == "NSE"
    ensures !Text.Contains(formatted, ".NS") && Text.Contains(formatted, ".BO") ==> r == "BSE"
    ensures !Text.Contains(formatted, ".NS") && !Text.Contains(formatted, ".BO") ==>
              r == reported.GetOr("NASDAQ")
  {
    if Text.Contains(formatted, ".NS") then "NSE"
    else if Text.Contains(formatted, ".BO") then "BSE"
    else reported.GetOr("NASDAQ")
  }

  /** The rupee sign, U+20B9. */
  const Rupee: string := "\U{20b9}"

  /** The currency sign: the rupee on the Indian exchanges, the dollar
      elsewhere. */
  function Currency(exchange: string): (r: string)
    ensures r == Rupee <==> exchange == "NSE" || exchange == "BSE"
    ensures r == "$" <==> exchange != "NSE" && exchange != "BSE"
  {
    if exchange in ["NSE", "BSE"] then Rupee else "$"
  }

  /** The currency sign as `get_stock_info` writes it: the Indian sign is
      the three characters U+00E2 U+201A U+00B9. */
  const RupeeAsWritten: string := "\U{e2}\U{201a}\U{b9}"

  function CurrencyAsWritten(exchange: string): (r: string)
    ensures r == RupeeAsWritten <==> exchange == "NSE" || exchange == "BSE"
    ensures r == "$" <==> exchange != "NSE" && exchange != "BSE"
  {
    if exchange in ["NSE", "BSE"] then RupeeAsWritten else "$"
  }

  /** UTF-8 encoding of one code point (surrogates are never produced by
      Dafny's `char`). */
  function Utf8Char(c: char): (r: seq<int>)
    ensures 1 <= |r| <= 4
    ensures forall i :: 0 <= i < |r| ==> 0 <= r[i] < 256
  {
    var n := c as int;
    if n < 0x80 then [n]
    else if n < 0x800 then [0xC0 + n / 64, 0x80 + n % 64]
    else if n < 0x1_0000 then [0xE0 + n / 4096, 0x80 + (n / 64) % 64, 0x80 + n % 64]
    else [0xF0 + n / 0x4_0000, 0x80 + (n / 4096) % 64, 0x80 + (n / 64) % 64, 0x80 + n % 64]
  }

  function Utf8(s: string): (r: seq<int>)
    ensures |r| >= |s|
  {
    if s == [] then [] else Utf8Char(s[0]) + Utf8(s[1..])
  }

  /** The Windows-1252 characters of the bytes 0x80 to 0x9F; 0x81, 0x8D,
      0x8F, 0x90 and 0x9D have none. */
  const Cp1252High: map<int, char> := map[
    0x80 := '\U{20ac}', 0x82 := '\U{201a}', 0x83 := '\U{192}', 0x84 := '\U{201e}',
    0x85 := '\U{2026}', 0x86 := '\U{2020}', 0x87 := '\U{2021}', 0x88 := '\U{2c6}',
    0x89 := '\U{2030}', 0x8A := '\U{160}', 0x8B := '\U{2039}', 0x8C := '\U{152}',
    0x8E := '\U{17d}', 0x91 := '\U{2018}', 0x92 := '\U{2019}', 0x93 := '\U{201c}',
    0x94 := '\U{201d}', 0x95 := '\U{2022}', 0x96 := '\U{2013}', 0x97 := '\U{2014}',
    0x98 := '\U{2dc}', 0x99 := '\U{2122}', 0x9A := '\U{161}', 0x9B := '\U{203a}',
    0x9C := '\U{153}', 0x9E := '\U{17e}', 0x9F := '\U{178}']

  /** The Windows-1252 character of one byte, None for the five bytes that
      have none. */
  function Cp1252Char(b: int): (r: Option<char>)
    requires 0 <= b < 256
    ensures (b < 0x80 || b >= 0xA0) ==> r == Some(b as char)
    ensures r.None? <==> b in {0x81, 0x8D, 0x8F, 0x90, 0x9D}
  {
    if b < 0x80 || b >= 0xA0 then Some(b as char)
    else if b in Cp1252High then Some(Cp1252High[b]) else None
  }

  /** Windows-1252 decoding: None at a byte that has no character. */
  function Cp1252(bytes: seq<int>): (r: Option<string>)
    requires forall i :: 0 <= i < |bytes| ==> 0 <= bytes[i] < 256
    ensures r.Some? ==> |r.value| == |bytes|
  {
    if bytes == [] then Some([])
    else if Cp1252Char(bytes[0]).None? then None
    else
      var rest := Cp1252(bytes[1..]);
      if rest.None? then None else Some([Cp1252Char(bytes[0]).value] + rest.value)
  }

  /** The Indian currency sign as written is the rupee sign's UTF-8 bytes
      read as Windows-1252, not the rupee sign. */
  lemma RupeeMisencoded()
    ensures Utf8(Rupee) == [0xE2, 0x82, 0xB9]
    ensures Cp1252(Utf8(Rupee)) == Some(RupeeAsWritten)
    ensures CurrencyAsWritten("NSE") != Currency("NSE")
    ensures CurrencyAsWritten("BSE") != Currency("BSE")
  {
    assert Utf8Char(Rupee[0]) == [0xE2, 0x82, 0xB9];
    assert Utf8(Rupee) == [0xE2, 0x82, 0xB9];
    var b3, b2, b1: seq<int> := [0xB9], [0x82, 0xB9], [0xE2, 0x82, 0xB9];
    assert b3[1..] == [] && b2[1..] == b3 && b1[1..] == b2;
    assert Cp1252([]) == Some([]);
    assert Cp1252Char(0xB9) == Some('\U{b9}');
    assert Cp1252Char(0x82) == Some('\U{201a}');
    assert Cp1252Char(0xE2) == Some('\U{e2}');
    var c3, c2, c1: string := ['\U{b9}'], ['\U{201a}', '\U{b9}'], ['\U{e2}', '\U{201a}', '\U{b9}'];
    assert c3 == ['\U{b9}'] + [] && c2 == ['\U{201a}'] + c3 && c1 == ['\U{e2}'] + c2;
    assert b3[0] == 0xB9 && b2[0] == 0x82 && b1[0] == 0xE2;
    assert Cp1252(b3) == Some(c3);
    assert Cp1252(b2) == Some(c2);
    assert Cp1252(b1) == Some(c1);
    assert c1 == RupeeAsWritten;
    assert RupeeAsWritten != Rupee by {
      assert |RupeeAsWritten| == 3 && |Rupee| == 1;
    }
  }

  /** A listing resolved to the NSE or BSE ticker is priced in rupees,
      whatever yfinance reports as its exchange. */
  lemma IndianListingInRupees(symbol: string, hasHistory: string -> bool, reported: Option<string>)
    requires Normalise(symbol) !in UsSymbols
    requires ResolveListing(symbol, hasHistory).Some?
    requires var t := ResolveListing(symbol, hasHistory).value;
             t == FormatSymbol(symbol) || t == Text.Upper(symbol) + ".BO"
    ensures Currency(Exchange(ResolveListing(symbol, hasHistory).value, reported)) == Rupee
  {
    var s := Normalise(symbol);
    BseTickerFacts(symbol);
    if !Text.Contains(s, ".NS") && !Text.Contains(s, ".BO") {
      Text.ContainsSuffix(s, ".NS");
    }
  }

  /** A plain ticker with no NSE or BSE history but with history of its own
      is resolved to the bare ticker and, unless yfinance reports an Indian
      exchange, priced in dollars. */
  lemma BareFallbackInDollars(symbol: string, hasHistory: string -> bool, reported: Option<string>)
    requires PlainTicker(symbol) && symbol !in UsSymbols
    requires !hasHistory(symbol + ".NS") && !hasHistory(symbol + ".BO") && hasHistory(symbol)
    requires reported.GetOr("NASDAQ") != "NSE" && reported.GetOr("NASDAQ") != "BSE"
    ensures ResolveListing(symbol, hasHistory) == Some(symbol)
    ensures Currency(Exchange(symbol, reported)) == "$"
  {
    PlainTickerFacts(symbol);
    PlainTickerToNse(symbol);
  }

  /** The day-over-day change: the last close minus the previous one, zero
      when there is only one row. */
  function PriceChange(closes: seq<real>): (r: real)
    requires |closes| > 0
    ensures |closes| == 1 ==> r == 0.0
    ensures |closes| > 1 ==> closes[|closes| - 2] + r == closes[|closes| - 1]
  {
    var latest := closes[|closes| - 1];
    var previous := if |closes| > 1 then closes[|closes| - 2] else latest;
    latest - previous
  }

  /** A number as the formatters show it: a mantissa and a unit suffix. */
  datatype Scaled = Scaled(mantissa: real, suffix: string)

  /** `format_volume` before rounding: B, M or K from 1e9, 1e6 and 1e3 up;
      the mantissa of a suffixed tier is at least 1 and, below B, under
      1000. */
  function FormatVolume(volume: real): (r: Scaled)
    ensures r.suffix == "B" <==> volume >= 1_000_000_000.0
    ensures r.suffix == "M" <==> 1_000_000.0 <= volume < 1_000_000_000.0
    ensures r.suffix == "K" <==> 1_000.0 <= volume < 1_000_000.0
    ensures r.suffix == "" <==> volume < 1_000.0
    ensures r.suffix != "" ==> r.mantissa >= 1.0
    ensures r.suffix in {"M", "K"} ==> r.mantissa < 1000.0
    ensures r.suffix == "" ==> r.mantissa == volume
  {
    if volume >= 1_000_000_000.0 then Scaled(volume / 1_000_000_000.0, "B")
    else if volume >= 1_000_000.0 then Scaled(volume / 1_000_000.0, "M")
    else if volume >= 1_000.0 then Scaled(volume / 1_000.0, "K")
    else Scaled(volume, "")
  }

  /** `format_market_cap` before rounding: T, B or M from 1e12, 1e9 and 1e6
      up, with the same mantissa bounds. */
  function FormatMarketCap(marketCap: real): (r: Scaled)
    ensures r.suffix == "T" <==> marketCap >= 1_000_000_000_000.0
    ensures r.suffix == "B" <==> 1_000_000_000.0 <= marketCap < 1_000_000_000_000.0
    ensures r.suffix == "M" <==> 1_000_000.0 <= marketCap < 1_000_000_000.0
    ensures r.suffix == "" <==> marketCap < 1_000_000.0
    ensures r.suffix != "" ==> r.mantissa >= 1.0
    ensures r.suffix in {"B", "M"} ==> r.mantissa < 1000.0
    ensures r.suffix == "" ==> r.mantissa == marketCap
  {
    if marketCap >= 1_000_000_000_000.0 then Scaled(marketCap / 1_000_000_000_000.0, "T")
    else if marketCap >= 1_000_000_000.0 then Scaled(marketCap / 1_000_000_000.0, "B")
    else if marketCap >= 1_000_000.0 then Scaled(marketCap / 1_000_000.0, "M")
    else Scaled(marketCap, "")
  }

  /** Scaling back by the suffix's unit recovers the number. */
  function Unit(suffix: string): real {
    if suffix == "T" then 1_000_000_000_000.0
    else if suffix == "B" then 1_000_000_000.0
    else if suffix == "M" then 1_000_000.0
    else if suffix == "K" then 1_000.0
    else 1.0
  }

  lemma ScaledRoundTrip(x: real)
    ensures FormatVolume(x).mantissa * Unit(FormatVolume(x).suffix) == x
    ensures FormatMarketCap(x).mantissa * Unit(FormatMarketCap(x).suffix) == x
  {
  }
}

=== FILE: technical_indicators.dfy ===
/** The indicator buttons of frontend/src/components/TechnicalIndicators.tsx:
    four on/off flags, the id → (type, period) parsing of `handleToggle`,
    and what the toggle reports to the app.  The fetch itself is a
    parameter (None when it returned null). */
module TechnicalIndicators {
  import opened Wrappers
  import Text

  datatype Button = Sma20 | Sma50 | Ema12 | Rsi

  function Id(b: Button): string {
    match b
    case Sma20 => "sma_20"
    case Sma50 => "sma_50"
    case Ema12 => "ema_12"
    case Rsi => "rsi"
  }

  datatype Flags = Flags(sma20: bool, sma50: bool, ema12: bool, rsi: bool)

  function Get(f: Flags, b: Button): bool {
    match b
    case Sma20 => f.sma20
    case Sma50 => f.sma50
    case Ema12 => f.ema12
    case Rsi => f.rsi
  }

  /** Flips exactly the chosen flag. */
  function Flip(f: Flags, b: Button): (r: Flags)
    ensures Get(r, b) == !Get(f, b)
    ensures forall other :: other != b ==> Get(r, other) == Get(f, other)
  {
    match b
    case Sma20 => f.(sma20 := !f.sma20)
    case Sma50 => f.(sma50 := !f.sma50)
    case Ema12 => f.(ema12 := !f.ema12)
    case Rsi => f.(rsi := !f.rsi)
  }

  lemma FlipTwice(f: Flags, b: Button)
    ensures Flip(Flip(f, b), b) == f
  {
  }

  /** The text before the first "_", and the text between it and the next
      one (None when there is no "_"): the first two parts of
      `id.split('_')`. */
  function SplitFirst(s: string): (r: (string, Option<string>))
    ensures '_' !in r.0
    ensures r.1.None? ==> r.0 == s
    ensures r.1.Some? ==> '_' !in r.1.value
  {
    if |s| == 0 then ("", None)
    else if s[0] == '_' then ("", Some(Before(s[1..])))
    else
      var (head, rest) := SplitFirst(s[1..]);
      ([s[0]] + head, rest)
  }

  /** The text up to the first "_". */
  function Before(s: string): (r: string)
    ensures '_' !in r
    ensures |r| <= |s| && r == s[..|r|]
  {
    if |s| == 0 || s[0] == '_' then "" else [s[0]] + Before(s[1..])
  }

  datatype Request = Request(indicatorType: string, period: int)

  /** The type is the first part; the period is the second part parsed as
      an integer, else 14 for rsi, 12 for ema and 20 otherwise. */
  function ParseId(id: string): (r: Request)
    ensures r.indicatorType == SplitFirst(id).0
    ensures SplitFirst(id).1.Some? && Text.JsParseInt(SplitFirst(id).1.value).Some? ==>
              r.period == Text.JsParseInt(SplitFirst(id).1.value).value
    ensures (SplitFirst(id).1.None? || Text.JsParseInt(SplitFirst(id).1.value).None?) ==>
              r.period == (if r.indicatorType == "rsi" then 14 else if r.indicatorType == "ema" then 12 else 20)
  {
    var (kind, periodText) := SplitFirst(id);
    var parsed := if periodText.Some? then Text.JsParseInt(periodText.value) else None;
    var period := if parsed.Some? then parsed.value
                  else if kind == "rsi" then 14 else if kind == "ema" then 12 else 20;
    Request(kind, period)
  }

  /** A "type_NN" id with a two-digit period requests that type and period. */
  lemma TwoDigitRequest(kind: string, d1: char, d2: char)
    requires '_' !in kind && Text.IsDigit(d1) && Text.IsDigit(d2)
    ensures ParseId(kind + "_" + [d1, d2])
            == Request(kind, 10 * (d1 as int - '0' as int) + (d2 as int - '0' as int))
  {
    SplitAt(kind, [d1, d2]);
    BeforeWhole([d1, d2]);
    JsTwoDigits(d1, d2);
  }

  /** The four buttons request (sma, 20), (sma, 50), (ema, 12), (rsi, 14). */
  lemma ButtonRequests()
    ensures ParseId(Id(Sma20)) == Request("sma", 20)
    ensures ParseId(Id(Sma50)) == Request("sma", 50)
    ensures ParseId(Id(Ema12)) == Request("ema", 12)
    ensures ParseId(Id(Rsi)) == Request("rsi", 14)
  {
    ButtonRequest(Sma20);
    ButtonRequest(Sma50);
    ButtonRequest(Ema12);
    ButtonRequest(Rsi);
  }

  /** The request of one button, each case proved on its own. */
  lemma ButtonRequest(b: Button)
    ensures ParseId(Id(b)) == match b
                              case Sma20 => Request("sma", 20)
                              case Sma50 => Request("sma", 50)
                              case Ema12 => Request("ema", 12)
                              case Rsi => Request("rsi", 14)
  {
    match b
    case Sma20 =>
      assert Id(Sma20) == "sma" + "_" + ['2', '0'];
      TwoDigitRequest("sma", '2', '0');
    case Sma50 =>
      assert Id(Sma50) == "sma" + "_" + ['5', '0'];
      TwoDigitRequest("sma", '5', '0');
    case Ema12 =>
      assert Id(Ema12) == "ema" + "_" + ['1', '2'];
      TwoDigitRequest("ema", '1', '2');
    case Rsi =>
      SplitNone("rsi");
  }

  lemma {:induction false} SplitAt(a: string, b: string)
    requires '_' !in a
    ensures SplitFirst(a + "_" + b) == (a, Some(Before(b)))
    decreases |a|
  {
    var s := a + "_" + b;
    if |a| == 0 {
      assert s == "_" + b && s[1..] == b;
    } else {
      assert s[0] == a[0] && s[1..] == a[1..] + "_" + b;
      SplitAt(a[1..], b);
      assert [a[0]] + a[1..] == a;
    }
  }

  lemma {:induction false} SplitNone(a: string)
    requires '_' !in a
    ensures SplitFirst(a) == (a, None)
    decreases |a|
  {
    if |a| > 0 {
      SplitNone(a[1..]);
      assert [a[0]] + a[1..] == a;
    }
  }

  lemma {:induction false} BeforeWhole(b: string)
    requires '_' !in b
    ensures Before(b) == b
    decreases |b|
  {
    if |b| > 0 {
      BeforeWhole(b[1..]);
      assert [b[0]] + b[1..] == b;
    }
  }

  lemma JsTwoDigits(a: char, b: char)
    requires Text.IsDigit(a) && Text.IsDigit(b)
    ensures Text.JsParseInt([a, b]) == Some(10 * (a as int - '0' as int) + (b as int - '0' as int))
  {
    var s := [a, b];
    assert Text.DigitRunLength(s) == 2 by {
      assert s[1..] == [b];
      assert [b][1..] == [];
      assert Text.DigitRunLength([b]) == 1;
    }
    assert Text.DigitsValue(s[..2]) == 10 * (a as int - '0' as int) + (b as int - '0' as int) by {
      assert s[..2] == s;
      assert s[..1] == [a];
      assert [a][..0] == [];
      assert Text.DigitsValue([a]) == a as int - '0' as int;
    }
    Text.JsParseIntDigitStart(s);
  }


  /** What a click reports: the id, the new state, and the fetched data
      when enabling. */
  datatype Report<D> = Report(indicator: string, enabled: bool, data: Option<D>)

  /** `handleToggle(button)`: the flag flips; enabling fetches the parsed
      request and hands over its result, disabling fetches nothing. */
  function HandleToggle<D>(f: Flags, b: Button, fetch: Request -> Option<D>)
    : (r: (Flags, Option<Request>, Report<D>))
    ensures r.0 == Flip(f, b)
    ensures r.1.Some? <==> !Get(f, b)
    ensures r.1.Some? ==> r.1.value == ParseId(Id(b)) && r.2 == Report(Id(b), true, fetch(r.1.value))
    ensures r.1.None? ==> r.2 == Report(Id(b), false, None)
  {
    var flipped := Flip(f, b);
    if Get(flipped, b) then
      var request := ParseId(Id(b));
      (flipped, Some(request), Report(Id(b), true, fetch(request)))
    else (flipped, None, Report(Id(b), false, None))
  }
}

=== FILE: text.dfy ===
/** Character and string helpers: prefixes and substrings (JavaScript's
    `startsWith` and `includes`, Python's `in`), decimal digits, ASCII
    upper-casing, Python's `strip`, and the integer parsers of both
    languages. */
module Text {
  import opened Wrappers

  predicate IsDigit(c: char) {
    '0' <= c <= '9'
  }

  predicate StartsWith(s: string, prefix: string) {
    |prefix| <= |s| && s[..|prefix|] == prefix
  }

  /** `sub` occurs somewhere in `s`. */
  predicate Contains(s: string, sub: string)
    decreases |s|
  {
    StartsWith(s, sub) || (|s| > 0 && Contains(s[1..], sub))
  }

  lemma {:induction false} ContainsAt(s: string, sub: string, i: nat)
    requires i + |sub| <= |s| && s[i..i + |sub|] == sub
    ensures Contains(s, sub)
    decreases i
  {
    if i > 0 {
      assert s[1..][i - 1..i - 1 + |sub|] == sub;
      ContainsAt(s[1..], sub, i - 1);
    }
  }

  lemma {:induction false} ContainsPrepend(a: string, s: string, sub: string)
    requires Contains(s, sub)
    ensures Contains(a + s, sub)
    decreases |a|
  {
    if |a| == 0 {
      assert a + s == s;
    } else {
      assert (a + s)[1..] == a[1..] + s;
      ContainsPrepend(a[1..], s, sub);
    }
  }

  lemma {:induction false} ContainsAppend(s: string, b: string, sub: string)
    requires Contains(s, sub)
    ensures Contains(s + b, sub)
    decreases |s|
  {
    if StartsWith(s, sub) {
      assert (s + b)[..|sub|] == s[..|sub|];
    } else {
      assert (s + b)[1..] == s[1..] + b;
      ContainsAppend(s[1..], b, sub);
    }
  }

  /** A string in which the character `c` never occurs does not contain
      any substring starting with `c`. */
  lemma {:induction false} NotContainsChar(s: string, sub: string)
    requires |sub| > 0 && forall i :: 0 <= i < |s| ==> s[i] != sub[0]
    ensures !Contains(s, sub)
    decreases |s|
  {
    if |s| > 0 {
      NotContainsChar(s[1..], sub);
      assert |sub| <= |s| ==> s[..|sub|][0] == s[0];
    }
  }

  /** Every string contains each of its suffixes. */
  lemma ContainsSuffix(a: string, sub: string)
    ensures Contains(a + sub, sub)
  {
    ContainsAt(a + sub, sub, |a|);
  }

  /** Value of a non-empty run of decimal digits. */
  function DigitsValue(s: string): (n: nat)
    requires forall i :: 0 <= i < |s| ==> IsDigit(s[i])
  {
    if |s| == 0 then 0
    else
      assert IsDigit(s[|s| - 1]);
      10 * DigitsValue(s[..|s| - 1]) + (s[|s| - 1] as int - '0' as int)
  }

  /** Decimal rendering of a natural number, as in a template literal. */
  function NatToString(n: nat): (s: string)
    ensures |s| > 0
    ensures forall i :: 0 <= i < |s| ==> IsDigit(s[i])
    ensures DigitsValue(s) == n
  {
    var d := ['0' + (n % 10) as char];
    if n < 10 then d
    else
      var prefix := NatToString(n / 10);
      assert (prefix + d)[..|prefix + d| - 1] == prefix;
      prefix + d
  }

  function IntToString(n: int): (s: string)
    ensures |s| > 0
  {
    if n < 0 then "-" + NatToString(-n) else NatToString(n)
  }

  /** ASCII upper-casing of one character. */
  function UpperChar(c: char): char {
    if 'a' <= c <= 'z' then (c as int - 32) as char else c
  }

  predicate IsUpperForm(s: string) {
    forall i :: 0 <= i < |s| ==> !('a' <= s[i] <= 'z')
  }

  /** ASCII `upper()`: each character upper-cased in place. */
  function Upper(s: string): (r: string)
    ensures |r| == |s|
    ensures forall i :: 0 <= i < |s| ==> r[i] == UpperChar(s[i])
    ensures IsUpperForm(r)
  {
    seq(|s|, i requires 0 <= i < |s| => UpperChar(s[i]))
  }

  lemma UpperOfUpperForm(s: string)
    requires IsUpperForm(s)
    ensures Upper(s) == s
  {
  }

  lemma UpperFormAppend(a: string, b: string)
    requires IsUpperForm(a) && IsUpperForm(b)
    ensures IsUpperForm(a + b)
  {
    assert forall i :: 0 <= i < |a + b| ==> (a + b)[i] == (if i < |a| then a[i] else b[i - |a|]);
  }

  lemma UpperAppend(a: string, b: string)
    ensures Upper(a + b) == Upper(a) + Upper(b)
  {
  }

  /** The characters Python's `str.strip()` removes (`str.isspace`). */
  predicate IsSpace(c: char) {
    c == ' ' || '\t' <= c <= '\r' || '\U{1c}' <= c <= '\U{1f}'
    || c == '\U{85}' || c == '\U{a0}' || c == '\U{1680}'
    || '\U{2000}' <= c <= '\U{200a}' || c == '\U{2028}' || c == '\U{2029}'
    || c == '\U{202f}' || c == '\U{205f}' || c == '\U{3000}'
  }

  predicate AllSpace(s: string) {
    forall i :: 0 <= i < |s| ==> IsSpace(s[i])
  }

  /** Number of whitespace characters at the start of `s`. */
  function LeadingSpace(s: string): (n: nat)
    ensures n <= |s|
    ensures forall i :: 0 <= i < n ==> IsSpace(s[i])
    ensures n < |s| ==> !IsSpace(s[n])
  {
    if |s| > 0 && IsSpace(s[0]) then 1 + LeadingSpace(s[1..]) else 0
  }

  /** Number of whitespace characters at the end of `s`. */
  function TrailingSpace(s: string): (n: nat)
    ensures n <= |s|
    ensures forall i :: |s| - n <= i < |s| ==> IsSpace(s[i])
    ensures n < |s| ==> !IsSpace(s[|s| - n - 1])
  {
    if |s| > 0 && IsSpace(s[|s| - 1]) then 1 + TrailingSpace(s[..|s| - 1]) else 0
  }

  /** Upper-casing commutes with slicing. */
  lemma UpperSlice(s: string, i: nat, j: nat)
    requires i <= j <= |s|
    ensures Upper(s)[i..j] == Upper(s[i..j])
  {
  }

  /** Upper-casing neither creates nor removes whitespace: a whitespace run
      of the upper-cased text is one of the text itself. */
  lemma UpperSpaceFrom(s: string, k: nat)
    requires k <= |s| && AllSpace(Upper(s)[k..])
    ensures AllSpace(s[k..])
  {
    var x := s[k..];
    var y := Upper(s)[k..];
    forall i | 0 <= i < |x|
      ensures IsSpace(x[i])
    {
      assert y[i] == UpperChar(x[i]);
    }
  }

  lemma UpperSpaceUpTo(s: string, k: nat)
    requires k <= |s| && AllSpace(Upper(s)[..k])
    ensures AllSpace(s[..k])
  {
    var x := s[..k];
    var y := Upper(s)[..k];
    forall i | 0 <= i < |x|
      ensures IsSpace(x[i])
    {
      assert y[i] == UpperChar(x[i]);
    }
  }

  /** Stripping the upper-cased text keeps an upper-cased slice of it. */
  lemma StripUpperCore(s: string)
    ensures var u := Upper(s); var a := LeadingSpace(u); var r := Strip(u);
            a + |r| <= |s| && r == Upper(s[a..a + |r|])
  {
    var u := Upper(s);
    StripKeepsMiddle(u);
    var a := LeadingSpace(u);
    UpperSlice(s, a, a + |Strip(u)|);
  }

  /** Stripping an upper-case form leaves an upper-case form. */
  lemma StripKeepsUpperForm(u: string)
    requires IsUpperForm(u)
    ensures IsUpperForm(Strip(u))
  {
    StripSliceAt(u);
    var a := LeadingSpace(u);
    var r := Strip(u);
    forall i | 0 <= i < |r|
      ensures !('a' <= r[i] <= 'z')
    {
      assert r[i] == u[a + i];
    }
  }

  /** Python's `s.strip()`: neither starts nor ends with whitespace.
      `StripIsSlice` states which slice of `s` it is. */
  function Strip(s: string): (r: string)
    ensures |r| > 0 ==> !IsSpace(r[0]) && !IsSpace(r[|r| - 1])
    ensures |r| <= |s|
  {
    var l := s[LeadingSpace(s)..];
    l[..|l| - TrailingSpace(l)]
  }

  /** `strip()` cuts whitespace only: what it drops on the left and on
      the right is whitespace, and it keeps the slice in between. */
  lemma StripSliceAt(s: string)
    ensures var a := LeadingSpace(s);
            a + |Strip(s)| <= |s| && Strip(s) == s[a..a + |Strip(s)|]
            && AllSpace(s[..a]) && AllSpace(s[a + |Strip(s)|..])
  {
    StripKeepsMiddle(s);
    HeadSpace(s, LeadingSpace(s));
    StripDropsTail(s);
  }

  lemma StripKeepsMiddle(s: string)
    ensures var a := LeadingSpace(s);
            a + |Strip(s)| <= |s| && Strip(s) == s[a..a + |Strip(s)|]
  {
    var a := LeadingSpace(s);
    var l := s[a..];
    var n := |l| - TrailingSpace(l);
    assert Strip(s) == l[..n];
    SliceOfSuffix(s, a, n);
  }

  lemma SliceOfSuffix(s: string, a: nat, n: nat)
    requires a + n <= |s|
    ensures s[a..][..n] == s[a..a + n]
  {
  }

  lemma StripDropsTail(s: string)
    ensures var a := LeadingSpace(s);
            a + |Strip(s)| <= |s| && AllSpace(s[a + |Strip(s)|..])
  {
    var a := LeadingSpace(s);
    var l := s[a..];
    var t := TrailingSpace(l);
    assert |Strip(s)| == |l| - t;
    SuffixOfSuffix(s, a, |l| - t);
    TailSpace(l, t);
  }

  lemma SuffixOfSuffix(s: string, a: nat, k: nat)
    requires a + k <= |s|
    ensures s[a..][k..] == s[a + k..]
  {
  }

  lemma HeadSpace(s: string, a: nat)
    requires a <= |s| && forall i :: 0 <= i < a ==> IsSpace(s[i])
    ensures AllSpace(s[..a])
  {
    var head := s[..a];
    forall i | 0 <= i < |head|
      ensures IsSpace(head[i])
    {
      assert head[i] == s[i];
    }
  }

  lemma TailSpace(l: string, t: nat)
    requires t <= |l| && forall i :: |l| - t <= i < |l| ==> IsSpace(l[i])
    ensures AllSpace(l[|l| - t..])
  {
    var tail := l[|l| - t..];
    forall i | 0 <= i < |tail|
      ensures IsSpace(tail[i])
    {
      assert tail[i] == l[|l| - t + i];
    }
  }

  /** `strip()` returns the slice of `s` left once the whitespace at both
      ends is cut off. */
  lemma StripIsSlice(s: string)
    ensures exists a :: 0 <= a <= |s| - |Strip(s)| && Strip(s) == s[a..a + |Strip(s)|]
                        && AllSpace(s[..a]) && AllSpace(s[a + |Strip(s)|..])
  {
    StripSliceAt(s);
  }

  /** Every character of the stripped text comes from the input. */
  lemma StripChars(s: string)
    ensures forall i :: 0 <= i < |Strip(s)| ==> Strip(s)[i] in s
  {
    var a := LeadingSpace(s);
    var r := Strip(s);
    StripSliceAt(s);
    forall i | 0 <= i < |r|
      ensures r[i] in s
    {
      assert r[i] == s[a + i];
    }
  }

  lemma StripNoop(s: string)
    requires |s| > 0 ==> !IsSpace(s[0]) && !IsSpace(s[|s| - 1])
    ensures Strip(s) == s
  {
    assert LeadingSpace(s) == 0;
    assert s[0..] == s;
    assert TrailingSpace(s) == 0;
  }

  /** The digits of a Python integer literal in base 10: ASCII digits,
      with single underscores allowed between two digits. */
  predicate IsPyDigits(s: string) {
    |s| > 0 && IsDigit(s[0]) && IsDigit(s[|s| - 1])
    && (forall i :: 0 <= i < |s| ==> IsDigit(s[i]) || s[i] == '_')
    && (forall i :: 0 < i < |s| ==> !UnderscorePair(s, i))
  }

  /** Characters i - 1 and i are both underscores. */
  predicate UnderscorePair(s: string, i: int)
    requires 0 < i < |s|
  {
    s[i - 1] == '_' && s[i] == '_'
  }

  /** `s` with its underscores removed. */
  function DropUnderscores(s: string): (r: string)
    ensures |r| <= |s|
    ensures (forall i :: 0 <= i < |s| ==> IsDigit(s[i]) || s[i] == '_') ==>
              forall i :: 0 <= i < |r| ==> IsDigit(r[i])
  {
    if |s| == 0 then []
    else
      var rest := DropUnderscores(s[1..]);
      if s[0] == '_' then rest else [s[0]] + rest
  }

  lemma {:induction false} DropUnderscoresOfDigits(s: string)
    requires forall i :: 0 <= i < |s| ==> IsDigit(s[i])
    ensures DropUnderscores(s) == s
    decreases |s|
  {
    if |s| > 0 {
      DropUnderscoresOfDigits(s[1..]);
      assert s == [s[0]] + s[1..];
    }
  }

  lemma {:induction false} DropUnderscoresAppend(a: string, b: string)
    ensures DropUnderscores(a + b) == DropUnderscores(a) + DropUnderscores(b)
    decreases |a|
  {
    if |a| > 0 {
      assert (a + b)[0] == a[0];
      assert (a + b)[1..] == a[1..] + b;
      DropUnderscoresAppend(a[1..], b);
    } else {
      assert a + b == b;
    }
  }

  /** Python's `int(s)` on a string: surrounding whitespace, an optional
      sign, then the digits of a base-10 literal (underscores allowed
      between digits); anything else is a ValueError (None here). */
  function ParsePyInt(s: string): (r: Option<int>)
    ensures r.Some? ==> |Strip(s)| > 0
    ensures r.Some? ==> forall i :: 0 <= i < |s| ==> IsPyIntChar(s[i])
    ensures r.Some? && r.value < 0 ==> Strip(s)[0] == '-'
  {
    var t := Strip(s);
    if |t| == 0 then None
    else
      var neg := t[0] == '-';
      var body := if t[0] == '-' || t[0] == '+' then t[1..] else t;
      if IsPyDigits(body) then
        SignedDigitsChars(t);
        StripCharset(s, IsPyIntChar);
        var v: int := DigitsValue(DropUnderscores(body));
        Some(if neg then -v else v)
      else None
  }

  /** The characters `int()` can accept anywhere in its text: whitespace,
      a sign, digits and underscores.  Any other one, such as the '.' of
      "2.5" or a letter, is a ValueError. */
  predicate IsPyIntChar(c: char) {
    IsSpace(c) || IsDigit(c) || c == '_' || c == '+' || c == '-'
  }

  /** A sign followed by the digits of a literal uses only `int()`'s
      characters. */
  lemma SignedDigitsChars(t: string)
    requires |t| > 0 && IsPyDigits(if t[0] == '-' || t[0] == '+' then t[1..] else t)
    ensures forall k :: 0 <= k < |t| ==> IsPyIntChar(t[k])
  {
    if t[0] == '-' || t[0] == '+' {
      forall k | 1 <= k < |t|
        ensures IsPyIntChar(t[k])
      {
        assert t[k] == t[1..][k - 1];
      }
    }
  }

  /** A character property that holds on the stripped text holds on the
      whole text up to the whitespace `strip()` removed. */
  lemma StripCharset(s: string, ok: char -> bool)
    requires forall k :: 0 <= k < |Strip(s)| ==> ok(Strip(s)[k])
    ensures forall i :: 0 <= i < |s| ==> IsSpace(s[i]) || ok(s[i])
  {
    var a := LeadingSpace(s);
    var r := Strip(s);
    StripSliceAt(s);
    forall i | 0 <= i < |s|
      ensures IsSpace(s[i]) || ok(s[i])
    {
      if i < a {
        assert s[..a][i] == s[i];
      } else if i < a + |r| {
        assert r[i - a] == s[i];
      } else {
        assert s[a + |r|..][i - a - |r|] == s[i];
      }
    }
  }

  /** Unsigned literal digits parse to the value of their digits. */
  lemma ParseUnsigned(t: string)
    requires IsPyDigits(t)
    ensures ParsePyInt(t) == Some(DigitsValue(DropUnderscores(t)))
  {
    assert !IsSpace(t[0]) && !IsSpace(t[|t| - 1]);
    StripNoop(t);
  }

  /** A bare run of digits parses to its value. */
  lemma ParseDigits(s: string)
    requires |s| > 0 && forall i :: 0 <= i < |s| ==> IsDigit(s[i])
    ensures ParsePyInt(s) == Some(DigitsValue(s))
  {
    assert IsDigit(s[0]) && IsDigit(s[|s| - 1]);
    assert IsPyDigits(s);
    DropUnderscoresOfDigits(s);
    ParseUnsigned(s);
  }

  /** `int(str(n))` is `n`: every rendered integer parses back. */
  lemma ParseIntToString(n: int)
    ensures ParsePyInt(IntToString(n)) == Some(n)
  {
    if n >= 0 {
      ParseDigits(NatToString(n));
    } else {
      var d := NatToString(-n);
      var s := "-" + d;
      assert IntToString(n) == s;
      assert s[0] == '-' && s[|s| - 1] == d[|d| - 1] && IsDigit(d[|d| - 1]);
      StripNoop(s);
      assert s[1..] == d;
      assert IsDigit(d[0]) && IsPyDigits(d);
      DropUnderscoresOfDigits(d);
    }
  }

  lemma GroupedIsPyDigits(a: string, b: string)
    requires |a| > 0 && forall i :: 0 <= i < |a| ==> IsDigit(a[i])
    requires |b| > 0 && forall i :: 0 <= i < |b| ==> IsDigit(b[i])
    ensures IsPyDigits(a + "_" + b)
  {
    var s := a + "_" + b;
    assert s[0] == a[0] && s[|s| - 1] == b[|b| - 1];
    forall i | 0 <= i < |s|
      ensures (IsDigit(s[i]) || s[i] == '_') && (s[i] == '_' <==> i == |a|)
    {
      if i < |a| { assert s[i] == a[i]; }
      else if i > |a| { assert s[i] == b[i - |a| - 1]; }
    }
    forall i | 0 < i < |s|
      ensures !UnderscorePair(s, i)
    {
      if i == |a| { assert s[i - 1] == a[|a| - 1]; }
    }
  }

  lemma GroupedDigits(a: string, b: string)
    requires forall i :: 0 <= i < |a| ==> IsDigit(a[i])
    requires forall i :: 0 <= i < |b| ==> IsDigit(b[i])
    ensures DropUnderscores(a + "_" + b) == a + b
  {
    var x := DropUnderscores(a + "_");
    assert x == a by {
      DropUnderscoresAppend(a, "_");
      assert DropUnderscores("_") == [];
      DropUnderscoresOfDigits(a);
      assert a + [] == a;
    }
    assert DropUnderscores(a + "_" + b) == x + DropUnderscores(b) by {
      DropUnderscoresAppend(a + "_", b);
    }
    DropUnderscoresOfDigits(b);
  }

  /** Two digit runs joined by one underscore parse to the value of the
      joined digits: `int("1_000") == 1000`. */
  lemma ParseGrouped(a: string, b: string)
    requires |a| > 0 && forall i :: 0 <= i < |a| ==> IsDigit(a[i])
    requires |b| > 0 && forall i :: 0 <= i < |b| ==> IsDigit(b[i])
    ensures ParsePyInt(a + "_" + b) == Some(DigitsValue(a + b))
  {
    GroupedIsPyDigits(a, b);
    ParseUnsigned(a + "_" + b);
    GroupedDigits(a, b);
  }

  /** A doubled underscore is a ValueError: `int("1__0")` fails. */
  lemma ParseRejectsDoubleUnderscore(a: string, b: string)
    requires |a| > 0 && IsDigit(a[0])
    requires |b| > 0 && IsDigit(b[|b| - 1])
    ensures ParsePyInt(a + "__" + b) == None
  {
    var s := a + "__" + b;
    assert s[0] == a[0] && s[|s| - 1] == b[|b| - 1];
    StripNoop(s);
    assert UnderscorePair(s, |a| + 1);
  }

  /** Length of the longest prefix of `s` made of decimal digits. */
  function DigitRunLength(s: string): (n: nat)
    ensures n <= |s|
    ensures forall i :: 0 <= i < n ==> IsDigit(s[i])
    ensures n < |s| ==> !IsDigit(s[n])
  {
    if |s| > 0 && IsDigit(s[0]) then 1 + DigitRunLength(s[1..]) else 0
  }

  /** Whitespace skipped by JavaScript's `parseInt`: the WhiteSpace and
      LineTerminator characters of ECMAScript (tab, line feed, vertical
      tab, form feed, carriage return, the byte-order mark, the line and
      paragraph separators and every space separator of category Zs). */
  predicate IsJsSpace(c: char) {
    c == ' ' || '\t' <= c <= '\r' || c == '\U{a0}' || c == '\U{feff}'
    || c == '\U{2028}' || c == '\U{2029}' || c == '\U{1680}'
    || '\U{2000}' <= c <= '\U{200a}' || c == '\U{202f}' || c == '\U{205f}' || c == '\U{3000}'
  }

  function SkipJsSpace(s: string): (r: string)
    ensures |r| <= |s| && r == s[|s| - |r|..]
    ensures |r| > 0 ==> !IsJsSpace(r[0])
  {
    if |s| > 0 && IsJsSpace(s[0]) then SkipJsSpace(s[1..]) else s
  }

  /** Some character of `s` is a decimal digit. */
  predicate HasDigit(s: string) {
    exists i :: 0 <= i < |s| && IsDigit(s[i])
  }

  /** JavaScript's `parseInt(s)` in base 10: leading whitespace, an optional
      sign, then the longest run of digits; None stands for NaN. */
  function JsParseInt(s: string): (r: Option<int>)
    ensures r.Some? ==> HasDigit(s)
    ensures |s| > 0 && IsDigit(s[0]) ==> r.Some?
  {
    var t := SkipJsSpace(s);
    var neg := |t| > 0 && t[0] == '-';
    var body := if |t| > 0 && (t[0] == '-' || t[0] == '+') then t[1..] else t;
    var n := DigitRunLength(body);
    if n == 0 then None
    else
      assert body == s[|s| - |body|..];
      assert s[|s| - |body|] == body[0];
      var v: int := DigitsValue(body[..n]);
      Some(if neg then -v else v)
  }

  /** `parseInt` reads the leading digits and ignores the rest:
      `parseInt("20px")` and `parseInt("2.5")` are 20 and 2. */
  lemma JsParseIntPrefix(n: nat, rest: string)
    requires |rest| == 0 || !IsDigit(rest[0])
    ensures JsParseInt(NatToString(n) + rest) == Some(n)
  {
    var d := NatToString(n);
    var s := d + rest;
    assert s[0] == d[0];
    DigitRunOf(d, rest);
    JsParseIntDigitStart(s);
    assert s[..|d|] == d;
  }

  /** Text that starts with a digit parses to the value of its leading
      digit run. */
  lemma JsParseIntDigitStart(s: string)
    requires |s| > 0 && IsDigit(s[0])
    ensures JsParseInt(s) == Some(DigitsValue(s[..DigitRunLength(s)]))
  {
    assert !IsJsSpace(s[0]);
    assert SkipJsSpace(s) == s;
  }

  lemma {:induction false} DigitRunOf(d: string, rest: string)
    requires forall i :: 0 <= i < |d| ==> IsDigit(d[i])
    requires |rest| == 0 || !IsDigit(rest[0])
    ensures DigitRunLength(d + rest) == |d|
    decreases |d|
  {
    if |d| == 0 {
      assert d + rest == rest;
    } else {
      assert (d + rest)[1..] == d[1..] + rest;
      DigitRunOf(d[1..], rest);
    }
  }
}

=== FILE: wrappers.dfy ===
/** Optional values and success/failure results, used wherever the modelled
    code returns null/None or raises. */
module Wrappers {

  datatype Option<+T> = None | Some(value: T) {

    /** Returns the value in Some, or the default for None. */
    function GetOr(default: T): T {
      match this
      case Some(v) => v
      case None => default
    }
  }

  /** A value, or the error the modelled code would raise or respond with. */
  datatype Result<+R, +E> = Success(value: R) | Failure(error: E) {

    predicate IsFailure() {
      Failure?
    }

    function PropagateFailure<U>(): Result<U, E>
      requires Failure?
    {
      Failure(error)
    }

    function Extract(): R
      requires Success?
    {
      value
    }
  }
}
